=== FILE: README.md ===
# Personal organiser core, modelled in Dafny

The application is a personal organiser. Users keep tasks, notes, expenses and shopping lists,
and a dashboard summarises them. A Node/Mongoose backend serves them to an Angular web client.
This project models the parts of it that hold logic of their own, and proves what that logic
promises.

- **The shopping-list aggregate** (`ShoppingModel`, `ShoppingController`):
  - items with schema defaults and validators;
  - the derived counters and the `completionPercentage`, `isOverdue` and `budgetStatus` virtuals;
  - the two pre-save hooks, which recompute both cost totals, move the status between active
    and completed, and stamp `completedAt` on exactly the completed items;
  - the single-item operations `addItem`, `removeItem`, `toggleItem` and `updateItem`;
  - the controller's check order for the item endpoints;
  - the bulk processor with its four actions, one lookup per listed identifier and a single save;
  - archive, update, duplicate, and the export file name.
- **Dashboard derivations** (`Dashboard`): the productivity score, the trend percentage,
  achievement selection, the overview rates, and the merge, sort and cut of the activity feed.
- **Task, note and expense documents** (`TaskModel`, `NoteModel`, `NoteController`,
  `ExpenseModel`):
  - validators and defaults;
  - the `completedAt` hook;
  - the `isOverdue`, `daysUntilDeadline`, `preview`, `wordCount` and `monthYear` virtuals;
  - tag normalisation and tag queries;
  - the note list sort document and paging;
  - `togglePin` and the search check;
  - the zero records of the statistics;
  - the twelve-month fill of the expense chart.
- **The Angular task module** (`WebTaskTypes`, `TaskStatsView`, `TaskFiltersView`,
  `TaskItemView`, `TaskListView`, `TaskFormView`):
  - the statistics panel's percentages, bands and alert text;
  - the filter panel's cleaning, counting, clear button, presets and re-population;
  - the task card's deadline buckets and texts, created-at text, fallbacks, icon and loading
    guard;
  - the list page's filter, sort, page and quick-filter events, its active/completed split and
    save dispatch;
  - the form's date-input text, submit payload, mode switching and texts.

Shared pieces:

- `Wrappers` holds `Option` and `Result`.
- `JsMath` holds `Math.round` as `floor(x + 1/2)` on exact reals rather than doubles,
  `Math.ceil`/`Math.floor` of a millisecond difference over a day, and the rounded percentage.
- `JsText` holds `trim` with the white-space set of `\s`, ASCII `toLowerCase`,
  `String(n)`/`padStart`, and `split`/`join`.

Conventions:

- Clock readings are an explicit `now` (milliseconds since the epoch).
- Prices, amounts and quantities are exact `real`s.
- Generated identifiers are parameters: `newId`, and `freshId` for new sub-documents.
- The browser's local calendar is a function parameter (`TaskFormView.LocalTime`).
- A list is saved by validating it and then running both hooks (`ShoppingModel.Save`). Direct
  updates (`findOneAndUpdate`) skip the hooks, and the model keeps that difference.

## Model

| member | source | states |
|---|---|---|
| ShoppingModel.NewItem | backend/src/models/shopping.model.js:4-52 | a new item carries the given identifier and trimmed name; each absent field takes its schema default (quantity 1, piece, price 0, other, pending, medium); the completion time is the one in the body, if any |
| ShoppingModel.CompletedItems | backend/src/models/shopping.model.js:132-134 | the completed-item count never exceeds the item count |
| ShoppingModel.PendingItems | backend/src/models/shopping.model.js:137-139 | the pending-item count never exceeds the item count |
| ShoppingModel.CompletedPlusPending | backend/src/models/shopping.model.js:127-139 | `completedItems + pendingItems == totalItems` for every item sequence |
| ShoppingModel.CompletedCountFull | backend/src/models/shopping.model.js:132-134 | the completed count equals the item count exactly when every item is completed |
| ShoppingModel.CompletedCountZero | backend/src/models/shopping.model.js:132-134 | the completed count is zero exactly when no item is completed |
| ShoppingModel.CompletionPercentage | backend/src/models/shopping.model.js:120-124 | 0 for an empty list; otherwise the completed share of n items rounded half up, (2r−1)·n ≤ 200·completed < (2r+1)·n, so within 0..100, 100 when all items are done and 0 when none is |
| ShoppingModel.IsOverdue | backend/src/models/shopping.model.js:142-145 | overdue exactly when a due date exists, the list is not completed and `now` is past the date |
| ShoppingModel.SpentAmount | backend/src/models/shopping.model.js:151 | the actual total, except that an actual total of 0 falls back to the estimated total |
| ShoppingModel.BudgetStatusOf | backend/src/models/shopping.model.js:148-157 | no status exactly when the budget is missing or 0; otherwise within, approaching or over budget as the spent share is at most 80%, at most 100% or above |
| ShoppingModel.EstimatedTotalAppend | backend/src/models/shopping.model.js:162-164 | the estimated total of a concatenation is the sum of the parts' totals (the reduce is a plain sum) |
| ShoppingModel.ActualTotalAppend | backend/src/models/shopping.model.js:167-172 | the actual total of a concatenation is the sum of the parts' totals; unpriced items add nothing |
| ShoppingModel.TotalsOfSameCosts | backend/src/models/shopping.model.js:162-172 | the totals depend only on prices and quantities |
| ShoppingModel.TotalsNonNegative | backend/src/models/shopping.model.js:160-172 | items that pass the validators give non-negative totals |
| ShoppingModel.TotalsAndStatus | backend/src/models/shopping.model.js:160-185 | the first hook stores both unrounded totals; active with all items done becomes completed and stamped; completed with a pending item or no items becomes active and unstamped; archived is untouched; outside archived, completed iff non-empty and all done |
| ShoppingModel.StampItem | backend/src/models/shopping.model.js:189-195 | a completed item keeps an existing completion time or gets `now`; a pending item has none; nothing else changes |
| ShoppingModel.StampItems | backend/src/models/shopping.model.js:188-197 | after the second hook, `completedAt` is present on exactly the completed items |
| ShoppingModel.StampConsistent | backend/src/models/shopping.model.js:188-197 | items that already satisfy the completion-time rule are left unchanged |
| ShoppingModel.Recompute | backend/src/models/shopping.model.js:160-197 | both hooks in order: the totals are the sums over the items, the aggregate invariants hold, item order and count are kept, and only the totals, status, `completedAt` and item stamps change |
| ShoppingModel.RecomputeIdempotent | backend/src/models/shopping.model.js:160-197 | saving a saved list again, at any later time, changes nothing |
| ShoppingModel.RecomputeKeepsValidity | backend/src/models/shopping.model.js:160-197 | the hooks never change what the validators look at |
| ShoppingModel.Save | backend/src/models/shopping.model.js:4-112 | a save succeeds exactly when the schema validators accept the list, and then yields the recomputed, consistent list |
| ShoppingModel.FindItem | backend/src/models/shopping.model.js:355 | the lookup returns the first position carrying the identifier, and none exactly when no item carries it |
| ShoppingModel.FindUnique | backend/src/models/shopping.model.js:355 | with unique identifiers the lookup finds the only item carrying the identifier |
| ShoppingModel.AddItem | backend/src/models/shopping.model.js:342-345 | the cast item is appended and the list saved; the save succeeds iff the list and the new item are valid |
| ShoppingModel.AddItemEffect | backend/src/models/shopping.model.js:342-345 | after `addItem` the new item is last, the earlier items keep their order and the estimated total grows by the new item's cost |
| ShoppingModel.AddItemKeepsUniqueIds | backend/src/models/shopping.model.js:342-345 | item identifiers stay distinct through `addItem` when the new identifier is not already used |
| ShoppingModel.AddItemTakenIdDuplicates | backend/src/models/shopping.model.js:342-345 | an identifier already in the list gives two items that share it; `addItem` does not check this |
| ShoppingModel.WithoutId | backend/src/models/shopping.model.js:349 | pulling by identifier leaves no item with that identifier and changes nothing when none carries it |
| ShoppingModel.WithoutPresentId | backend/src/models/shopping.model.js:348-351 | with unique identifiers, removing a present identifier drops exactly that item and keeps the others in order |
| ShoppingModel.RemoveItem | backend/src/models/shopping.model.js:348-351 | an absent identifier fails; otherwise the list is saved without that item, one item shorter |
| ShoppingModel.Toggled | backend/src/models/shopping.model.js:356-363 | the flip inverts `completed`; completion stamps `now`, un-completion clears the time; nothing else changes |
| ShoppingModel.ToggleTwice | backend/src/models/shopping.model.js:354-365 | toggling twice restores `completed` and every field but the completion time |
| ShoppingModel.ToggleItem | backend/src/models/shopping.model.js:354-365 | only the first item with the identifier is flipped, the others are only stamped; an unknown identifier changes no item |
| ShoppingModel.ApplyPatch | backend/src/models/shopping.model.js:371 | each field the patch carries takes the patch value, with name and notes trimmed; each field it omits keeps the item value; a completion time in the body, or its null, replaces the item's; the identifier is kept; the empty patch changes nothing |
| ShoppingModel.PatchedCompletionTime | backend/src/models/shopping.model.js:189-195 | after a patch and the item hook, a completed item keeps a completion time given in the body, a null in the body is replaced by the save time, and a pending item has none |
| ShoppingModel.ApplyPatchIdempotent | backend/src/models/shopping.model.js:368-374 | assigning the same patch twice is assigning it once |
| ShoppingModel.UpdateItem | backend/src/models/shopping.model.js:368-374 | the patch is merged into only the first matching item before the save; an unknown identifier just saves |
| ShoppingController.StatusCode | backend/src/controllers/shopping.controller.js:365-418 | missing list or item is 404, the generic error 500, every other refusal 400 |
| ShoppingController.FindList | backend/src/controllers/shopping.controller.js:330 | the lookup finds a list only when it exists and belongs to the requesting user |
| ShoppingController.NewList | backend/src/models/shopping.model.js:58-112 | a new list has the session's owner, the trimmed name or `Shopping List`, one cast item per input item in order, and the status, colour and category defaults |
| ShoppingController.CreateShoppingList | backend/src/controllers/shopping.controller.js:170-211 | a missing or blank name is refused before anything is built; success is 201 with the saved new list owned by the session user |
| ShoppingController.AddItemToList | backend/src/controllers/shopping.controller.js:308-362 | the checks run in order (list identifier, then item name, then ownership); success is 201 with `addItem` applied to the stored list |
| ShoppingController.ItemEndpoint | backend/src/controllers/shopping.controller.js:365-510 | a malformed list or item identifier is 400 before any lookup; a missing list is 404; an item absent from the list is 404 before any change; only an update can fail validation |
| ShoppingController.RunItemOp | backend/src/controllers/shopping.controller.js:395-496 | each item operation ends in a save: on success the list satisfies the save invariants and keeps its identifier and owner |
| ShoppingController.ToggleMessage | backend/src/controllers/shopping.controller.js:454 | the message names the state the item was moved to: marked completed, or unmarked pending |
| ShoppingController.ToggleMessageAsWritten | backend/src/controllers/shopping.controller.js:454 | a completed item after the toggle is reported as "unmarked as pending" and a pending one as "marked as completed", the intended message for the opposite state |
| ShoppingController.ToggleMessageInverted | backend/src/controllers/shopping.controller.js:442-456 | for a pending item, the message as written says "unmarked as pending" although the item became completed |
| ShoppingController.Mark | backend/src/controllers/shopping.controller.js:547-562 | marking sets `completed` to the target and has a completion time exactly when completed; nothing else changes |
| ShoppingController.CompletionResult | backend/src/controllers/shopping.controller.js:545-565 | `complete`/`uncomplete` move every listed item not yet in the target state and leave every other item, and its completion time, alone |
| ShoppingController.CountToMarkExtend | backend/src/controllers/shopping.controller.js:545-565 | listing one more identifier adds the items it names that still need the change, and adds nothing if it was already listed |
| ShoppingController.CountIdUnique | backend/src/controllers/shopping.controller.js:546-553 | with unique identifiers an identifier counts its one item, and only when that item is not yet in the target state |
| ShoppingController.SetCompletion | backend/src/controllers/shopping.controller.js:545-565 | the loop yields the reference result, and its count is the number of listed items that changed, each once |
| ShoppingController.KeepUnlisted | backend/src/controllers/shopping.controller.js:567-575 | what a delete keeps holds no listed identifier |
| ShoppingController.KeepUnlistedExtend | backend/src/controllers/shopping.controller.js:567-575 | listing one more identifier additionally pulls the items carrying it |
| ShoppingController.DeleteListed | backend/src/controllers/shopping.controller.js:567-575 | the loop removes exactly the listed items found; its count is the number of items removed |
| ShoppingController.PatchResult | backend/src/controllers/shopping.controller.js:577-591 | `update` assigns the patch to every listed item and leaves the others alone |
| ShoppingController.PatchStepFound | backend/src/controllers/shopping.controller.js:584-590 | an identifier naming an item patches that item, and patching it again has no further effect |
| ShoppingController.PatchStepAbsent | backend/src/controllers/shopping.controller.js:584-590 | an identifier no item carries is skipped without effect |
| ShoppingController.PatchListed | backend/src/controllers/shopping.controller.js:577-591 | the loop yields the reference result and counts every lookup that found an item |
| ShoppingController.ParseAction | backend/src/controllers/shopping.controller.js:544-598 | exactly the four action names select an action; any other string is the invalid-action branch |
| ShoppingController.BulkUpdateItems | backend/src/controllers/shopping.controller.js:513-615 | batch-level refusals (identifier, empty or missing id list, missing list, missing update data, unknown action) come before any change; otherwise one save of the changed items with the action's count |
| ShoppingController.ApplyListPatch | backend/src/controllers/shopping.controller.js:226-236 | every field the body carries is stored: name and description trimmed, and items, both totals and the completion time exactly as given, since no hook recomputes them; omitted fields keep their value; the owner and identifier never change |
| ShoppingController.ApplyListPatchIdempotent | backend/src/controllers/shopping.controller.js:226-236 | applying the same list update twice is applying it once |
| ShoppingController.OwnerOnlyPatchIsIdentity | backend/src/controllers/shopping.controller.js:226-236 | a body with no field other than the owner leaves the list as it was |
| ShoppingController.ItemsPatchSkipsTotals | backend/src/controllers/shopping.controller.js:226-236 | replacing the items of an empty consistent list with one priced item leaves the stored estimated total at 0, out of step with the items |
| ShoppingController.UpdateShoppingList | backend/src/controllers/shopping.controller.js:214-267 | a malformed identifier is 400; a body that fails the update validators, items included, is a validation failure; a valid body on a missing list is 404; success is 200 with the stored list patched and its owner kept |
| ShoppingController.ArchiveShoppingList | backend/src/controllers/shopping.controller.js:618-655 | an owned list becomes archived whatever its prior status, with nothing else changed |
| ShoppingController.ArchivedIsSticky | backend/src/models/shopping.model.js:176-182 | an archived list stays archived through any later save |
| ShoppingController.DuplicateInput | backend/src/controllers/shopping.controller.js:679-697 | the copy request has one item per original item, in order |
| ShoppingController.DuplicateShoppingList | backend/src/controllers/shopping.controller.js:658-714 | identifier and ownership checks first; success is 201 with the saved copy; a rejected save is the generic error |
| ShoppingController.DuplicateName | backend/src/controllers/shopping.controller.js:681 | the copy is named `<name> (Copy)` |
| ShoppingController.DuplicateItems | backend/src/controllers/shopping.controller.js:683-692 | each copied item keeps name, quantity, unit, estimated price, category, notes and priority, and is pending with no actual price or completion time |
| ShoppingController.DuplicateRecomputed | backend/src/controllers/shopping.controller.js:679-700 | a saved copy is active, unstamped, and has an actual total of 0 |
| ShoppingController.DuplicateShape | backend/src/controllers/shopping.controller.js:679-700 | a saved copy has the suffixed name, the requesting owner, the copied items, status active without completion time, the original's estimated total and an actual total of 0 |
| ShoppingController.EstimatedOfCopy | backend/src/controllers/shopping.controller.js:683-692 | copying items keeps the estimated total |
| ShoppingController.ActualOfUnpriced | backend/src/models/shopping.model.js:167-172 | items without actual prices have an actual total of 0 |
| ShoppingController.SanitizeName | backend/src/controllers/shopping.controller.js:749 | each character of the name becomes `_` exactly when it is not an ASCII letter or digit, letters are lower-cased, and the length is kept |
| ShoppingController.SanitizeIdempotent | backend/src/controllers/shopping.controller.js:749 | sanitising a sanitised name changes nothing |
| ShoppingController.ExportFileName | backend/src/controllers/shopping.controller.js:749-788 | the file name is the sanitised list name with `.csv` for the CSV format and `.txt` for any other |
| Dashboard.ProductivityScore | backend/src/controllers/dashboard.controller.js:240-254 | 0 without tasks; with t tasks and v = 100·completed − 20·overdue (no penalty without overdue tasks), 0 when v ≤ 0 and otherwise the integer nearest v/t with halves rounded up, (2r−1)·t ≤ 2v < (2r+1)·t; at most 100 when completed ≤ total; the plain rounded completion rate without overdue tasks |
| Dashboard.PenalisedAsQuotient | backend/src/controllers/dashboard.controller.js:244-251 | the unrounded score computed as in the source equals v/t cut off at 0 |
| Dashboard.ProductivityPenaltyMonotone | backend/src/controllers/dashboard.controller.js:247-253 | more overdue tasks never raise the score |
| Dashboard.ProductivityScoreOfStats | backend/src/controllers/dashboard.controller.js:240-254 | the score of any user's task statistics lies in 0..100 |
| Dashboard.TrendPercentage | backend/src/controllers/dashboard.controller.js:298-301 | from 0 the trend is 100 for growth and 0 otherwise; otherwise it is the rounded relative change, (2r−1)·p ≤ 200·(current − p) < (2r+1)·p for a positive baseline p and the mirrored bounds for a negative one; equal values give 0; dropping to 0 is -100 and doubling is 100 |
| Dashboard.TrendQuotient | backend/src/controllers/dashboard.controller.js:298-301 | against a non-zero baseline the trend is 0 for no change, -100 for a drop to 0 and 100 for a doubling, and against a positive one it has the sign of the change |
| Dashboard.TrendRounding | backend/src/controllers/dashboard.controller.js:300 | the rounding interval of the relative change, free of division, for either sign of the baseline |
| Dashboard.TrendMonotone | backend/src/controllers/dashboard.controller.js:300 | against a positive baseline, a larger current value never gives a smaller trend |
| Dashboard.QualifyingOf | backend/src/controllers/dashboard.controller.js:307-349 | the kept achievements are exactly the tested ones that qualify |
| Dashboard.QualifyingOrdered | backend/src/controllers/dashboard.controller.js:307-349 | keeping the qualifying achievements keeps the testing order |
| Dashboard.Achievements | backend/src/controllers/dashboard.controller.js:304-352 | at most three qualifying achievements in the order task, note, shopping, expense; a qualifying one is left out only when three earlier ones were kept |
| Dashboard.BadgeOf | backend/src/controllers/dashboard.controller.js:309-348 | Task Master is `task`, trophy, gold; Note Taker is `note`, edit, blue; Shopping Pro is `shopping`, shopping-cart, green; Budget Tracker is `expense`, dollar-sign, purple |
| Dashboard.KindOfType | backend/src/controllers/dashboard.controller.js:309-348 | a record's `type` names the achievement whose badge carries it |
| Dashboard.BadgeTypeRoundTrip | backend/src/controllers/dashboard.controller.js:309-348 | the `type` of an achievement's badge leads back to that achievement |
| Dashboard.BadgesDistinct | backend/src/controllers/dashboard.controller.js:309-348 | different achievements differ in type, title, icon and colour |
| Dashboard.OverviewRate | backend/src/controllers/dashboard.controller.js:41-43 | the overview completion rate (and the shopping efficiency of lines 64-66) is 0 without a denominator and otherwise the share rounded half up, (2r−1)·total ≤ 200·part < (2r+1)·total; in 0..100 when the part is at most the total, 100 when all are done and 0 when none is |
| Dashboard.PerSourceLimit | backend/src/controllers/dashboard.controller.js:166 | each source query is limited to the quarter of the limit rounded up, positive for a positive limit |
| Dashboard.RequestLimit | backend/src/controllers/dashboard.controller.js:95 | the limit is the parsed query when it is a non-zero integer and 20 otherwise, so it is never 0 but may be negative |
| Dashboard.FromTask | backend/src/controllers/dashboard.controller.js:170-178 | a task entry is stamped with the update time and reads completed for a completed task, updated otherwise |
| Dashboard.FromShoppingList | backend/src/controllers/dashboard.controller.js:222-231 | a shopping entry is titled `<name> (<completed>/<total> items)` |
| Dashboard.InsertKeepsOrder | backend/src/controllers/dashboard.controller.js:235 | inserting into a newest-first feed keeps it newest-first |
| Dashboard.SortNewestFirst | backend/src/controllers/dashboard.controller.js:234-235 | the sort is a permutation of the entries and orders them newest first |
| Dashboard.InsertStable | backend/src/controllers/dashboard.controller.js:235 | inserting an entry puts it ahead of the entries sharing its timestamp and moves no other entry |
| Dashboard.SortStable | backend/src/controllers/dashboard.controller.js:235 | the sort is stable: entries sharing a timestamp keep the order they had in the concatenated sources |
| Dashboard.WithTimePrefix | backend/src/controllers/dashboard.controller.js:236 | among entries sharing a timestamp, a prefix of the feed holds the first ones of the whole feed |
| Dashboard.RecentActivity | backend/src/controllers/dashboard.controller.js:160-237 | the feed is newest first and takes each entry from the four sources no more often than it occurs there; a non-negative limit keeps the smaller of the limit and the number of entries, a negative limit drops that many entries from the end; among entries sharing a timestamp, those kept are the first ones of the concatenated sources |
| Dashboard.RecentActivityKeepsNewest | backend/src/controllers/dashboard.controller.js:234-236 | no entry cut from the feed is newer than the oldest entry kept |
| TaskModel.ParseCategory | backend/src/models/task.model.js:19-24 | the category validator accepts exactly the five stored spellings |
| TaskModel.CategoryRoundTrip | backend/src/models/task.model.js:19-24 | every category reads back from its stored spelling |
| TaskModel.ParsePriority | backend/src/models/task.model.js:25-29 | the priority validator accepts exactly the three stored spellings |
| TaskModel.PriorityRoundTrip | backend/src/models/task.model.js:25-29 | every priority reads back from its stored spelling |
| TaskModel.NewTask | backend/src/models/task.model.js:3-50 | a new task has the trimmed title and the defaults pending, personal and medium; no completion time |
| TaskModel.Validate | backend/src/models/task.model.js:3-39 | an error is reported exactly when its validator's rule is broken, none twice, and no error iff the task is valid; a deadline is accepted when absent or not before `now` |
| TaskModel.ValidIffNothingBroken | backend/src/models/task.model.js:3-39 | a task is valid exactly when it breaks none of the five validators |
| TaskModel.StampCompletion | backend/src/models/task.model.js:73-80 | the completion time is present iff the task is completed; an existing one is kept, a missing one becomes `now` |
| TaskModel.StampCompletionIdempotent | backend/src/models/task.model.js:73-80 | a second save keeps the first completion time |
| TaskModel.IsOverdue | backend/src/models/task.model.js:57-60 | overdue exactly when a deadline exists, the task is pending and `now` is past it |
| TaskModel.DaysUntilDeadline | backend/src/models/task.model.js:63-70 | none without a deadline or once completed, otherwise the remaining milliseconds divided by a day, rounded up |
| TaskModel.OverdueAgreesWithDays | backend/src/models/task.model.js:57-70 | a negative day count means overdue; an overdue task never shows a positive count |
| TaskModel.CountCompleted | backend/src/models/task.model.js:90-92 | the completed count never exceeds the task count |
| TaskModel.CountOverdue | backend/src/models/task.model.js:93-107 | the corrected overdue count never exceeds the task count |
| TaskModel.CountOverdueFollowsVirtual | backend/src/models/task.model.js:57-60 | the corrected overdue count grows by one for a task exactly when the `isOverdue` virtual holds for it |
| TaskModel.CountOverdueAsWritten | backend/src/models/task.model.js:93-107 | the overdue count of the pipeline as written never exceeds the task count |
| TaskModel.OverdueAsWrittenCountsUndated | backend/src/models/task.model.js:93-107 | the pipeline as written counts the overdue tasks plus every pending task stored without a deadline |
| TaskModel.UndatedTaskCountedOverdue | backend/src/models/task.model.js:93-107 | a single pending task without a deadline is counted overdue as written, but is not overdue for the corrected count or the `isOverdue` virtual |
| TaskModel.CountDueToday | backend/src/models/task.model.js:108-127 | the due-today count never exceeds the task count |
| TaskModel.StatsOf | backend/src/models/task.model.js:83-138 | the all-zero record for a user without tasks; the total is the task count, and the completed, corrected overdue and due-today fields are the counts of such tasks; completed and overdue together never exceed the total |
| TaskModel.StatsAsWritten | backend/src/models/task.model.js:93-107 | the record as the pipeline produces it: every field agrees with `StatsOf` except overdue, which exceeds it by the pending tasks without a deadline; completed and overdue together still never exceed the total |
| TaskModel.CompletedPlusOverdue | backend/src/models/task.model.js:90-107 | overdue tasks are pending, so completed plus overdue never exceeds the total |
| NoteModel.NewNote | backend/src/models/note.model.js:3-43 | a new note has trimmed title and content, trimmed lower-case tags and the defaults personal, yellow and unpinned |
| NoteModel.Preview | backend/src/models/note.model.js:64-69 | empty content previews as empty; up to 100 characters it is the content itself; longer content gives its first 100 characters and `...`, 103 in all |
| NoteModel.WordCount | backend/src/models/note.model.js:72-75 | 0 for empty content, at least 1 otherwise |
| NoteModel.WordCountCountsWords | backend/src/models/note.model.js:72-75 | for content with text in it, the count equals the number of words of the trimmed text |
| NoteModel.WordCountOfBlank | backend/src/models/note.model.js:72-75 | non-empty white space alone counts as one word |
| NoteModel.CountPinned | backend/src/models/note.model.js:85-87 | the pinned count never exceeds the note count |
| NoteModel.CountCategory | backend/src/models/note.model.js:88-114 | a category count never exceeds the note count |
| NoteModel.StatsOf | backend/src/models/note.model.js:78-125 | zero counts and an empty breakdown without notes; the total is the note count and the pinned count the number of pinned notes; the breakdown holds exactly the categories that occur, with their counts |
| NoteController.NormalizeTag | backend/src/controllers/note.controller.js:182 | a normalised tag is trimmed and lower-case, and empty exactly when the tag was blank |
| NoteController.NormalizeTagIdempotent | backend/src/controllers/note.controller.js:182 | normalising a normalised tag changes nothing |
| NoteController.NormalizeTags | backend/src/controllers/note.controller.js:181-183 | the processed tags are no more than the given ones, each non-empty, trimmed and lower-case |
| NoteController.NormalizeTagsSound | backend/src/controllers/note.controller.js:181-183 | every processed tag is the normal form of some given tag |
| NoteController.NormalizeTagsComplete | backend/src/controllers/note.controller.js:181-183 | every non-blank given tag survives in normal form |
| NoteController.NormalizeTagsAppend | backend/src/controllers/note.controller.js:181-183 | processing distributes over concatenation, so the tags keep their relative order |
| NoteController.NormalizeTagsIdempotent | backend/src/controllers/note.controller.js:235-238 | processing processed tags changes nothing |
| NoteController.CreateTags | backend/src/controllers/note.controller.js:181-183 | an array is processed; anything else gives no tags |
| NoteController.UpdateTags | backend/src/controllers/note.controller.js:235-239 | an update processes the tags only when they are an array and forwards anything else untouched |
| NoteController.ParseTagQuery | backend/src/controllers/note.controller.js:49-52 | one normalised entry per comma-separated piece, empty pieces kept |
| NoteController.TagQueryRoundTrip | backend/src/controllers/note.controller.js:49-52 | normalised tags without commas, joined by commas, parse back to themselves |
| NoteController.BuildNote | backend/src/controllers/note.controller.js:180-194 | the built note stores the trimmed title and content and exactly the processed tags, which the schema's own setters leave unchanged; `isPinned` defaults to false |
| NoteController.CreateNote | backend/src/controllers/note.controller.js:160-218 | a blank title is refused first, then a blank content; a created note is the built note and passes the schema |
| NoteController.TogglePin | backend/src/controllers/note.controller.js:299-307 | the flip inverts `isPinned`, stamps `updatedAt` with the request time and changes nothing else; the message names the new state |
| NoteController.TogglePinTwice | backend/src/controllers/note.controller.js:300-301 | toggling twice restores every field but `updatedAt`, which holds the second time |
| NoteController.SearchQuery | backend/src/controllers/note.controller.js:377-386 | a missing or blank query is refused; otherwise the trimmed, non-empty query is used |
| NoteController.Skip | backend/src/controllers/note.controller.js:68 | page 1 skips nothing, and later pages never skip a negative number |
| NoteController.SkipNextPage | backend/src/controllers/note.controller.js:68 | the next page starts exactly `limit` documents later |
| NoteController.SortAsWritten | backend/src/controllers/note.controller.js:59-65 | the sort document puts the requested field first and adds `isPinned` descending second unless the field is `isPinned` |
| NoteController.SortPinnedFirst | backend/src/controllers/note.controller.js:62-65 | the intended sort document: `isPinned` descending first, then the requested field |
| NoteController.PinnedNotFirstAsWritten | backend/src/controllers/note.controller.js:59-65 | under the sort as written, a newer unpinned note is listed before an older pinned one |
| NoteController.PinnedFirst | backend/src/controllers/note.controller.js:62-65 | under the intended sort, a pinned note always precedes an unpinned one, and notes alike in pinning are ordered by the requested field |
| ExpenseModel.NewExpense | backend/src/models/expense.model.js:3-80 | the amount as given; a trimmed description; trimmed lower-case tags; the defaults other, `now`, cash and non-recurring |
| ExpenseModel.Validate | backend/src/models/expense.model.js:3-80 | an error is reported exactly when its rule is broken (amount in 0.01..999999.99, description ≤ 200, date at most a day ahead, and so on), none twice, and nothing exactly when no rule is broken |
| ExpenseModel.ValidateAgrees | backend/src/models/expense.model.js:3-80 | an expense is reported error-free exactly when it satisfies the schema |
| ExpenseModel.RecurringPeriodRule | backend/src/models/expense.model.js:46-56 | a period is required exactly when the expense recurs |
| ExpenseModel.MonthYear | backend/src/models/expense.model.js:93-96 | the label is the year's numeral, a dash and the month number as two digits |
| ExpenseModel.MonthYearRoundTrip | backend/src/models/expense.model.js:93-96 | the label reads back as the year and month it was made from, so distinct months get distinct labels |
| ExpenseModel.FindMonthIndex | backend/src/models/expense.model.js:251 | the search finds the first group of the month, or reports that none exists |
| ExpenseModel.EntryFor | backend/src/models/expense.model.js:250-258 | a month's entry has its number and short name, copies the first group of that month, or holds 0, 0 and an empty breakdown |
| ExpenseModel.Chart | backend/src/models/expense.model.js:249-261 | the chart has exactly twelve entries, one per month in ascending order |
| ExpenseModel.FillMonths | backend/src/models/expense.model.js:249-261 | the fill loop builds exactly that chart, months 1..12 in order |
| ExpenseModel.ChartKeepsEveryGroup | backend/src/models/expense.model.js:251-258 | when the groups have distinct months, every group's totals and breakdown appear in its month |
| ExpenseModel.ChartZeroForEmptyMonth | backend/src/models/expense.model.js:255-257 | a month without a group shows zero amount and zero expenses |
| ExpenseModel.StatsOf | backend/src/models/expense.model.js:111-184 | the zero record without expenses; otherwise the count, the sum, a mean that times the count gives the sum, and breakdowns holding exactly the categories and methods that occur, with the amount spent per category and the number of expenses per method |
| ExpenseModel.CategoryBreakdown | backend/src/models/expense.model.js:136-156 | the category map holds exactly the categories that occur, each with the sum of its amounts |
| ExpenseModel.MethodBreakdown | backend/src/models/expense.model.js:157-173 | the method map holds exactly the methods that occur, each with its number of expenses |
| ExpenseModel.CategoryAmountsAddUp | backend/src/models/expense.model.js:119-156 | the per-category amounts add up to the total |
| ExpenseModel.MethodCountsAddUp | backend/src/models/expense.model.js:125-173 | the per-method counts add up to the number of expenses |
| WebTaskTypes.FindChoice | web/src/app/modules/tasks/models/task.models.ts:84-96 | a found entry is in the table with the sought value; nothing is found exactly when no entry has it |
| TaskStatsView.CompletionPercentage | web/src/app/modules/tasks/components/task-stats/task-stats.component.ts:18-22 | 0 without tasks, otherwise the rounded share, within 0..100 when completed ≤ total |
| TaskStatsView.ActiveTasks | web/src/app/modules/tasks/components/task-stats/task-stats.component.ts:24-26 | active and completed add up to the total |
| TaskStatsView.BandOf | web/src/app/modules/tasks/components/task-stats/task-stats.component.ts:32-45 | the four bands split the percentages at 80, 60 and 40 |
| TaskStatsView.BandMonotone | web/src/app/modules/tasks/components/task-stats/task-stats.component.ts:32-37 | a higher percentage never falls into a lower band |
| TaskStatsView.ProgressBarColor | web/src/app/modules/tasks/components/task-stats/task-stats.component.ts:32-37 | green from 80, yellow from 60, orange from 40 and red below |
| TaskStatsView.ProductivityStatus | web/src/app/modules/tasks/components/task-stats/task-stats.component.ts:39-45 | "No tasks yet" exactly when there are no tasks; otherwise one text per band |
| TaskStatsView.EmptyStatsShowRed | web/src/app/modules/tasks/components/task-stats/task-stats.component.ts:32-45 | without tasks the bar is red and the status says there are none |
| TaskStatsView.UrgentTasksCount | web/src/app/modules/tasks/components/task-stats/task-stats.component.ts:55-57 | the urgent count is the overdue count plus the due-today count, so it is 0 exactly when both are |
| TaskStatsView.ShowUrgentAlert | web/src/app/modules/tasks/components/task-stats/task-stats.component.ts:59-61 | the alert shows exactly when a task is overdue or due today |
| TaskStatsView.UrgentAlertText | web/src/app/modules/tasks/components/task-stats/task-stats.component.ts:63-72 | the combined text when both counters are set; the overdue text with "task" only for 1; the due-today text; otherwise empty |
| TaskStatsView.AlertTextIffShown | web/src/app/modules/tasks/components/task-stats/task-stats.component.ts:59-72 | the alert text is non-empty exactly when the alert is shown |
| TaskFiltersView.DateInputRoundTrip | web/src/app/modules/tasks/components/task-filters/task-filters.component.ts:150-152 | a day emitted as an instant reads back into the date input as that day |
| TaskFiltersView.DateFromInput | web/src/app/modules/tasks/components/task-filters/task-filters.component.ts:138-139 | a date input becomes that day followed by midnight UTC, `T00:00:00.000Z` |
| TaskFiltersView.DateForInput | web/src/app/modules/tasks/components/task-filters/task-filters.component.ts:150-152 | the date input takes the text of the instant before its first `T`, or all of it |
| TaskFiltersView.EmitFilters | web/src/app/modules/tasks/components/task-filters/task-filters.component.ts:125-148 | blank search, `all` category or priority, an unset overdue flag and empty dates are omitted; kept search text is trimmed; no page or limit |
| TaskFiltersView.ActiveFilterCount | web/src/app/modules/tasks/components/task-filters/task-filters.component.ts:239-253 | at most seven, with a due-date range counted once |
| TaskFiltersView.HasActiveFiltersIffCount | web/src/app/modules/tasks/components/task-filters/task-filters.component.ts:223-253 | filters are active exactly when the count is positive |
| TaskFiltersView.HasActiveFilters | web/src/app/modules/tasks/components/task-filters/task-filters.component.ts:223-237 | the panel has active filters exactly when it counts at least one |
| TaskFiltersView.CountMatchesEmitted | web/src/app/modules/tasks/components/task-filters/task-filters.component.ts:239-253 | the count equals the number of filter keys the panel emits |
| TaskFiltersView.ClearButtonLabel | web/src/app/modules/tasks/components/task-filters/task-filters.component.ts:266-282 | "No active filters" exactly at 0; otherwise "Clear …", in the plural exactly above 1 |
| TaskFiltersView.ClearButtonLabelInjective | web/src/app/modules/tasks/components/task-filters/task-filters.component.ts:266-273 | different counts give different labels |
| TaskFiltersView.ClearAllFilters | web/src/app/modules/tasks/components/task-filters/task-filters.component.ts:159-174 | the corrected clear: nothing is active, the button reads "No active filters", and only the default sort is emitted |
| TaskFiltersView.ClearAllFiltersAsWritten | web/src/app/modules/tasks/components/task-filters/task-filters.component.ts:159-174 | the reset leaves the completion and deadline controls `null`, and otherwise gives the corrected form |
| TaskFiltersView.ClearLeavesTwoFilters | web/src/app/modules/tasks/components/task-filters/task-filters.component.ts:159-174 | after the reset as written two filters still count as active, the button reads "Clear 2 filters" and both `null` members are emitted |
| TaskFiltersView.ShowOverdueTasks | web/src/app/modules/tasks/components/task-filters/task-filters.component.ts:181-188 | sets pending, overdue and deadline ascending, and keeps every other field |
| TaskFiltersView.ShowDueTodayTasks | web/src/app/modules/tasks/components/task-filters/task-filters.component.ts:190-204 | sets pending, today's range and deadline ascending, and keeps every other field |
| TaskFiltersView.ShowHighPriorityTasks | web/src/app/modules/tasks/components/task-filters/task-filters.component.ts:206-213 | sets high priority, pending and deadline ascending, and keeps every other field |
| TaskFiltersView.ShowRecentTasks | web/src/app/modules/tasks/components/task-filters/task-filters.component.ts:215-220 | sets newest-created first and changes no filter count |
| TaskFiltersView.PresetsActivateFilters | web/src/app/modules/tasks/components/task-filters/task-filters.component.ts:181-213 | each filtering preset leaves at least two filters active, and applying a preset twice is applying it once |
| TaskFiltersView.PopulateForm | web/src/app/modules/tasks/components/task-filters/task-filters.component.ts:87-104 | missing inputs become `all`, `createdAt`, `desc`, `false` and `''` |
| TaskFiltersView.PopulateEmitRoundTrip | web/src/app/modules/tasks/components/task-filters/task-filters.component.ts:87-104 | a panel state in normal form survives emitting and re-populating |
| TaskItemView.CategoryInfo | web/src/app/modules/tasks/components/task-item/task-item.component.ts:21-23 | the matching category entry, or the `other` entry when none matches |
| TaskItemView.PriorityInfo | web/src/app/modules/tasks/components/task-item/task-item.component.ts:25-27 | the matching priority entry, or the `medium` entry when none matches |
| TaskItemView.DaysLeft | web/src/app/modules/tasks/components/task-item/task-item.component.ts:40 | the remaining milliseconds divided by a day, rounded up |
| TaskItemView.DeadlineStatus | web/src/app/modules/tasks/components/task-item/task-item.component.ts:34-46 | none without a deadline or once completed; otherwise overdue, due today, due soon (1..3 days) or future as the day count is negative, 0, at most 3 or more |
| TaskItemView.DeadlineStatusInTime | web/src/app/modules/tasks/components/task-item/task-item.component.ts:37-45 | the buckets in milliseconds: overdue from a full day late, due today within the last day up to the deadline, future beyond three days |
| TaskItemView.OverdueAgreesWithStatus | web/src/app/modules/tasks/components/task-item/task-item.component.ts:29-46 | the overdue bucket implies overdue, and an overdue task is in the overdue or due-today bucket |
| TaskItemView.IsOverdue | web/src/app/modules/tasks/components/task-item/task-item.component.ts:29-32 | an overdue card is pending and has a deadline whose rounded-up day count is at most 0; a pending card whose day count is negative is overdue |
| TaskItemView.DeadlineText | web/src/app/modules/tasks/components/task-item/task-item.component.ts:48-66 | none without a deadline; "Overdue by n day(s)", "Due today", "Due tomorrow", "Due in n days" up to 7, then the local date; completion is ignored |
| TaskItemView.DeadlineTextAgreesWithStatus | web/src/app/modules/tasks/components/task-item/task-item.component.ts:34-66 | for a pending task, the overdue text appears exactly in the overdue bucket and "Due today" exactly in the due-today bucket |
| TaskItemView.DaysAgo | web/src/app/modules/tasks/components/task-item/task-item.component.ts:74 | the elapsed milliseconds divided by a day, rounded down |
| TaskItemView.FormattedCreatedAtAsWritten | web/src/app/modules/tasks/components/task-item/task-item.component.ts:68-81 | empty without a date; "Today" at 0 days, "Yesterday" at 1, "<d> days ago" for every other count up to 7, negative ones included, and the local date beyond 7 |
| TaskItemView.CreatedAtAheadOfClock | web/src/app/modules/tasks/components/task-item/task-item.component.ts:73-78 | a creation time one millisecond ahead of the clock is shown as "-1 days ago" |
| TaskItemView.FormattedCreatedAt | web/src/app/modules/tasks/components/task-item/task-item.component.ts:68-81 | as written for creation times in the past, "<d> days ago" for 2 to 7 days, and "Today" for any creation time not yet a day old, including future ones |
| TaskItemView.FormattedCreatedAtNeverNegative | web/src/app/modules/tasks/components/task-item/task-item.component.ts:76-78 | the corrected text is never a negative "days ago" |
| TaskItemView.PriorityIcon | web/src/app/modules/tasks/components/task-item/task-item.component.ts:83-89 | arrow-up exactly for high, arrow-down exactly for low, minus otherwise |
| TaskItemView.IconFollowsPriorityInfo | web/src/app/modules/tasks/components/task-item/task-item.component.ts:83-89 | a task shown with the medium entry, including any unknown priority, gets the minus icon |
| TaskItemView.Guarded | web/src/app/modules/tasks/components/task-item/task-item.component.ts:91-104 | nothing is emitted while loading; otherwise the task itself |
| TaskListView.InitialFiltersFillDefaultForm | web/src/app/modules/tasks/pages/task-list/task-list.component.ts:38-46 | the page's starting filters fill the panel exactly as the panel first builds itself, with no filter counted active |
| TaskListView.Overlay | web/src/app/modules/tasks/pages/task-list/task-list.component.ts:184 | each of the twelve members is the new record's when it sets it and the current one otherwise |
| TaskListView.OverlayLaws | web/src/app/modules/tasks/pages/task-list/task-list.component.ts:184 | spreading an empty record changes nothing, spreading onto an empty record copies, and spreading a record twice is spreading it once |
| TaskListView.OnFiltersChangeAsWritten | web/src/app/modules/tasks/pages/task-list/task-list.component.ts:183-186 | the emitted record spread over the current filters with the page set to 1, so a category the panel omitted keeps its current value |
| TaskListView.ClearedFilterSurvives | web/src/app/modules/tasks/pages/task-list/task-list.component.ts:183-186 | after the panel is reset to `all`, the page still filters on the old category |
| TaskListView.OnFiltersChange | web/src/app/modules/tasks/pages/task-list/task-list.component.ts:183-186 | the corrected change takes the emitted filters whole, keeps the limit and goes to page 1 |
| TaskListView.FiltersFollowPanel | web/src/app/modules/tasks/pages/task-list/task-list.component.ts:183-186 | under the corrected change the page's filters re-populate the panel into exactly the state that emitted them |
| TaskListView.OnSortChange | web/src/app/modules/tasks/pages/task-list/task-list.component.ts:188-200 | ascending exactly when the same field is re-selected while descending, descending otherwise; page 1; nothing else changes |
| TaskListView.SortChangeAlternates | web/src/app/modules/tasks/pages/task-list/task-list.component.ts:188-200 | re-selecting a field flips the order, and the third click repeats the first |
| TaskListView.OnPageChange | web/src/app/modules/tasks/pages/task-list/task-list.component.ts:203-206 | only the page changes |
| TaskListView.QuickFilter | web/src/app/modules/tasks/pages/task-list/task-list.component.ts:225-238 | "all" leaves the completion member undefined, "active" and "completed" set it to false and true; the page becomes 1 and nothing else changes |
| TaskListView.ActiveTasks | web/src/app/modules/tasks/pages/task-list/task-list.component.ts:247-249 | only loaded tasks that are pending |
| TaskListView.CompletedTasks | web/src/app/modules/tasks/pages/task-list/task-list.component.ts:251-253 | only loaded tasks that are completed |
| TaskListView.ActiveCompletedPartition | web/src/app/modules/tasks/pages/task-list/task-list.component.ts:247-253 | the two lists together hold every loaded task exactly as often as the page does |
| TaskListView.ActiveKeepsOrder | web/src/app/modules/tasks/pages/task-list/task-list.component.ts:247-249 | the active list keeps the page order: the active tasks of two runs of tasks are those of the first run followed by those of the second |
| TaskListView.CompletedKeepsOrder | web/src/app/modules/tasks/pages/task-list/task-list.component.ts:251-253 | the completed list keeps the page order in the same way |
| TaskListView.QuickFiltersMatchSplit | web/src/app/modules/tasks/pages/task-list/task-list.component.ts:225-253 | the active and completed quick filters ask the server for what the page's own split shows, and "all" matches everything |
| TaskListView.CompletionPercentage | web/src/app/modules/tasks/pages/task-list/task-list.component.ts:241-245 | the page shows the statistics panel's figure, within 0..100 when completed ≤ total |
| TaskListView.SplitPercentage | web/src/app/modules/tasks/pages/task-list/task-list.component.ts:241-253 | statistics of the loaded tasks read 100 when none is active and 0 when none is completed |
| TaskListView.SaveDispatch | web/src/app/modules/tasks/pages/task-list/task-list.component.ts:256-262 | an update of that identifier exactly when the edited task has an identifier, a create otherwise; the payload is passed on |
| TaskFormView.FormatDateForInput | web/src/app/modules/tasks/components/task-form/task-form.component.ts:83-91 | the text is the year's numeral followed by twelve characters of zero-padded fields and separators |
| TaskFormView.FormatDateRoundTrip | web/src/app/modules/tasks/components/task-form/task-form.component.ts:83-91 | the `YYYY-MM-DDTHH:mm` text reads back as the date and time it was made from |
| TaskFormView.OnSubmit | web/src/app/modules/tasks/components/task-form/task-form.component.ts:93-106 | nothing while invalid or loading; otherwise a trimmed title, an omitted blank description (else trimmed) and an omitted empty deadline |
| TaskFormView.PopulateTaskForm | web/src/app/modules/tasks/components/task-form/task-form.component.ts:61-71 | the form shows the task's fields, an empty description for none, and an empty deadline exactly when there is none |
| TaskFormView.OnTaskChange | web/src/app/modules/tasks/components/task-form/task-form.component.ts:41-49 | a task switches to edit and populates the form; no task switches to create and resets it; no change keeps both |
| TaskFormView.ResetFormIsEmpty | web/src/app/modules/tasks/components/task-form/task-form.component.ts:73-81 | a reset form cannot be submitted |
| TaskFormView.EditThenSubmit | web/src/app/modules/tasks/components/task-form/task-form.component.ts:61-106 | submitting a populated valid task gives back its title, category and priority |
| TaskFormView.FormTitle | web/src/app/modules/tasks/components/task-form/task-form.component.ts:151-153 | "Edit Task" exactly in edit mode and "Create New Task" exactly otherwise |
| TaskFormView.SubmitButtonText | web/src/app/modules/tasks/components/task-form/task-form.component.ts:155-160 | updating or creating text while loading, update or create text otherwise |
| TaskFormView.SubmitButtonTextInjective | web/src/app/modules/tasks/components/task-form/task-form.component.ts:155-160 | the four mode and loading combinations show four different texts |
| TaskFormView.TitleErrors | web/src/app/modules/tasks/components/task-form/task-form.component.ts:113-127 | nothing until touched; then the required error exactly for an empty title and the length error exactly above 200 characters |
| TaskFormView.DescriptionErrors | web/src/app/modules/tasks/components/task-form/task-form.component.ts:129-140 | nothing until touched; then the length error exactly above 1000 characters |
| TaskFormView.ErrorsExplainRefusal | web/src/app/modules/tasks/components/task-form/task-form.component.ts:113-140 | when not loading, a submit is refused exactly when a touched field would show an error |

## Left out

- MongoDB queries and aggregation pipelines are not modelled: `find`, `findOneAndUpdate`,
  `countDocuments`, the `$group`/`$reduce` stages, text search and its ranking. The
  statistics are modelled as what the pipelines count. The shopping and category analytics,
  and the query-only handlers (fetch by id, delete, recent lists), hold nothing beyond the
  lookup.
- Persistence concurrency (load, change, save with no version check) is not modelled. Every
  operation is one sequential step.
- Mongoose casting is reduced to typed inputs, so enum strings outside an enum are not
  representable. A non-string tag, which makes `trim` throw, is not modelled either, and
  neither is a non-array `tags` in a note update, which Mongoose would cast.
- `ShoppingController.ValidObjectId` accepts 24 hexadecimal characters only. The 12-character
  strings that `ObjectId.isValid` also accepts are left out.
- ExpenseModel.StatsOf: the pipeline's `$round` to two places of the total and the mean is
  not applied. The model states the exact sum and mean.
- ExpenseModel.Validate: the date rule is modelled as "at most one day (86 400 000 ms) after
  `now`". `setDate(+1)` is a calendar day, which differs across a daylight-saving change.
- TaskModel.StatsOf: its overdue field is the corrected count, which the rest of the model
  uses. The count the pipeline produces as written is `TaskModel.StatsAsWritten` (see "## Findings").
- TaskModel.StatsOf: the local day of the due-today count is passed in as its two bounds,
  because `setHours` depends on the server's time zone.
- ExpenseModel.MonthYear: the year and month are passed in, because `getFullYear` and
  `getMonth` depend on the server's time zone.
- Locale and time-zone text is not produced:
  - `toLocaleDateString` is a placeholder value (`TaskItemView.LocalDate`,
    `TaskItemView.CreatedDate`);
  - the short month name is a fixed English table;
  - `formattedAmount` (`toFixed`) is left out;
  - the CSV and plain-text export bodies are left out. Only their file names are modelled.
- Several texts and averages are not modelled, because they format floating-point numbers:
  - the dashboard's `averageWordsPerNote`, `averageDaily` and budget alert;
  - the achievement descriptions;
  - the expense title of the activity feed.
- The `progressBarWidth`, `hasOverdueTasks` and `hasDueTodayTasks` getters are one-line reads
  and have no member of their own. The `totalItems` virtual is `ShoppingModel.TotalItems`.
- String lengths count Dafny characters, not UTF-16 code units, and `toLowerCase` maps ASCII
  letters only.
- The task form's `ngOnInit`, `setHighPriority`, `setDueTomorrow`, `setDueNextWeek` and
  `clearDeadline` are left out, along with its `getCategoryInfo`/`getPriorityInfo` and
  character counters. `ngOnInit` is the `OnTaskChange` case of a present task.
- The list page's optimistic local toggle and its revert (task-list lines 145-164) are left
  out, because they depend on the HTTP result.
- The filter panel's handling of a `null` filters input is left out. An unset value is `None`
  throughout. Angular's `null` is modelled only for the completion and deadline controls, as
  `Some(None)`, since clearing the panel leaves those two controls `null`.
- ShoppingController.BulkUpdateItems: this operation and its helpers `SetCompletion`,
  `DeleteListed` and `PatchListed` require distinct item identifiers. The source does not
  guarantee them: `addItem` and the list update store identifiers the client sends.
  `ShoppingModel.AddItemKeepsUniqueIds` shows that a fresh identifier keeps them distinct, and
  `ShoppingModel.AddItemTakenIdDuplicates` shows that a taken one does not.
- TaskFiltersView.DateForInput: the `new Date(x).toISOString()` normalisation before the split
  is not modelled. The text is split as given, which differs from the source for a string with
  an offset other than UTC.
- ShoppingController.ApplyListPatch: items in an update body are stored as given. Mongoose's
  sub-document casting (trimming, defaults, generated identifiers) is not applied to them.
- JsMath.Percent: the rounding is exact rational arithmetic, while the source
  computes in IEEE doubles, so at an exact half the result can differ by one: `29/200*100` is
  `14.499999999999998` as a double, so the source gives 14 and the model 15.
- ShoppingModel.CompletionPercentage: exact arithmetic, as in `JsMath.Percent`. At an exact half
  the double computation can round one lower (29 of 200 items gives 14, not 15).
- Dashboard.OverviewRate: exact arithmetic, as in `JsMath.Percent`. At an exact half the double
  computation can round one lower (29 of 200 tasks gives 14, not 15).
- Dashboard.ProductivityScore: the subtraction, the division and the rounding are exact. The
  source does them in doubles, so a score at an exact half can differ by one.
- Dashboard.TrendPercentage: the relative change is rounded exactly. The source's double
  quotient can fall just below or above an exact half and round the other way.
- TaskStatsView.CompletionPercentage: exact arithmetic, as in `JsMath.Percent`. At an exact half
  the double computation can round one lower.
- TaskListView.CompletionPercentage: the figure of `TaskStatsView.CompletionPercentage`, with
  the same exact-versus-double difference at an exact half.
- ShoppingModel.ApplyPatch: an `_id` in the body, which `Object.assign` would copy onto the
  item, is not modelled, so the identifier is kept. A null for a field other than the
  completion time is not representable either.
- ShoppingModel.NewItem: an `_id` in the body, which Mongoose would keep instead of generating
  one, is not modelled. The identifier is the one passed in.
- Dashboard.PerSourceLimit: how the database driver reads a zero or negative `limit` is not
  modelled. The model only states the number handed to it.
- Express routing, authentication, tokens, the service layers, the mobile app and the
  dashboard page's mock data are outside the modelled core.
- Every 500 response (an exception thrown by the database layer) is one `ServerError` failure.

## Findings

| source | as written | input that shows it | evidently intended | confidence | as-written member | corrected member |
|---|---|---|---|---|---|---|
| backend/src/controllers/note.controller.js:59-65 | the sort document gets the requested field as its first key and `isPinned` second, so the requested field decides first | default sort (`updatedAt` descending), a pinned note updated at 1 and an unpinned note updated at 2: the unpinned note is listed first | pinned notes come first, as the comment says and as the recent-notes query (line 106) does | not executed | NoteController.SortAsWritten, NoteController.PinnedNotFirstAsWritten | NoteController.SortPinnedFirst, NoteController.PinnedFirst |
| web/src/app/modules/tasks/pages/task-list/task-list.component.ts:183-186 | the emitted filters are spread over the current ones, but the panel omits a filter set back to `all`, so the old value survives | current category `work`, then the panel reset to `all`: the page still filters on `work` | the page's filters follow the panel, so a cleared filter stops filtering | not executed | TaskListView.OnFiltersChangeAsWritten, TaskListView.ClearedFilterSurvives | TaskListView.OnFiltersChange, TaskListView.FiltersFollowPanel |
| web/src/app/modules/tasks/components/task-item/task-item.component.ts:68-81 | a creation time after the client's clock gives a negative floored day count, which passes the `<= 7` test | created at 1001 ms, clock at 1000 ms: "-1 days ago" | a task created "now" by a server whose clock runs ahead reads "Today" | not executed | TaskItemView.FormattedCreatedAtAsWritten, TaskItemView.CreatedAtAheadOfClock | TaskItemView.FormattedCreatedAt, TaskItemView.FormattedCreatedAtNeverNegative |
| backend/src/controllers/shopping.controller.js:442-456 | the message reads `item.completed` after `toggleItem` flipped that same sub-document, so it describes the opposite move | toggling a pending item answers "Item unmarked as pending" although the item is now completed | the message names the state the item was moved to | not executed | ShoppingController.ToggleMessageAsWritten, ShoppingController.ToggleMessageInverted | ShoppingController.ToggleMessage |
| web/src/app/modules/tasks/components/task-filters/task-filters.component.ts:159-174 | the reset lists the completion and deadline controls as `undefined`, which leaves them `null`; the count treats `null` as set, so two filters stay active and both `null` members are emitted | any panel state, then clear: the button reads "Clear 2 filters" | after clearing no filter is active and only the default sort is emitted | not executed | TaskFiltersView.ClearAllFiltersAsWritten, TaskFiltersView.ClearLeavesTwoFilters | TaskFiltersView.ClearAllFilters |
| backend/src/models/task.model.js:93-107 | the overdue test is `$ne` null and `$lt` now on `$deadline`; a task created without a deadline has no `deadline` field, and the aggregation treats a missing field as unequal to null and below every date, so the task passes both tests | one pending task created without a deadline: `overdueTasks` is 1 | only pending tasks whose deadline has passed are overdue, as the `$ne` null guard and the `isOverdue` virtual (lines 57-60) say | not executed; rests on MongoDB's comparison order for missing fields | TaskModel.CountOverdueAsWritten, TaskModel.UndatedTaskCountedOverdue, TaskModel.StatsAsWritten | TaskModel.CountOverdue, TaskModel.CountOverdueFollowsVirtual |

=== FILE: dashboard.dfy ===
/**
 * The pure derivations of the dashboard: the productivity score, the trend percentage,
 * the achievement selection, the overview rates and the merge of recent activity.
 * The counters come from aggregation queries, which are taken as inputs.
 */
module Dashboard {
  import opened JsMath
  import opened JsText
  import ShoppingModel
  import TaskModel
  import opened Wrappers

  type TaskStats = TaskModel.TaskStats

  /** The score's numerator over `totalTasks`: 100 points per completed task, less 20 per
      overdue task. */
  function ScoreNumerator(s: TaskStats): int {
    100 * s.completedTasks - (if s.overdueTasks > 0 then 20 * s.overdueTasks else 0)
  }

  /** The score before rounding, computed in the order `calculateProductivityScore` does. */
  function Penalised(s: TaskStats): real
    requires s.totalTasks > 0
  {
    var score := s.completedTasks as real / s.totalTasks as real * 100.0;
    if s.overdueTasks > 0 then
      var penalty := s.overdueTasks as real / s.totalTasks as real * 20.0;
      if score - penalty > 0.0 then score - penalty else 0.0
    else score
  }

  /** The unrounded score is the numerator over the total, cut off at zero. */
  lemma PenalisedAsQuotient(s: TaskStats)
    requires s.totalTasks > 0
    ensures var v := ScoreNumerator(s);
      Penalised(s) == if v <= 0 then 0.0 else v as real / s.totalTasks as real
  {
    var t := s.totalTasks as real;
    var v := ScoreNumerator(s);
    var score := s.completedTasks as real / t * 100.0;
    var penalty := s.overdueTasks as real / t * 20.0;
    assert score == (100 * s.completedTasks) as real / t;
    assert penalty == (20 * s.overdueTasks) as real / t;
    if s.overdueTasks > 0 {
      assert score - penalty == v as real / t;
      if v <= 0 {
        DivMonotone(v as real, 0.0, t);
      } else {
        DivMonotone(0.0, v as real, t);
        assert v as real / t != 0.0 by {
          assert (v as real / t) * t == v as real;
        }
      }
    } else {
      assert score == v as real / t;
      if v <= 0 {
        assert s.completedTasks == 0;
      }
    }
  }

  /** `calculateProductivityScore`: the completion percentage less a penalty of up to 20 points for
      overdue tasks, never below zero, then rounded. */
  function ProductivityScore(s: TaskStats): (r: int)
    ensures s.totalTasks == 0 ==> r == 0
    ensures r >= 0
    ensures s.completedTasks <= s.totalTasks ==> r <= 100
    ensures s.overdueTasks == 0 ==> r == Percent(s.completedTasks, s.totalTasks)
    ensures s.totalTasks > 0 ==> var t := s.totalTasks; var v := ScoreNumerator(s);
      && (v <= 0 ==> r == 0)
      && (v > 0 ==> (2 * r - 1) * t <= 2 * v < (2 * r + 1) * t)
  {
    if s.totalTasks == 0 then 0
    else
      PenalisedAsQuotient(s);
      RoundOfQuotient(ScoreNumerator(s), s.totalTasks);
      assert s.completedTasks <= s.totalTasks ==> Penalised(s) <= 100.0 by {
        if s.completedTasks <= s.totalTasks && ScoreNumerator(s) > 0 {
          DivMonotone(ScoreNumerator(s) as real, (100 * s.totalTasks) as real, s.totalTasks as real);
          assert (100 * s.totalTasks) as real == 100.0 * s.totalTasks as real;
          DivOfMultiple(100.0, s.totalTasks as real);
        }
      }
      Round(Penalised(s))
  }

  /** More overdue tasks never raise the score. */
  lemma ProductivityPenaltyMonotone(s: TaskStats, moreOverdue: nat)
    requires s.overdueTasks <= moreOverdue
    ensures ProductivityScore(s.(overdueTasks := moreOverdue)) <= ProductivityScore(s)
  {
    var t := s.(overdueTasks := moreOverdue);
    if s.totalTasks > 0 {
      PenalisedAsQuotient(s);
      PenalisedAsQuotient(t);
      var n := s.totalTasks as real;
      assert ScoreNumerator(t) <= ScoreNumerator(s);
      if ScoreNumerator(t) > 0 {
        DivMonotone(ScoreNumerator(t) as real, ScoreNumerator(s) as real, n);
      } else if ScoreNumerator(s) > 0 {
        DivMonotone(0.0, ScoreNumerator(s) as real, n);
      }
      RoundMonotone(Penalised(t), Penalised(s));
    }
  }

  /** The score of any user's statistics is a percentage. */
  lemma ProductivityScoreOfStats(ts: seq<TaskModel.Task>, now: int, dayStart: int, dayEnd: int)
    ensures 0 <= ProductivityScore(TaskModel.StatsOf(ts, now, dayStart, dayEnd)) <= 100
  {
  }

  /** `calculateTrendPercentage`: the relative change in percent, rounded; from zero, 100 for any growth. */
  function TrendPercentage(previous: real, current: real): (r: int)
    ensures previous == 0.0 ==> r == (if current > 0.0 then 100 else 0)
    ensures previous != 0.0 && current == previous ==> r == 0
    ensures previous > 0.0 && current >= previous ==> r >= 0
    ensures previous > 0.0 && current <= previous ==> r <= 0
    ensures previous > 0.0 && current == 0.0 ==> r == -100
    ensures previous > 0.0 && current == 2.0 * previous ==> r == 100
    ensures previous > 0.0 ==>
      (2 * r - 1) as real * previous <= 200.0 * (current - previous) < (2 * r + 1) as real * previous
    ensures previous < 0.0 ==>
      (2 * r + 1) as real * previous < 200.0 * (current - previous) <= (2 * r - 1) as real * previous
  {
    if previous == 0.0 then (if current > 0.0 then 100 else 0)
    else
      TrendQuotient(previous, current);
      TrendRounding(previous, current);
      Round((current - previous) / previous * 100.0)
  }

  /** The trend against a non-zero baseline: its sign for a positive baseline, and its value
      when the current value is equal, zero or double. */
  lemma TrendQuotient(previous: real, current: real)
    requires previous != 0.0
    ensures var r := Round((current - previous) / previous * 100.0);
      && (current == previous ==> r == 0)
      && (previous > 0.0 && current >= previous ==> r >= 0)
      && (previous > 0.0 && current <= previous ==> r <= 0)
      && (current == 0.0 ==> r == -100)
      && (current == 2.0 * previous ==> r == 100)
  {
    var q := (current - previous) / previous;
    assert Round(0.0) == 0 && Round(100.0) == 100 && Round(-100.0) == -100;
    if current == previous {
      assert q == 0.0;
    }
    if previous > 0.0 && current >= previous {
      DivMonotone(0.0, current - previous, previous);
      RoundMonotone(0.0, q * 100.0);
    }
    if previous > 0.0 && current <= previous {
      DivMonotone(current - previous, 0.0, previous);
      RoundMonotone(q * 100.0, 0.0);
    }
    if current == 0.0 {
      assert current - previous == -1.0 * previous;
      DivOfMultiple(-1.0, previous);
    }
    if current == 2.0 * previous {
      assert current - previous == 1.0 * previous;
      DivOfMultiple(1.0, previous);
    }
  }

  /** The rounding interval of the trend, free of division: against a baseline `p`, twice the
      percentage times `p` is within `p` of `200 * (current - p)`. */
  lemma TrendRounding(previous: real, current: real)
    requires previous != 0.0
    ensures var r := Round((current - previous) / previous * 100.0);
      && (previous > 0.0 ==>
            (2 * r - 1) as real * previous <= 200.0 * (current - previous) < (2 * r + 1) as real * previous)
      && (previous < 0.0 ==>
            (2 * r + 1) as real * previous < 200.0 * (current - previous) <= (2 * r - 1) as real * previous)
  {
    var x := (current - previous) / previous * 100.0;
    ScaledQuotient(current - previous, previous);
    RoundScaled(x, previous, 200.0 * (current - previous));
  }

  /** Scaling a percentage of `a` over `p` back by `p` gives `a` itself. */
  lemma ScaledQuotient(a: real, p: real)
    requires p != 0.0
    ensures 2.0 * (a / p * 100.0) * p == 200.0 * a
  {
    var q := a / p;
    assert q * p == a;
    calc {
      2.0 * (q * 100.0) * p;
      200.0 * (q * p);
    }
  }

  /** Against a positive baseline, a larger current value never shows a smaller trend. */
  lemma TrendMonotone(previous: real, c1: real, c2: real)
    requires previous > 0.0 && c1 <= c2
    ensures TrendPercentage(previous, c1) <= TrendPercentage(previous, c2)
  {
    DivMonotone(c1 - previous, c2 - previous, previous);
    var a := (c1 - previous) / previous;
    var b := (c2 - previous) / previous;
    RoundMonotone(a * 100.0, b * 100.0);
  }

  // ---------------------------------------------------------------------------
  // Achievements

  datatype AchievementKind = TaskMaster | NoteTaker | ShoppingPro | BudgetTracker

  /** The counters the achievements test. */
  datatype AchievementInputs = AchievementInputs(
    completedTasks: nat, totalNotes: nat, shoppingCompletionRate: int, totalExpenses: nat)

  /** The order in which `calculateAchievements` tests the achievements. */
  const AchievementOrder: seq<AchievementKind> := [TaskMaster, NoteTaker, ShoppingPro, BudgetTracker]

  /** The position of an achievement in the testing order. */
  function Rank(k: AchievementKind): (n: nat)
    ensures n < |AchievementOrder| && AchievementOrder[n] == k
  {
    match k
    case TaskMaster => 0
    case NoteTaker => 1
    case ShoppingPro => 2
    case BudgetTracker => 3
  }

  predicate Qualifies(k: AchievementKind, a: AchievementInputs) {
    match k
    case TaskMaster => a.completedTasks >= 10
    case NoteTaker => a.totalNotes >= 5
    case ShoppingPro => a.shoppingCompletionRate >= 80
    case BudgetTracker => a.totalExpenses >= 20
  }

  /** The kinds of `ks` that qualify, in their order. */
  function QualifyingOf(ks: seq<AchievementKind>, a: AchievementInputs): (r: seq<AchievementKind>)
    ensures forall k :: k in r <==> k in ks && Qualifies(k, a)
  {
    if |ks| == 0 then []
    else (if Qualifies(ks[0], a) then [ks[0]] else []) + QualifyingOf(ks[1..], a)
  }

  /** Strictly increasing in the testing order, so also free of repeats. */
  predicate InTestingOrder(r: seq<AchievementKind>) {
    forall i, j :: 0 <= i < j < |r| ==> Rank(r[i]) < Rank(r[j])
  }

  /** Keeping the qualifying kinds keeps the testing order. */
  lemma {:induction false} QualifyingOrdered(ks: seq<AchievementKind>, a: AchievementInputs)
    requires InTestingOrder(ks)
    ensures InTestingOrder(QualifyingOf(ks, a))
  {
    if |ks| > 0 {
      var tail := ks[1..];
      assert InTestingOrder(tail) by {
        forall i, j | 0 <= i < j < |tail|
          ensures Rank(tail[i]) < Rank(tail[j])
        {
          assert tail[i] == ks[i + 1] && tail[j] == ks[j + 1];
        }
      }
      QualifyingOrdered(tail, a);
      var rest := QualifyingOf(tail, a);
      forall k | k in rest
        ensures Rank(ks[0]) < Rank(k)
      {
        var j :| 0 <= j < |tail| && tail[j] == k;
        assert ks[j + 1] == k;
      }
    }
  }

  /** `calculateAchievements`: the first three qualifying achievements in testing order. */
  function Achievements(a: AchievementInputs): (r: seq<AchievementKind>)
    ensures |r| <= 3
    ensures forall k :: k in r ==> Qualifies(k, a)
    ensures InTestingOrder(r)
    ensures forall k :: Qualifies(k, a) && k !in r ==>
      |r| == 3 && forall i :: 0 <= i < |r| ==> Rank(r[i]) < Rank(k)
  {
    var all := QualifyingOf(AchievementOrder, a);
    QualifyingOrdered(AchievementOrder, a);
    KindsListed();
    FirstThreeFacts(all);
    FirstThree(all)
  }

  /** `slice(0, 3)`. */
  function FirstThree(all: seq<AchievementKind>): seq<AchievementKind> {
    if |all| <= 3 then all else all[..3]
  }

  /** Every kind is tested. */
  lemma KindsListed()
    ensures forall k :: k in AchievementOrder
  {
    forall k: AchievementKind
      ensures k in AchievementOrder
    {
      assert AchievementOrder[Rank(k)] == k;
    }
  }

  /** Cutting an ordered list to its first three keeps its order and drops only kinds tested
      after all three. */
  lemma FirstThreeFacts(all: seq<AchievementKind>)
    requires InTestingOrder(all)
    ensures var r := FirstThree(all);
      && |r| <= 3 && (forall k :: k in r ==> k in all) && InTestingOrder(r)
      && forall k :: k in all && k !in r ==> |r| == 3 && forall i :: 0 <= i < |r| ==> Rank(r[i]) < Rank(k)
  {
    var r := FirstThree(all);
    assert forall i :: 0 <= i < |r| ==> r[i] == all[i];
    forall k | k in all && k !in r
      ensures |r| == 3 && forall i :: 0 <= i < |r| ==> Rank(r[i]) < Rank(k)
    {
      var p :| 0 <= p < |all| && all[p] == k;
      assert p >= 3;
    }
  }

  /** The fixed part of an achievement record: its `type`, title, icon and colour. */
  datatype Badge = Badge(typeName: string, title: string, icon: string, color: string)

  function BadgeOf(k: AchievementKind): (b: Badge)
    ensures k == TaskMaster ==> b == Badge("task", "Task Master", "trophy", "gold")
    ensures k == NoteTaker ==> b == Badge("note", "Note Taker", "edit", "blue")
    ensures k == ShoppingPro ==> b == Badge("shopping", "Shopping Pro", "shopping-cart", "green")
    ensures k == BudgetTracker ==> b == Badge("expense", "Budget Tracker", "dollar-sign", "purple")
  {
    match k
    case TaskMaster => Badge("task", "Task Master", "trophy", "gold")
    case NoteTaker => Badge("note", "Note Taker", "edit", "blue")
    case ShoppingPro => Badge("shopping", "Shopping Pro", "shopping-cart", "green")
    case BudgetTracker => Badge("expense", "Budget Tracker", "dollar-sign", "purple")
  }

  /** Different achievements differ in every part of their badge. */
  lemma BadgesDistinct(k1: AchievementKind, k2: AchievementKind)
    requires k1 != k2
    ensures BadgeOf(k1).typeName != BadgeOf(k2).typeName
    ensures BadgeOf(k1).title != BadgeOf(k2).title
    ensures BadgeOf(k1).icon != BadgeOf(k2).icon
    ensures BadgeOf(k1).color != BadgeOf(k2).color
  {
  }

  /** The achievement a record's `type` names, the inverse of the badge's type. */
  function KindOfType(typeName: string): (r: Option<AchievementKind>)
    ensures r.Some? ==> BadgeOf(r.value).typeName == typeName
  {
    if typeName == "task" then Some(TaskMaster)
    else if typeName == "note" then Some(NoteTaker)
    else if typeName == "shopping" then Some(ShoppingPro)
    else if typeName == "expense" then Some(BudgetTracker)
    else None
  }

  /** A badge's type identifies its achievement. */
  lemma BadgeTypeRoundTrip(k: AchievementKind)
    ensures KindOfType(BadgeOf(k).typeName) == Some(k)
  {
  }

  // ---------------------------------------------------------------------------
  // Overview rates

  /** The overview's task `completionRate`, the shopping `efficiency` and the shopping
      `completionRate` are one formula: a rounded percentage, 0 for an empty denominator. */
  function OverviewRate(part: nat, total: nat): (r: int)
    ensures total == 0 ==> r == 0
    ensures part <= total ==> 0 <= r <= 100
    ensures 0 < total && part == total ==> r == 100
    ensures part == 0 ==> r == 0
    ensures total > 0 ==> (2 * r - 1) * total <= 200 * part < (2 * r + 1) * total
  {
    Percent(part, total)
  }

  // ---------------------------------------------------------------------------
  // Recent activity

  datatype ActivityKind = TaskActivity | NoteActivity | ExpenseActivity | ShoppingActivity

  /** One entry of the activity feed. */
  datatype Activity = Activity(kind: ActivityKind, action: string, title: string, timestamp: int, icon: string)

  /** `parseInt(req.query.limit) || 20`: `parsed` is `None` when the query does not parse. Zero and
      an unparsable value fall back to 20, so the limit is never zero, but it may be negative. */
  function RequestLimit(parsed: Option<int>): (limit: int)
    ensures limit != 0
    ensures parsed.Some? && parsed.value != 0 ==> limit == parsed.value
    ensures parsed.None? || parsed.value == 0 ==> limit == 20
  {
    if parsed.Some? && parsed.value != 0 then parsed.value else 20
  }

  /** The per-source query limit `Math.ceil(limit / 4)`, the quarter of the limit rounded up. */
  function PerSourceLimit(limit: int): (n: int)
    ensures 4 * n >= limit && 4 * (n - 1) < limit
    ensures limit > 0 ==> n > 0
  {
    CeilDiv(limit, 4)
  }

  /** The length `slice(0, end)` keeps of `len` entries: a negative end counts back from the end. */
  function SliceEnd(len: nat, end: int): (n: nat)
    ensures n <= len
  {
    if end >= 0 then (if end < len then end else len)
    else if len + end > 0 then len + end else 0
  }

  /** A recently updated task; a completed one is reported as completed. */
  function FromTask(title: string, completed: bool, updatedAt: int): (a: Activity)
    ensures a.kind == TaskActivity && a.timestamp == updatedAt
    ensures a.action == (if completed then "completed" else "updated")
  {
    Activity(TaskActivity, if completed then "completed" else "updated", title, updatedAt, "check-square")
  }

  /** A recently updated shopping list, titled with its completed and total item counts. */
  function FromShoppingList(l: ShoppingModel.ShoppingList, updatedAt: int): (a: Activity)
    ensures a.kind == ShoppingActivity && a.timestamp == updatedAt && a.action == "updated"
    ensures a.title == l.name + " (" + NatToString(ShoppingModel.CompletedItems(l.items)) + "/"
                       + NatToString(|l.items|) + " items)"
  {
    Activity(ShoppingActivity, "updated",
             l.name + " (" + NatToString(ShoppingModel.CompletedItems(l.items)) + "/" + NatToString(|l.items|) + " items)",
             updatedAt, "shopping-cart")
  }

  predicate NewestFirst(s: seq<Activity>) {
    forall i, j :: 0 <= i < j < |s| ==> s[i].timestamp >= s[j].timestamp
  }

  /** The entries of `s` stamped `t`, in their order in `s`: what a stable sort keeps. */
  function WithTime(s: seq<Activity>, t: int): (r: seq<Activity>)
    ensures |r| <= |s|
  {
    if |s| == 0 then []
    else (if s[0].timestamp == t then [s[0]] else []) + WithTime(s[1..], t)
  }

  /** `WithTime` of a sequence with a given head. */
  lemma WithTimeCons(y: Activity, s: seq<Activity>, t: int)
    ensures WithTime([y] + s, t) == (if y.timestamp == t then [y] else []) + WithTime(s, t)
  {
    assert ([y] + s)[0] == y && ([y] + s)[1..] == s;
  }

  /** Inserting `x` adds it in front of the entries sharing its timestamp and moves no other. */
  lemma {:induction false} InsertStable(x: Activity, s: seq<Activity>, t: int)
    ensures WithTime(Insert(x, s), t) == (if x.timestamp == t then [x] else []) + WithTime(s, t)
  {
    if |s| == 0 {
      WithTimeCons(x, s, t);
      assert [x] + s == [x];
    } else if x.timestamp >= s[0].timestamp {
      WithTimeCons(x, s, t);
    } else {
      InsertStable(x, s[1..], t);
      InsertBehindHead(x, s, t);
    }
  }

  /** The step of `InsertStable` past a newer head. */
  lemma InsertBehindHead(x: Activity, s: seq<Activity>, t: int)
    requires |s| > 0 && x.timestamp < s[0].timestamp
    requires WithTime(Insert(x, s[1..]), t) == (if x.timestamp == t then [x] else []) + WithTime(s[1..], t)
    ensures WithTime(Insert(x, s), t) == (if x.timestamp == t then [x] else []) + WithTime(s, t)
  {
    var tail := s[1..];
    var rest := Insert(x, tail);
    assert Insert(x, s) == [s[0]] + rest;
    WithTimeCons(s[0], rest, t);
    assert s == [s[0]] + tail;
    WithTimeCons(s[0], tail, t);
    if x.timestamp == t {
      assert WithTime(Insert(x, s), t) == WithTime(rest, t) == [x] + WithTime(tail, t);
      assert WithTime(s, t) == WithTime(tail, t);
    } else {
      assert WithTime(rest, t) == WithTime(tail, t);
    }
  }

  /** Places `x` after every strictly newer entry and before the first entry no newer than it, so
      `x` goes ahead of the entries that share its timestamp. */
  function Insert(x: Activity, s: seq<Activity>): (r: seq<Activity>)
    ensures multiset(r) == multiset(s) + multiset{x}
    ensures |r| == |s| + 1
    ensures forall k :: 0 <= k < |r| ==> r[k] == x || r[k] in s
  {
    if |s| == 0 then [x]
    else if x.timestamp >= s[0].timestamp then [x] + s
    else
      assert s == [s[0]] + s[1..];
      [s[0]] + Insert(x, s[1..])
  }

  /** Inserting into a feed ordered newest first keeps it so. */
  lemma {:induction false} InsertKeepsOrder(x: Activity, s: seq<Activity>)
    requires NewestFirst(s)
    ensures NewestFirst(Insert(x, s))
  {
    if |s| == 0 {
    } else if x.timestamp >= s[0].timestamp {
      forall z | z in s
        ensures z.timestamp <= x.timestamp
      {
        var m :| 0 <= m < |s| && s[m] == z;
      }
      PrependKeepsOrder(x, s);
    } else {
      var tail := s[1..];
      assert forall i :: 0 <= i < |tail| ==> tail[i] == s[i + 1];
      InsertKeepsOrder(x, tail);
      var rest := Insert(x, tail);
      forall z | z in rest
        ensures z.timestamp <= s[0].timestamp
      {
        if z != x {
          var m :| 0 <= m < |tail| && tail[m] == z;
        }
      }
      PrependKeepsOrder(s[0], rest);
    }
  }

  /** An entry at least as new as every entry of an ordered feed can go in front of it. */
  lemma PrependKeepsOrder(y: Activity, s: seq<Activity>)
    requires NewestFirst(s) && forall z :: z in s ==> z.timestamp <= y.timestamp
    ensures NewestFirst([y] + s)
  {
    var r := [y] + s;
    forall i, j | 0 <= i < j < |r|
      ensures r[i].timestamp >= r[j].timestamp
    {
      assert r[j] == s[j - 1];
      if i > 0 {
        assert r[i] == s[i - 1];
      }
    }
  }

  /** A stable sort, newest first: the array sort with comparator `b.timestamp - a.timestamp`. */
  function SortNewestFirst(s: seq<Activity>): (r: seq<Activity>)
    ensures multiset(r) == multiset(s)
    ensures NewestFirst(r)
  {
    if |s| == 0 then []
    else
      assert s == [s[0]] + s[1..];
      var sortedTail := SortNewestFirst(s[1..]);
      InsertKeepsOrder(s[0], sortedTail);
      Insert(s[0], sortedTail)
  }

  /** The sort is stable: entries sharing a timestamp keep their relative order. */
  lemma {:induction false} SortStable(s: seq<Activity>, t: int)
    ensures WithTime(SortNewestFirst(s), t) == WithTime(s, t)
  {
    if |s| > 0 {
      SortStable(s[1..], t);
      InsertStable(s[0], SortNewestFirst(s[1..]), t);
    }
  }

  /** The entries stamped `t` among the first `n` of `s` come first among those of all of `s`. */
  lemma {:induction false} WithTimePrefix(s: seq<Activity>, n: nat, t: int)
    requires n <= |s|
    ensures WithTime(s[..n], t) <= WithTime(s, t)
  {
    if n > 0 {
      assert s[..n][0] == s[0] && s[..n][1..] == s[1..][..n - 1];
      WithTimePrefix(s[1..], n - 1, t);
    }
  }

  /** `getRecentActivity` after its queries: the four sources concatenated, sorted newest first,
      cut to `limit`. */
  function RecentActivity(tasks: seq<Activity>, notes: seq<Activity>, expenses: seq<Activity>,
                          shopping: seq<Activity>, limit: int): (r: seq<Activity>)
    ensures var all := tasks + notes + expenses + shopping;
      && (limit >= 0 ==> |r| == (if |all| < limit then |all| else limit))
      && (limit < 0 ==> |r| == (if |all| + limit > 0 then |all| + limit else 0))
      && NewestFirst(r)
      && multiset(r) <= multiset(all)
      && forall t :: WithTime(r, t) <= WithTime(all, t)
  {
    var all := tasks + notes + expenses + shopping;
    var sorted := SortNewestFirst(all);
    var n := SliceEnd(|sorted|, limit);
    PrefixFacts(sorted, n);
    assert sorted[..|sorted|] == sorted;
    forall t
      ensures WithTime(sorted[..n], t) <= WithTime(all, t)
    {
      WithTimePrefix(sorted, n, t);
      SortStable(all, t);
    }
    sorted[..n]
  }

  /** A prefix of an ordered feed is ordered and holds nothing more often than the feed. */
  lemma PrefixFacts(s: seq<Activity>, n: nat)
    requires NewestFirst(s) && n <= |s|
    ensures NewestFirst(s[..n]) && multiset(s[..n]) <= multiset(s)
  {
    assert s == s[..n] + s[n..];
    assert multiset(s) == multiset(s[..n]) + multiset(s[n..]);
  }

  /** Nothing dropped from the feed is newer than the oldest entry kept. */
  lemma {:induction false} RecentActivityKeepsNewest(tasks: seq<Activity>, notes: seq<Activity>, expenses: seq<Activity>,
                                                     shopping: seq<Activity>, limit: int, dropped: Activity)
    requires var all := tasks + notes + expenses + shopping;
      dropped in multiset(all) - multiset(RecentActivity(tasks, notes, expenses, shopping, limit))
    ensures var r := RecentActivity(tasks, notes, expenses, shopping, limit);
      |r| > 0 ==> dropped.timestamp <= r[|r| - 1].timestamp
  {
    var all := tasks + notes + expenses + shopping;
    var sorted := SortNewestFirst(all);
    var r := RecentActivity(tasks, notes, expenses, shopping, limit);
    var n := |r|;
    assert r == sorted[..n];
    var j := DroppedIndex(sorted, n, dropped);
    if n > 0 {
      assert sorted[n - 1].timestamp >= sorted[j].timestamp;
    }
  }

  /** An entry occurring more often in `s` than in its first `n` entries sits at a later position. */
  lemma DroppedIndex(s: seq<Activity>, n: nat, x: Activity) returns (j: nat)
    requires n <= |s| && x in multiset(s) - multiset(s[..n])
    ensures n <= j < |s| && s[j] == x
  {
    assert s == s[..n] + s[n..];
    assert multiset(s) == multiset(s[..n]) + multiset(s[n..]);
    assert x in s[n..];
    var k :| 0 <= k < |s[n..]| && s[n..][k] == x;
    j := n + k;
  }
}

=== FILE: expense_model.dfy ===
/**
 * The expense model: the field rules, the `monthYear` label, the statistics record with its
 * zero default, and the step of the monthly chart that fills in the months without expenses.
 */
module ExpenseModel {
  import opened Wrappers
  import opened JsMath
  import opened JsText

  type Time = int

  datatype ExpenseCategory = Food | Transport | Shopping | Bills | Entertainment | Health | Education | OtherCategory
  datatype PaymentMethod = Cash | Card | BankTransfer | DigitalWallet | OtherMethod
  datatype RecurringPeriod = Daily | Weekly | Monthly | Yearly

  /** A stored expense; `description`, `subcategory` and the tags are already trimmed and the
      tags lower-cased by the schema setters. */
  datatype Expense = Expense(
    amount: real,
    description: string,
    category: ExpenseCategory,
    subcategory: Option<string>,
    date: Time,
    paymentMethod: PaymentMethod,
    recurring: bool,
    recurringPeriod: Option<RecurringPeriod>,
    tags: seq<string>,
    userId: string)

  const MinAmount: real := 0.01
  const MaxAmount: real := 999999.99
  const MaxDescriptionLength: nat := 200
  const MaxSubcategoryLength: nat := 100
  const MaxTagLength: nat := 50

  /** The fields a client sends; absent ones take the schema defaults. */
  datatype ExpenseInput = ExpenseInput(
    amount: real, description: string, category: Option<ExpenseCategory>, subcategory: Option<string>,
    date: Option<Time>, paymentMethod: Option<PaymentMethod>, recurring: Option<bool>,
    recurringPeriod: Option<RecurringPeriod>, tags: seq<string>)

  /** `new Expense(data)`: trimming setters and the defaults `other`, `now`, `cash`, `false`. */
  function NewExpense(input: ExpenseInput, userId: string, now: Time): (e: Expense)
    ensures e.amount == input.amount && e.description == Trim(input.description)
    ensures e.category == input.category.GetOr(OtherCategory) && e.paymentMethod == input.paymentMethod.GetOr(Cash)
    ensures e.date == input.date.GetOr(now) && e.recurring == input.recurring.GetOr(false)
    ensures |e.tags| == |input.tags| && forall i :: 0 <= i < |e.tags| ==> Trimmed(e.tags[i]) && IsLower(e.tags[i])
  {
    Expense(input.amount, Trim(input.description), input.category.GetOr(OtherCategory),
            if input.subcategory.Some? then Some(Trim(input.subcategory.value)) else None,
            input.date.GetOr(now), input.paymentMethod.GetOr(Cash), input.recurring.GetOr(false),
            input.recurringPeriod, TrimLowerEach(input.tags), userId)
  }

  // ---------------------------------------------------------------------------
  // Validation

  datatype ExpenseError =
    | AmountBelowMinimum | AmountAboveMaximum
    | DescriptionRequired | DescriptionTooLong
    | SubcategoryTooLong
    | DateTooFarAhead
    | RecurringPeriodRequired
    | TagTooLong
    | UserRequired

  /** The date rule: at most one day after the present moment. */
  predicate DateAccepted(date: Time, now: Time) {
    date <= now + DayMs
  }

  /** All schema rules at once. */
  predicate ValidExpense(e: Expense, now: Time) {
    && MinAmount <= e.amount <= MaxAmount
    && e.description != "" && |e.description| <= MaxDescriptionLength
    && (e.subcategory.Some? ==> |e.subcategory.value| <= MaxSubcategoryLength)
    && DateAccepted(e.date, now)
    && (e.recurring ==> e.recurringPeriod.Some?)
    && (forall i :: 0 <= i < |e.tags| ==> |e.tags[i]| <= MaxTagLength)
    && e.userId != ""
  }

  /** Whether the expense breaks the rule that reports `x`. */
  predicate Broken(e: Expense, now: Time, x: ExpenseError) {
    match x
    case AmountBelowMinimum => e.amount < MinAmount
    case AmountAboveMaximum => e.amount > MaxAmount
    case DescriptionRequired => e.description == ""
    case DescriptionTooLong => |e.description| > MaxDescriptionLength
    case SubcategoryTooLong => e.subcategory.Some? && |e.subcategory.value| > MaxSubcategoryLength
    case DateTooFarAhead => !DateAccepted(e.date, now)
    case RecurringPeriodRequired => e.recurring && e.recurringPeriod.None?
    case TagTooLong => exists i :: 0 <= i < |e.tags| && |e.tags[i]| > MaxTagLength
    case UserRequired => e.userId == ""
  }

  /** The rules in the order the schema declares them. */
  const AllErrors: seq<ExpenseError> := [
    AmountBelowMinimum, AmountAboveMaximum, DescriptionRequired, DescriptionTooLong, SubcategoryTooLong,
    DateTooFarAhead, RecurringPeriodRequired, TagTooLong, UserRequired]

  /** The kinds in `kinds` whose rule the expense breaks, in order. */
  function Collect(kinds: seq<ExpenseError>, e: Expense, now: Time): (r: seq<ExpenseError>)
    ensures forall x :: x in r <==> x in kinds && Broken(e, now, x)
    ensures r == [] <==> forall x :: x in kinds ==> !Broken(e, now, x)
    ensures Distinct(kinds) ==> Distinct(r)
  {
    if |kinds| == 0 then []
    else
      assert Distinct(kinds) ==> kinds[0] !in kinds[1..];
      (if Broken(e, now, kinds[0]) then [kinds[0]] else []) + Collect(kinds[1..], e, now)
  }

  /** Every error kind is in the list. */
  lemma AllErrorsListed()
    ensures forall x :: x in AllErrors
  {
    forall x: ExpenseError
      ensures x in AllErrors
    {
      match x
      case AmountBelowMinimum => assert x == AllErrors[0];
      case AmountAboveMaximum => assert x == AllErrors[1];
      case DescriptionRequired => assert x == AllErrors[2];
      case DescriptionTooLong => assert x == AllErrors[3];
      case SubcategoryTooLong => assert x == AllErrors[4];
      case DateTooFarAhead => assert x == AllErrors[5];
      case RecurringPeriodRequired => assert x == AllErrors[6];
      case TagTooLong => assert x == AllErrors[7];
      case UserRequired => assert x == AllErrors[8];
    }
  }

  /** Every rule the expense breaks, each reported once. */
  function Validate(e: Expense, now: Time): (r: seq<ExpenseError>)
    ensures forall x :: x in r <==> Broken(e, now, x)
    ensures r == [] <==> forall x :: !Broken(e, now, x)
    ensures Distinct(r)
  {
    assert Distinct(AllErrors);
    AllErrorsListed();
    Collect(AllErrors, e, now)
  }

  /** An expense is saved exactly when no rule is broken. */
  lemma ValidateAgrees(e: Expense, now: Time)
    ensures Validate(e, now) == [] <==> ValidExpense(e, now)
  {
    var r := Validate(e, now);
    if !ValidExpense(e, now) {
      var x :=
        if e.amount < MinAmount then AmountBelowMinimum
        else if e.amount > MaxAmount then AmountAboveMaximum
        else if e.description == "" then DescriptionRequired
        else if |e.description| > MaxDescriptionLength then DescriptionTooLong
        else if e.subcategory.Some? && |e.subcategory.value| > MaxSubcategoryLength then SubcategoryTooLong
        else if !DateAccepted(e.date, now) then DateTooFarAhead
        else if e.recurring && e.recurringPeriod.None? then RecurringPeriodRequired
        else if e.userId == "" then UserRequired
        else TagTooLong;
      assert Broken(e, now, x);
      assert x in r;
    } else {
      forall x: ExpenseError
        ensures x !in r
      {
        assert !Broken(e, now, x);
      }
    }
  }

  /** A recurring expense needs a period and a one-off expense does not. */
  lemma RecurringPeriodRule(e: Expense, now: Time)
    ensures RecurringPeriodRequired in Validate(e, now) <==> e.recurring && e.recurringPeriod.None?
    ensures !e.recurring ==> RecurringPeriodRequired !in Validate(e, now)
  {
    assert Broken(e, now, RecurringPeriodRequired) <==> e.recurring && e.recurringPeriod.None?;
  }

  // ---------------------------------------------------------------------------
  // Month label

  /** `${year}-${month padded to two digits}`, from the full year and the month index 0..11
      of the expense date. */
  function MonthYear(year: nat, monthIndex: nat): (r: string)
    requires monthIndex < 12
    ensures |r| == |NatToString(year)| + 3 && r[|r| - 3] == '-'
    ensures r[..|r| - 3] == NatToString(year)
    ensures AllDigits(r[|r| - 2..]) && DigitsValue(r[|r| - 2..]) == monthIndex + 1
  {
    var y := NatToString(year);
    var m := Pad2(monthIndex + 1);
    var r := y + "-" + m;
    assert r[|r| - 2..] == m;
    assert r[..|r| - 3] == y;
    r
  }

  /** Reads a `YYYY-MM` label back into the year and the month index; anything else is None. */
  function ParseMonthYear(s: string): (r: Option<(nat, nat)>)
    ensures r.Some? ==> r.value.1 < 12
  {
    var parts := Split(s, '-');
    if |parts| == 2 && |parts[0]| >= 1 && |parts[1]| == 2 && AllDigits(parts[0]) && AllDigits(parts[1])
       && 1 <= DigitsValue(parts[1]) <= 12
    then Some((DigitsValue(parts[0]), DigitsValue(parts[1]) - 1))
    else None
  }

  /** The label reads back as the year and month it was made from, so distinct months get
      distinct labels. */
  lemma MonthYearRoundTrip(year: nat, monthIndex: nat)
    requires monthIndex < 12
    ensures ParseMonthYear(MonthYear(year, monthIndex)) == Some((year, monthIndex))
  {
    var y := NatToString(year);
    var m := Pad2(monthIndex + 1);
    DigitsExclude(y, '-');
    DigitsExclude(m, '-');
    assert Join([y, m], '-') == y + "-" + m;
    SplitJoin([y, m], '-');
    NatToStringRoundTrip(year);
  }

  // ---------------------------------------------------------------------------
  // Monthly chart

  /** One group of the chart pipeline: the month 1..12 and its sums. */
  datatype MonthAggregate = MonthAggregate(
    month: int, year: int, totalAmount: real, totalExpenses: nat, categoryBreakdown: map<ExpenseCategory, real>)

  /** One entry of the chart handed to the client. */
  datatype ChartEntry = ChartEntry(
    month: nat, monthName: string, totalAmount: real, totalExpenses: nat, categoryBreakdown: map<ExpenseCategory, real>)

  /** The English short month names, `toLocaleString('en', { month: 'short' })`. */
  const MonthNames: seq<string> := ["Jan", "Feb", "Mar", "Apr", "May", "Jun", "Jul", "Aug", "Sep", "Oct", "Nov", "Dec"]

  /** The position of the first group for month `m`, or `|data|` when there is none. */
  function FindMonthIndex(data: seq<MonthAggregate>, m: int): (k: nat)
    ensures k <= |data|
    ensures k < |data| ==> data[k].month == m
    ensures forall j :: 0 <= j < k ==> data[j].month != m
  {
    if |data| == 0 then 0
    else if data[0].month == m then 0
    else 1 + FindMonthIndex(data[1..], m)
  }

  /** The chart entry for month `m`: the first group of that month copied, or zeros and an empty
      breakdown when the month has no expenses. */
  function EntryFor(data: seq<MonthAggregate>, m: nat): (r: ChartEntry)
    requires 1 <= m <= 12
    ensures r.month == m && r.monthName == MonthNames[m - 1]
    ensures (forall j :: 0 <= j < |data| ==> data[j].month != m) ==>
              r.totalAmount == 0.0 && r.totalExpenses == 0 && r.categoryBreakdown == map[]
    ensures forall k :: 0 <= k < |data| && data[k].month == m && (forall j :: 0 <= j < k ==> data[j].month != m) ==>
              r.totalAmount == data[k].totalAmount && r.totalExpenses == data[k].totalExpenses
              && r.categoryBreakdown == data[k].categoryBreakdown
  {
    var k := FindMonthIndex(data, m);
    if k < |data| then
      ChartEntry(m, MonthNames[m - 1], data[k].totalAmount, data[k].totalExpenses, data[k].categoryBreakdown)
    else
      ChartEntry(m, MonthNames[m - 1], 0.0, 0, map[])
  }

  /** The whole chart: one entry for each month of the year. */
  function Chart(data: seq<MonthAggregate>): (r: seq<ChartEntry>)
    ensures |r| == 12
    ensures forall i :: 0 <= i < 12 ==> r[i] == EntryFor(data, i + 1)
  {
    seq(12, i requires 0 <= i < 12 => EntryFor(data, i + 1))
  }

  /** The fill loop of `getMonthlyChart`. */
  method FillMonths(data: seq<MonthAggregate>) returns (r: seq<ChartEntry>)
    ensures r == Chart(data)
    ensures forall i :: 0 <= i < |r| ==> r[i].month == i + 1
  {
    r := [];
    var month := 1;
    while month <= 12
      invariant 1 <= month <= 13 && |r| == month - 1
      invariant forall i :: 0 <= i < |r| ==> r[i] == EntryFor(data, i + 1)
    {
      var k := FindMonthIndex(data, month);
      var entry := if k < |data|
        then ChartEntry(month, MonthNames[month - 1], data[k].totalAmount, data[k].totalExpenses, data[k].categoryBreakdown)
        else ChartEntry(month, MonthNames[month - 1], 0.0, 0, map[]);
      r := r + [entry];
      month := month + 1;
    }
  }

  /** When the groups have distinct months, as the pipeline's grouping guarantees, every group
      appears in the chart at its month. */
  lemma ChartKeepsEveryGroup(data: seq<MonthAggregate>, k: nat)
    requires k < |data| && 1 <= data[k].month <= 12
    requires forall i, j :: 0 <= i < j < |data| ==> data[i].month != data[j].month
    ensures Chart(data)[data[k].month - 1].totalAmount == data[k].totalAmount
    ensures Chart(data)[data[k].month - 1].totalExpenses == data[k].totalExpenses
    ensures Chart(data)[data[k].month - 1].categoryBreakdown == data[k].categoryBreakdown
  {
    var m := data[k].month;
    assert Chart(data)[m - 1] == EntryFor(data, m);
  }

  /** Months in which nothing was spent show zero. */
  lemma ChartZeroForEmptyMonth(data: seq<MonthAggregate>, m: nat)
    requires 1 <= m <= 12
    requires forall j :: 0 <= j < |data| ==> data[j].month != m
    ensures Chart(data)[m - 1].totalAmount == 0.0 && Chart(data)[m - 1].totalExpenses == 0
  {
    assert Chart(data)[m - 1] == EntryFor(data, m);
  }

  // ---------------------------------------------------------------------------
  // Statistics

  /** The record of `getUserStats`. */
  datatype ExpenseStats = ExpenseStats(
    totalExpenses: nat, totalAmount: real, averageAmount: real,
    categoryBreakdown: map<ExpenseCategory, real>, paymentMethodBreakdown: map<PaymentMethod, nat>)

  const NoExpenseStats := ExpenseStats(0, 0.0, 0.0, map[], map[])

  const AllCategories: set<ExpenseCategory> :=
    {Food, Transport, Shopping, Bills, Entertainment, Health, Education, OtherCategory}
  const AllMethods: set<PaymentMethod> := {Cash, Card, BankTransfer, DigitalWallet, OtherMethod}

  lemma CategoriesListed()
    ensures forall c :: c in AllCategories
  {
    forall c: ExpenseCategory
      ensures c in AllCategories
    {
      match c
      case Food =>
      case Transport =>
      case Shopping =>
      case Bills =>
      case Entertainment =>
      case Health =>
      case Education =>
      case OtherCategory =>
    }
  }

  lemma MethodsListed()
    ensures forall p :: p in AllMethods
  {
    forall p: PaymentMethod
      ensures p in AllMethods
    {
      match p
      case Cash =>
      case Card =>
      case BankTransfer =>
      case DigitalWallet =>
      case OtherMethod =>
    }
  }

  function SumAmounts(es: seq<Expense>): real {
    if |es| == 0 then 0.0 else SumAmounts(es[..|es| - 1]) + es[|es| - 1].amount
  }

  function CategoryCount(es: seq<Expense>, c: ExpenseCategory): (n: nat)
    ensures n <= |es|
  {
    if |es| == 0 then 0 else CategoryCount(es[..|es| - 1], c) + (if es[|es| - 1].category == c then 1 else 0)
  }

  function CategoryAmount(es: seq<Expense>, c: ExpenseCategory): real {
    if |es| == 0 then 0.0
    else CategoryAmount(es[..|es| - 1], c) + (if es[|es| - 1].category == c then es[|es| - 1].amount else 0.0)
  }

  function MethodCount(es: seq<Expense>, p: PaymentMethod): (n: nat)
    ensures n <= |es|
  {
    if |es| == 0 then 0 else MethodCount(es[..|es| - 1], p) + (if es[|es| - 1].paymentMethod == p then 1 else 0)
  }

  /** What the statistics pipeline computes, before its two-place rounding of the total and the
      mean, with the zero record for a user without expenses. */
  function StatsOf(es: seq<Expense>): (s: ExpenseStats)
    ensures |es| == 0 ==> s == NoExpenseStats
    ensures s.totalExpenses == |es| && s.totalAmount == SumAmounts(es)
    ensures |es| > 0 ==> s.averageAmount * (|es| as real) == s.totalAmount
    ensures forall c :: c in s.categoryBreakdown <==> CategoryCount(es, c) > 0
    ensures forall c :: c in s.categoryBreakdown ==> s.categoryBreakdown[c] == CategoryAmount(es, c)
    ensures forall p :: p in s.paymentMethodBreakdown <==> MethodCount(es, p) > 0
    ensures forall p :: p in s.paymentMethodBreakdown ==> s.paymentMethodBreakdown[p] == MethodCount(es, p)
  {
    if |es| == 0 then NoExpenseStats
    else
      var total, n := SumAmounts(es), |es| as real;
      assert (total / n) * n == total;
      ExpenseStats(|es|, total, total / n, CategoryBreakdown(es), MethodBreakdown(es))
  }

  /** The amount spent per category, for the categories that occur. */
  function CategoryBreakdown(es: seq<Expense>): (m: map<ExpenseCategory, real>)
    ensures forall c :: c in m <==> CategoryCount(es, c) > 0
    ensures forall c :: c in m ==> m[c] == CategoryAmount(es, c)
  {
    CategoriesListed();
    map c | c in AllCategories && CategoryCount(es, c) > 0 :: CategoryAmount(es, c)
  }

  /** The number of expenses per payment method, for the methods that occur. */
  function MethodBreakdown(es: seq<Expense>): (m: map<PaymentMethod, nat>)
    ensures forall p :: p in m <==> MethodCount(es, p) > 0
    ensures forall p :: p in m ==> m[p] == MethodCount(es, p)
  {
    MethodsListed();
    map p | p in AllMethods && MethodCount(es, p) > 0 :: MethodCount(es, p)
  }

  function SumOverCategories(es: seq<Expense>): real {
    CategoryAmount(es, Food) + CategoryAmount(es, Transport) + CategoryAmount(es, Shopping)
    + CategoryAmount(es, Bills) + CategoryAmount(es, Entertainment) + CategoryAmount(es, Health)
    + CategoryAmount(es, Education) + CategoryAmount(es, OtherCategory)
  }

  /** The category amounts add up to the total: every expense is counted in exactly one category. */
  lemma {:induction false} CategoryAmountsAddUp(es: seq<Expense>)
    ensures SumOverCategories(es) == SumAmounts(es)
  {
    if |es| > 0 {
      CategoryAmountsAddUp(es[..|es| - 1]);
    }
  }

  function SumOverMethods(es: seq<Expense>): nat {
    MethodCount(es, Cash) + MethodCount(es, Card) + MethodCount(es, BankTransfer)
    + MethodCount(es, DigitalWallet) + MethodCount(es, OtherMethod)
  }

  /** The payment-method counts add up to the number of expenses. */
  lemma {:induction false} MethodCountsAddUp(es: seq<Expense>)
    ensures SumOverMethods(es) == |es|
  {
    if |es| > 0 {
      MethodCountsAddUp(es[..|es| - 1]);
    }
  }
}

=== FILE: js_math.dfy ===
/** The numeric helpers of JavaScript that the application relies on, over exact numbers. */
module JsMath {

  /** Milliseconds in one day, the divisor every day-difference computation uses. */
  const DayMs: int := 86400000

  /** `Math.round`: the nearest integer, halves rounded towards positive infinity. */
  function Round(x: real): (r: int)
    ensures x - 0.5 < r as real <= x + 0.5
  {
    (x + 0.5).Floor
  }

  /** Rounding a quotient by a positive integer, in integers: twice the quotient lies within the
      interval of width two around twice the result. */
  lemma RoundOfQuotient(v: int, t: int)
    requires t > 0
    ensures var r := Round(v as real / t as real);
      (2 * r - 1) * t <= 2 * v < (2 * r + 1) * t
  {
    var x := v as real / t as real;
    var r := Round(x);
    assert x * t as real == v as real;
    assert (2 * r - 1) as real <= 2.0 * x < (2 * r + 1) as real;
    MulBothSides((2 * r - 1) as real, 2.0 * x, t as real);
    MulBothSidesStrict(2.0 * x, (2 * r + 1) as real, t as real);
    assert 2.0 * x * t as real == (2 * v) as real;
    assert (2 * r - 1) as real * t as real == ((2 * r - 1) * t) as real;
    assert (2 * r + 1) as real * t as real == ((2 * r + 1) * t) as real;
    assert (2 * v) as real < ((2 * r + 1) * t) as real;
  }

  /** The rounding interval of `x`, scaled by a non-zero factor into `y`; a negative factor
      turns it over. */
  lemma RoundScaled(x: real, p: real, y: real)
    requires y == 2.0 * x * p
    ensures var r := Round(x);
      && (p > 0.0 ==> (2 * r - 1) as real * p <= y < (2 * r + 1) as real * p)
      && (p < 0.0 ==> (2 * r + 1) as real * p < y <= (2 * r - 1) as real * p)
  {
    var r := Round(x);
    var lo, hi, z := (2 * r - 1) as real, (2 * r + 1) as real, 2.0 * x;
    assert lo <= z < hi;
    if p > 0.0 {
      ScaleInterval(lo, z, hi, p, y);
    } else if p < 0.0 {
      ScaleInterval(lo, z, hi, -p, -y);
    }
  }

  /** Multiplying `lo <= z < hi` by a positive factor keeps the interval. */
  lemma ScaleInterval(lo: real, z: real, hi: real, n: real, y: real)
    requires lo <= z < hi && n > 0.0 && y == z * n
    ensures lo * n <= y < hi * n
  {
    MulBothSides(lo, z, n);
    MulBothSidesStrict(z, hi, n);
  }

  lemma MulBothSides(a: real, b: real, n: real)
    requires a <= b && n > 0.0
    ensures a * n <= b * n
  {
  }

  lemma MulBothSidesStrict(a: real, b: real, n: real)
    requires a < b && n > 0.0
    ensures a * n < b * n
  {
  }

  /** Rounding is monotone. */
  lemma RoundMonotone(x: real, y: real)
    requires x <= y
    ensures Round(x) <= Round(y)
  {
    assert (x + 0.5).Floor <= (y + 0.5).Floor;
  }

  /** Dividing by a positive number keeps the order. */
  lemma DivMonotone(a: real, b: real, n: real)
    requires n > 0.0 && a <= b
    ensures a / n <= b / n
  {
    var d := (b - a) / n;
    assert d * n == b - a;
    assert d >= 0.0;
    assert b / n == a / n + d;
  }

  /** Dividing a multiple of a non-zero number by it gives back the factor. */
  lemma DivOfMultiple(k: real, p: real)
    requires p != 0.0
    ensures (k * p) / p == k
  {
  }

  /** `Math.floor(a / b)` for a positive integer divisor. */
  function FloorDiv(a: int, b: int): (r: int)
    requires b > 0
    ensures b * r <= a < b * (r + 1)
  {
    a / b
  }

  /** `Math.ceil(a / b)` for a positive integer divisor. */
  function CeilDiv(a: int, b: int): (r: int)
    requires b > 0
    ensures b * (r - 1) < a <= b * r
  {
    -((-a) / b)
  }

  /** `total > 0 ? Math.round((part / total) * 100) : 0`, the percentage every view shows. */
  function Percent(part: nat, total: nat): (r: int)
    ensures total == 0 ==> r == 0
    ensures part <= total ==> 0 <= r <= 100
    ensures 0 < total && part == total ==> r == 100
    ensures part == 0 ==> r == 0
    ensures total > 0 ==> (2 * r - 1) * total <= 200 * part < (2 * r + 1) * total
  {
    if total == 0 then 0
    else
      PercentFacts(part, total);
      Round(part as real / total as real * 100.0)
  }

  /** The rounded percentage over a positive total: its rounding interval, its range, and its
      value at the two ends. */
  lemma PercentFacts(part: nat, total: nat)
    requires total > 0
    ensures var r := Round(part as real / total as real * 100.0);
      && (part <= total ==> 0 <= r <= 100)
      && (part == total ==> r == 100)
      && (part == 0 ==> r == 0)
      && (2 * r - 1) * total <= 200 * part < (2 * r + 1) * total
  {
    PercentInterval(part, total);
    var t := total as real;
    var q := part as real / t;
    DivMonotone(0.0, part as real, t);
    DivOfMultiple(0.0, t);
    assert 0.0 <= q;
    if part <= total {
      DivMonotone(part as real, t, t);
      DivOfMultiple(1.0, t);
      RoundMonotone(0.0, q * 100.0);
      RoundMonotone(q * 100.0, 100.0);
    }
    if part == total {
      DivOfMultiple(1.0, t);
    }
  }

  /** The rounded percentage, free of division: twice the percentage, times the total, is
      within the total of `200 * part`. */
  lemma PercentInterval(part: nat, total: nat)
    requires total > 0
    ensures var r := Round(part as real / total as real * 100.0);
      (2 * r - 1) * total <= 200 * part < (2 * r + 1) * total
  {
    var t := total as real;
    assert (100 * part) as real / t == part as real / t * 100.0 by {
      var q := part as real / t;
      assert q * t == part as real;
      assert (q * 100.0) * t == (100 * part) as real;
    }
    RoundOfQuotient(100 * part, total);
  }

  /** Percentages are monotone in the part: completing more never lowers the figure. */
  lemma PercentMonotone(a: nat, b: nat, total: nat)
    requires a <= b
    ensures Percent(a, total) <= Percent(b, total)
  {
    if total > 0 {
      var t := total as real;
      DivMonotone(a as real, b as real, t);
      RoundMonotone((a as real / t) * 100.0, (b as real / t) * 100.0);
    }
  }
}

=== FILE: js_text.dfy ===
/** The string operations of JavaScript that the application relies on. */
module JsText {

  /** The characters `String.prototype.trim` strips and the regular-expression class `\s` matches. */
  predicate IsSpace(c: char) {
    || c == ' ' || c == '\t' || c == '\n' || c == '\U{000B}' || c == '\U{000C}' || c == '\r'
    || c == '\U{00A0}' || c == '\U{1680}' || ('\U{2000}' <= c <= '\U{200A}')
    || c == '\U{2028}' || c == '\U{2029}' || c == '\U{202F}' || c == '\U{205F}'
    || c == '\U{3000}' || c == '\U{FEFF}'
  }

  predicate AllSpace(s: string) {
    forall i :: 0 <= i < |s| ==> IsSpace(s[i])
  }

  /** A string with no white space at either end. */
  predicate Trimmed(s: string) {
    s == "" || (!IsSpace(s[0]) && !IsSpace(s[|s| - 1]))
  }

  /** The number of white-space characters `s` starts with. */
  function LeadingSpace(s: string): (n: nat)
    ensures n <= |s| && AllSpace(s[..n])
    ensures n == |s| || !IsSpace(s[n])
  {
    if |s| == 0 || !IsSpace(s[0]) then 0
    else
      var m := LeadingSpace(s[1..]);
      assert s[..m + 1] == [s[0]] + s[1..][..m];
      ConsSpace(s[0], s[1..][..m]);
      m + 1
  }

  /** The number of white-space characters `s` ends with. */
  function TrailingSpace(s: string): (n: nat)
    ensures n <= |s| && AllSpace(s[|s| - n..])
    ensures n == |s| || !IsSpace(s[|s| - n - 1])
  {
    if |s| == 0 || !IsSpace(s[|s| - 1]) then 0
    else
      var init := s[..|s| - 1];
      var m := TrailingSpace(init);
      assert s[|s| - (m + 1)..] == init[|init| - m..] + [s[|s| - 1]];
      SnocSpace(init[|init| - m..], s[|s| - 1]);
      m + 1
  }

  lemma ConsSpace(c: char, a: string)
    requires IsSpace(c) && AllSpace(a)
    ensures AllSpace([c] + a)
  {
  }

  lemma SnocSpace(a: string, c: char)
    requires AllSpace(a) && IsSpace(c)
    ensures AllSpace(a + [c])
  {
  }

  /** Drops the leading white space: the result is the longest suffix that does not start with it. */
  function TrimStart(s: string): (r: string)
    ensures |r| <= |s| && r == s[|s| - |r|..]
    ensures AllSpace(s[..|s| - |r|])
    ensures r == "" || !IsSpace(r[0])
  {
    s[LeadingSpace(s)..]
  }

  /** Drops the trailing white space: the result is the longest prefix that does not end with it. */
  function TrimEnd(s: string): (r: string)
    ensures |r| <= |s| && r == s[..|r|]
    ensures AllSpace(s[|r|..])
    ensures r == "" || !IsSpace(r[|r| - 1])
  {
    s[..|s| - TrailingSpace(s)]
  }

  /** `s.trim()`. */
  function Trim(s: string): (r: string)
    ensures Trimmed(r)
    ensures |r| <= |s|
    ensures r == "" <==> AllSpace(s)
  {
    var a := TrimStart(s);
    var r := TrimEnd(a);
    assert r == "" ==> AllSpace(s) by {
      if r == "" {
        assert a == "";
        assert s[..|s| - |a|] == s;
      }
    }
    assert r != "" ==> !IsSpace(r[0]) by {
      if r != "" {
        assert r[0] == a[0];
      }
    }
    r
  }

  /** `!s || s.trim() === ''`, the blank test of every required text field: nothing but white
      space, which is exactly when the trim is empty. */
  predicate IsBlank(s: string) {
    AllSpace(s)
  }

  /** A string already free of white space at its ends is its own trim. */
  lemma TrimOfTrimmed(s: string)
    requires Trimmed(s)
    ensures Trim(s) == s
  {
  }

  /** Trimming twice is trimming once. */
  lemma TrimIdempotent(s: string)
    ensures Trim(Trim(s)) == Trim(s)
  {
    TrimOfTrimmed(Trim(s));
  }

  /** `toLowerCase` on one character; only the ASCII letters are mapped. */
  function LowerChar(c: char): (r: char)
    ensures IsSpace(r) <==> IsSpace(c)
    ensures !('A' <= r <= 'Z')
  {
    if 'A' <= c <= 'Z' then (c as int - 'A' as int + 'a' as int) as char else c
  }

  /** `s.toLowerCase()` (ASCII letters only). */
  function Lower(s: string): (r: string)
    ensures |r| == |s|
    ensures forall i :: 0 <= i < |s| ==> r[i] == LowerChar(s[i])
  {
    seq(|s|, i requires 0 <= i < |s| => LowerChar(s[i]))
  }

  /** A string without upper-case ASCII letters. */
  predicate IsLower(s: string) {
    forall i :: 0 <= i < |s| ==> !('A' <= s[i] <= 'Z')
  }

  lemma LowerIsLower(s: string)
    ensures IsLower(Lower(s))
  {
  }

  /** Lower-casing keeps a trimmed string trimmed. */
  lemma LowerKeepsTrimmed(s: string)
    requires Trimmed(s)
    ensures Trimmed(Lower(s))
  {
    if s != "" {
      assert Lower(s)[0] == LowerChar(s[0]);
      assert Lower(s)[|s| - 1] == LowerChar(s[|s| - 1]);
    }
  }

  /** Lower-casing leaves a lower-case string alone. */
  lemma LowerOfLower(s: string)
    requires IsLower(s)
    ensures Lower(s) == s
  {
  }

  /** The `trim` and `lowercase` setters of a schema string array, applied to every element. */
  function TrimLowerEach(ss: seq<string>): (r: seq<string>)
    ensures |r| == |ss|
    ensures forall i :: 0 <= i < |ss| ==> r[i] == Lower(Trim(ss[i])) && Trimmed(r[i]) && IsLower(r[i])
  {
    var r := seq(|ss|, i requires 0 <= i < |ss| => Lower(Trim(ss[i])));
    assert forall i :: 0 <= i < |ss| ==> IsLower(r[i]) by {
      forall i | 0 <= i < |ss|
        ensures IsLower(r[i])
      {
        LowerIsLower(Trim(ss[i]));
      }
    }
    r
  }

  /** Elements already trimmed and lower-cased pass the setters unchanged. */
  lemma TrimLowerEachOfNormal(ss: seq<string>)
    requires forall i :: 0 <= i < |ss| ==> Trimmed(ss[i]) && IsLower(ss[i])
    ensures TrimLowerEach(ss) == ss
  {
    forall i | 0 <= i < |ss|
      ensures TrimLowerEach(ss)[i] == ss[i]
    {
      TrimOfTrimmed(ss[i]);
      LowerOfLower(ss[i]);
    }
  }

  predicate IsDigit(c: char) {
    '0' <= c <= '9'
  }

  predicate AllDigits(s: string) {
    forall i :: 0 <= i < |s| ==> IsDigit(s[i])
  }

  /** A string of digits holds no separator character. */
  lemma DigitsExclude(s: string, c: char)
    requires AllDigits(s) && !IsDigit(c)
    ensures c !in s
  {
    assert forall i :: 0 <= i < |s| ==> s[i] != c;
  }

  function DigitChar(d: nat): (c: char)
    requires d < 10
    ensures IsDigit(c) && c as int - '0' as int == d
  {
    ('0' as int + d) as char
  }

  /** The number a string of decimal digits denotes. */
  function DigitsValue(s: string): nat
    requires AllDigits(s)
  {
    if |s| == 0 then 0
    else DigitsValue(s[..|s| - 1]) * 10 + (s[|s| - 1] as int - '0' as int)
  }

  /** `String(n)` for a non-negative integer: its shortest decimal numeral. */
  function NatToString(n: nat): (r: string)
    ensures |r| >= 1 && AllDigits(r)
    ensures |r| > 1 ==> r[0] != '0'
    ensures n < 10 <==> |r| == 1
  {
    if n < 10 then [DigitChar(n)] else NatToString(n / 10) + [DigitChar(n % 10)]
  }

  /** Reading the numeral back gives the number. */
  lemma {:induction false} NatToStringRoundTrip(n: nat)
    ensures DigitsValue(NatToString(n)) == n
  {
    if n >= 10 {
      var s := NatToString(n);
      assert s[..|s| - 1] == NatToString(n / 10);
      NatToStringRoundTrip(n / 10);
    }
  }

  /** Numerals of different numbers differ. */
  lemma NatToStringInjective(a: nat, b: nat)
    requires NatToString(a) == NatToString(b)
    ensures a == b
  {
    NatToStringRoundTrip(a);
    NatToStringRoundTrip(b);
  }

  /** `String(i)` for any integer. */
  function IntToString(i: int): (r: string)
    ensures i < 0 ==> r == "-" + NatToString(-i)
    ensures i >= 0 ==> r == NatToString(i)
  {
    if i < 0 then "-" + NatToString(-i) else NatToString(i)
  }

  /** `String(n).padStart(2, '0')`. */
  function Pad2(n: nat): (r: string)
    ensures AllDigits(r) && |r| >= 2
    ensures n < 100 ==> |r| == 2 && DigitsValue(r) == n
  {
    NatToStringRoundTrip(n);
    var s := NatToString(n);
    if |s| < 2 then
      var r := "0" + s;
      assert r[..1] == "0";
      r
    else s
  }

  /** `s.split(sep)` for a one-character separator. */
  function Split(s: string, sep: char): (r: seq<string>)
    ensures |r| >= 1
    ensures forall k :: 0 <= k < |r| ==> sep !in r[k]
  {
    if |s| == 0 then [""]
    else
      var rest := Split(s[1..], sep);
      if s[0] == sep then [""] + rest else [[s[0]] + rest[0]] + rest[1..]
  }

  /** `parts.join(sep)`. */
  function Join(parts: seq<string>, sep: char): string
    requires |parts| >= 1
  {
    if |parts| == 1 then parts[0] else parts[0] + [sep] + Join(parts[1..], sep)
  }

  /** Joining the pieces of a split restores the string. */
  lemma {:induction false} JoinSplit(s: string, sep: char)
    ensures Join(Split(s, sep), sep) == s
  {
    if |s| > 0 {
      var rest := Split(s[1..], sep);
      JoinSplit(s[1..], sep);
      if s[0] != sep {
        var r := Split(s, sep);
        assert r == [[s[0]] + rest[0]] + rest[1..];
        if |rest| == 1 {
          assert Join(r, sep) == [s[0]] + rest[0];
        } else {
          assert r[1..] == rest[1..];
          assert Join(rest, sep) == rest[0] + [sep] + Join(rest[1..], sep);
        }
      } else {
        assert Split(s, sep)[1..] == rest;
      }
    }
  }

  /** Splitting a join of separator-free pieces gives the pieces back. */
  lemma {:induction false} SplitJoin(parts: seq<string>, sep: char)
    requires |parts| >= 1
    requires forall k :: 0 <= k < |parts| ==> sep !in parts[k]
    ensures Split(Join(parts, sep), sep) == parts
    decreases |parts|, |parts[0]|
  {
    var p := parts[0];
    if |p| > 0 {
      var tail := [p[1..]] + parts[1..];
      assert Join(parts, sep) == [p[0]] + Join(tail, sep) by {
        if |parts| > 1 {
          assert tail[1..] == parts[1..];
        }
      }
      SplitJoin(tail, sep);
      var j := Join(parts, sep);
      assert j[1..] == Join(tail, sep);
      assert p[0] != sep by {
        assert p[0] in parts[0];
      }
      assert [p[0]] + p[1..] == p;
    } else if |parts| > 1 {
      SplitJoin(parts[1..], sep);
      var j := Join(parts, sep);
      assert j == [sep] + Join(parts[1..], sep);
      assert j[1..] == Join(parts[1..], sep);
    }
  }

  /** Splitting two separator-free pieces joined by the separator. */
  lemma SplitPair(a: string, b: string, sep: char)
    requires sep !in a && sep !in b
    ensures Split(a + [sep] + b, sep) == [a, b]
  {
    assert Join([a, b], sep) == a + [sep] + b by {
      assert [a, b][1..] == [b];
    }
    SplitJoin([a, b], sep);
  }

  /** Splitting three separator-free pieces joined by the separator. */
  lemma SplitTriple(a: string, b: string, c: string, sep: char)
    requires sep !in a && sep !in b && sep !in c
    ensures Split(a + [sep] + b + [sep] + c, sep) == [a, b, c]
  {
    assert Join([a, b, c], sep) == a + [sep] + b + [sep] + c by {
      assert [a, b, c][1..] == [b, c] && [b, c][1..] == [c];
      assert Join([b, c], sep) == b + [sep] + c;
    }
    SplitJoin([a, b, c], sep);
  }
}

=== FILE: note_controller.dfy ===
/**
 * The note request handlers: tag normalisation on create and update, the create checks in
 * their order, the tag query of the list endpoint, the sort order and paging of list queries,
 * pin toggling and the blank-query check of search.
 */
module NoteController {
  import opened Wrappers
  import opened JsText
  import opened NoteModel

  // ---------------------------------------------------------------------------
  // Tags

  /** `tag.trim().toLowerCase()`. */
  function NormalizeTag(t: string): (r: string)
    ensures Trimmed(r) && IsLower(r)
    ensures r == "" <==> IsBlank(t)
  {
    var s := Trim(t);
    LowerIsLower(s);
    LowerKeepsTrimmed(s);
    Lower(s)
  }

  /** A tag already in normal form is left as it is. */
  lemma NormalizeTagIdempotent(t: string)
    ensures NormalizeTag(NormalizeTag(t)) == NormalizeTag(t)
  {
    var n := NormalizeTag(t);
    TrimOfTrimmed(n);
    LowerOfLower(n);
  }

  /** A tag as the processing leaves it: non-empty, trimmed and lower-case. */
  predicate NormalTag(x: string) {
    x != "" && Trimmed(x) && IsLower(x)
  }

  /** The array branch of `createNote` and `updateNote`: every tag normalised, empty ones dropped,
      the order kept. */
  function NormalizeTags(tags: seq<string>): (r: seq<string>)
    ensures |r| <= |tags|
    ensures forall j :: 0 <= j < |r| ==> NormalTag(r[j])
  {
    if |tags| == 0 then []
    else
      var head := NormalizeTag(tags[0]);
      var rest := NormalizeTags(tags[1..]);
      if head == "" then rest
      else
        assert NormalTag(head);
        [head] + rest
  }

  /** Every normalised tag comes from some tag of the input. */
  lemma {:induction false} NormalizeTagsSound(tags: seq<string>)
    ensures forall x :: x in NormalizeTags(tags) ==> exists i :: 0 <= i < |tags| && x == NormalizeTag(tags[i])
  {
    if |tags| > 0 {
      var head := NormalizeTag(tags[0]);
      var rest := NormalizeTags(tags[1..]);
      NormalizeTagsSound(tags[1..]);
      assert NormalizeTags(tags) == if head == "" then rest else [head] + rest;
      forall x | x in NormalizeTags(tags)
        ensures exists i :: 0 <= i < |tags| && x == NormalizeTag(tags[i])
      {
        if x in rest {
          var i :| 0 <= i < |tags[1..]| && x == NormalizeTag(tags[1..][i]);
          assert tags[1..][i] == tags[i + 1];
        } else {
          assert x == NormalizeTag(tags[0]);
        }
      }
    }
  }

  /** Every tag of the input that is not blank is kept, in normal form. */
  lemma {:induction false} NormalizeTagsComplete(tags: seq<string>)
    ensures forall i :: 0 <= i < |tags| && !IsBlank(tags[i]) ==> NormalizeTag(tags[i]) in NormalizeTags(tags)
  {
    if |tags| > 0 {
      NormalizeTagsComplete(tags[1..]);
      forall i | 1 <= i < |tags| && !IsBlank(tags[i])
        ensures NormalizeTag(tags[i]) in NormalizeTags(tags)
      {
        assert tags[1..][i - 1] == tags[i];
      }
    }
  }

  /** Normalising distributes over concatenation, so the relative order of tags is kept. */
  lemma {:induction false} NormalizeTagsAppend(a: seq<string>, b: seq<string>)
    ensures NormalizeTags(a + b) == NormalizeTags(a) + NormalizeTags(b)
  {
    if |a| > 0 {
      assert (a + b)[1..] == a[1..] + b;
      NormalizeTagsAppend(a[1..], b);
    } else {
      assert a + b == b;
    }
  }

  /** Normalising normalised tags changes nothing. */
  lemma {:induction false} NormalizeTagsIdempotent(tags: seq<string>)
    ensures NormalizeTags(NormalizeTags(tags)) == NormalizeTags(tags)
  {
    if |tags| > 0 {
      var head := NormalizeTag(tags[0]);
      var h := if head == "" then [] else [head];
      var rest := NormalizeTags(tags[1..]);
      assert NormalizeTags(tags) == h + rest;
      NormalizeTagsAppend(h, rest);
      NormalizeTagsIdempotent(tags[1..]);
      if head != "" {
        NormalizeTagIdempotent(tags[0]);
        assert NormalizeTags(h) == [head] + NormalizeTags(h[1..]);
      }
    }
  }

  /** The `tags` member of a request body. */
  datatype TagsField = NoTags | TagList(items: seq<string>) | NotAList

  /** The tags `createNote` stores: the normalised list, or none for anything but an array. */
  function CreateTags(f: TagsField): (r: seq<string>)
    ensures !f.TagList? ==> r == []
    ensures f.TagList? ==> r == NormalizeTags(f.items)
  {
    if f.TagList? then NormalizeTags(f.items) else []
  }

  /** The `tags` member `updateNote` forwards: normalised only when it is an array. */
  function UpdateTags(f: TagsField): (r: TagsField)
    ensures !f.TagList? ==> r == f
    ensures f.TagList? ==> r == TagList(NormalizeTags(f.items))
  {
    if f.TagList? then TagList(NormalizeTags(f.items)) else f
  }

  /** `tags.split(',').map(tag => tag.trim().toLowerCase())`: empty pieces are kept. */
  function ParseTagQuery(s: string): (r: seq<string>)
    ensures |r| == |Split(s, ',')|
    ensures forall i :: 0 <= i < |r| ==> r[i] == NormalizeTag(Split(s, ',')[i])
  {
    var parts := Split(s, ',');
    seq(|parts|, i requires 0 <= i < |parts| => NormalizeTag(parts[i]))
  }

  /** Normalised tags without commas survive being joined into a query and parsed back. */
  lemma TagQueryRoundTrip(tags: seq<string>)
    requires |tags| >= 1
    requires forall i :: 0 <= i < |tags| ==> ',' !in tags[i] && Trimmed(tags[i]) && IsLower(tags[i])
    ensures ParseTagQuery(Join(tags, ',')) == tags
  {
    SplitJoin(tags, ',');
    forall i | 0 <= i < |tags|
      ensures NormalizeTag(tags[i]) == tags[i]
    {
      TrimOfTrimmed(tags[i]);
      LowerOfLower(tags[i]);
    }
  }

  // ---------------------------------------------------------------------------
  // Create, toggle, search

  datatype NoteFailure = TitleRequired | ContentRequired | ValidationFailed | QueryRequired

  /** The body of a create request. */
  datatype CreateInput = CreateInput(
    title: Option<string>, content: Option<string>, category: Option<Category>,
    tags: TagsField, color: Option<Color>, isPinned: Option<bool>)

  /** The note `createNote` builds from a request whose title and content are present: the
      trimmed texts and the processed tags, which the schema setters then leave as they are. */
  function BuildNote(id: string, input: CreateInput, userId: string, now: Time): (n: Note)
    requires input.title.Some? && input.content.Some?
    ensures n.title == Trim(input.title.value) && n.content == Trim(input.content.value)
    ensures n.tags == CreateTags(input.tags)
    ensures n.isPinned == input.isPinned.GetOr(false) && n.userId == userId
  {
    var tags := CreateTags(input.tags);
    assert forall i :: 0 <= i < |tags| ==> Trimmed(tags[i]) && IsLower(tags[i]) by {
      forall i | 0 <= i < |tags|
        ensures Trimmed(tags[i]) && IsLower(tags[i])
      {
        assert NormalTag(tags[i]);
      }
    }
    TrimLowerEachOfNormal(tags);
    TrimIdempotent(input.title.value);
    TrimIdempotent(input.content.value);
    NewNote(id, NoteInput(Trim(input.title.value), Trim(input.content.value), input.category, tags, input.color, input.isPinned), userId, now)
  }

  /** `createNote`: a blank title is refused first, then a blank content; the built note is then
      validated. */
  function CreateNote(id: string, input: CreateInput, userId: string, now: Time): (r: Result<Note, NoteFailure>)
    ensures input.title.None? || IsBlank(input.title.value) ==> r == Failure(TitleRequired)
    ensures input.title.Some? && !IsBlank(input.title.value) && (input.content.None? || IsBlank(input.content.value))
            ==> r == Failure(ContentRequired)
    ensures r.Success? ==> input.title.Some? && input.content.Some?
    ensures r.Success? ==> ValidNote(r.value) && r.value == BuildNote(id, input, userId, now)
    ensures r.Failure? ==> r.error != QueryRequired
  {
    if input.title.None? || IsBlank(input.title.value) then Failure(TitleRequired)
    else if input.content.None? || IsBlank(input.content.value) then Failure(ContentRequired)
    else
      var n := BuildNote(id, input, userId, now);
      if ValidNote(n) then Success(n) else Failure(ValidationFailed)
  }

  /** `togglePin`, with the response message read after the flip. The save stamps `updatedAt`
      with the time of the request, since the pin flag always changes. */
  function TogglePin(n: Note, now: Time): (r: (Note, string))
    ensures r.0.isPinned == !n.isPinned && r.0.updatedAt == now
    ensures r.0 == n.(isPinned := r.0.isPinned, updatedAt := now)
    ensures r.1 == (if r.0.isPinned then "Note pinned successfully" else "Note unpinned successfully")
  {
    var m := n.(isPinned := !n.isPinned, updatedAt := now);
    (m, if m.isPinned then "Note pinned successfully" else "Note unpinned successfully")
  }

  /** Toggling twice restores every field but `updatedAt`, which keeps the second time. */
  lemma TogglePinTwice(n: Note, t1: Time, t2: Time)
    ensures TogglePin(TogglePin(n, t1).0, t2).0 == n.(updatedAt := t2)
  {
  }

  /** The `q` check of `searchNotes`: a missing or blank query is refused; otherwise it is trimmed. */
  function SearchQuery(q: Option<string>): (r: Result<string, NoteFailure>)
    ensures r.Failure? <==> q.None? || IsBlank(q.value)
    ensures r.Failure? ==> r.error == QueryRequired
    ensures r.Success? ==> r.value == Trim(q.value) && r.value != "" && Trimmed(r.value)
  {
    if q.None? || IsBlank(q.value) then Failure(QueryRequired) else Success(Trim(q.value))
  }

  /** `(page - 1) * limit`, the documents skipped for a page. */
  function Skip(page: int, limit: int): (r: int)
    ensures page == 1 ==> r == 0
    ensures page >= 1 && limit >= 0 ==> r >= 0
  {
    (page - 1) * limit
  }

  /** Consecutive pages are adjacent: the next page starts where this one ends. */
  lemma SkipNextPage(page: int, limit: int)
    ensures Skip(page + 1, limit) == Skip(page, limit) + limit
  {
  }

  // ---------------------------------------------------------------------------
  // Sort order of list queries

  /** One key of a sort document: a field and a direction, 1 ascending or -1 descending. */
  datatype SortKey = SortKey(field: string, dir: int)

  /** The sort document `getAllNotes` builds, in key order: the requested field first, and
      `isPinned` descending after it unless the requested field is `isPinned` itself. */
  function SortAsWritten(sortBy: string, sortOrder: string): (r: seq<SortKey>)
    ensures |r| >= 1 && r[0].field == sortBy
    ensures sortBy != "isPinned" ==> |r| == 2 && r[1] == SortKey("isPinned", -1)
  {
    var primary := SortKey(sortBy, if sortOrder == "asc" then 1 else -1);
    if sortBy != "isPinned" then [primary, SortKey("isPinned", -1)] else [primary]
  }

  /** The order the comment on that code states: pinned notes first, then the requested field. */
  function SortPinnedFirst(sortBy: string, sortOrder: string): (r: seq<SortKey>)
    ensures sortBy != "isPinned" ==> |r| == 2 && r[0] == SortKey("isPinned", -1) && r[1].field == sortBy
    ensures sortBy == "isPinned" ==> r == SortAsWritten(sortBy, sortOrder)
  {
    var primary := SortKey(sortBy, if sortOrder == "asc" then 1 else -1);
    if sortBy != "isPinned" then [SortKey("isPinned", -1), primary] else [primary]
  }

  /** Code-unit order of strings: -1, 0 or 1. */
  function CompareStrings(a: string, b: string): (r: int)
    ensures r in {-1, 0, 1}
    ensures r == 0 <==> a == b
  {
    if |a| == 0 && |b| == 0 then 0
    else if |a| == 0 then -1
    else if |b| == 0 then 1
    else if a[0] < b[0] then -1
    else if a[0] > b[0] then 1
    else
      var r := CompareStrings(a[1..], b[1..]);
      assert r == 0 ==> a == [a[0]] + a[1..] == [b[0]] + b[1..] == b;
      r
  }

  function CompareInts(a: int, b: int): int {
    if a < b then -1 else if a > b then 1 else 0
  }

  /** How two notes compare on one field, ascending; `false` sorts before `true`, and fields the
      model does not carry compare equal. */
  function CompareOn(a: Note, b: Note, field: string): (r: int)
    ensures r in {-1, 0, 1}
    ensures field == "isPinned" ==> (r == 1 <==> a.isPinned && !b.isPinned)
    ensures field == "isPinned" ==> (r == -1 <==> !a.isPinned && b.isPinned)
  {
    if field == "updatedAt" then CompareInts(a.updatedAt, b.updatedAt)
    else if field == "createdAt" then CompareInts(a.createdAt, b.createdAt)
    else if field == "title" then CompareStrings(a.title, b.title)
    else if field == "isPinned" then CompareInts(if a.isPinned then 1 else 0, if b.isPinned then 1 else 0)
    else 0
  }

  /** Whether `a` is listed before `b` under a sort document: the first key on which they differ decides. */
  function Before(a: Note, b: Note, spec: seq<SortKey>): bool {
    if |spec| == 0 then false
    else
      var c := CompareOn(a, b, spec[0].field) * spec[0].dir;
      if c != 0 then c < 0 else Before(a, b, spec[1..])
  }

  /** Under the sort document as written, with the default `updatedAt` descending, a newer note
      that is not pinned is listed before an older pinned one. */
  lemma PinnedNotFirstAsWritten()
    ensures var older := Note("a", "pinned", "x", Personal, [], Yellow, true, "u", 1, 1);
            var newer := Note("b", "plain", "y", Personal, [], Yellow, false, "u", 2, 2);
            Before(newer, older, SortAsWritten("updatedAt", "desc"))
  {
    var spec := SortAsWritten("updatedAt", "desc");
    assert spec[0] == SortKey("updatedAt", -1);
  }

  /** With pinned notes first, a pinned note precedes an unpinned one whatever the requested field,
      and notes of equal pin state keep the requested order. */
  lemma PinnedFirst(a: Note, b: Note, sortBy: string, sortOrder: string)
    requires sortBy != "isPinned"
    ensures a.isPinned && !b.isPinned ==>
      (Before(a, b, SortPinnedFirst(sortBy, sortOrder)) && !Before(b, a, SortPinnedFirst(sortBy, sortOrder)))
    ensures a.isPinned == b.isPinned ==>
      Before(a, b, SortPinnedFirst(sortBy, sortOrder)) == Before(a, b, SortPinnedFirst(sortBy, sortOrder)[1..])
  {
    var spec := SortPinnedFirst(sortBy, sortOrder);
    assert spec[0] == SortKey("isPinned", -1);
  }
}

=== FILE: note_model.dfy ===
/**
 * The backend note document: field bounds and defaults, and the `preview` and `wordCount`
 * virtuals.
 */
module NoteModel {
  import opened Wrappers
  import opened JsText

  type Time = int

  datatype Category = Personal | Work | Ideas | Reminders | OtherCategory
  datatype Color = Yellow | Blue | Green | Pink | Purple | Orange | Gray

  datatype Note = Note(
    id: string,
    title: string,
    content: string,
    category: Category,
    tags: seq<string>,
    color: Color,
    isPinned: bool,
    userId: string,
    createdAt: Time,
    updatedAt: Time)

  const MaxTitleLength: nat := 200
  const MaxContentLength: nat := 10000
  const MaxTagLength: nat := 50
  const PreviewLength: nat := 100

  /** The schema rules: required trimmed title and content within their bounds, and tags
      trimmed, lower-cased and at most 50 characters. */
  predicate ValidNote(n: Note) {
    && n.title != "" && |n.title| <= MaxTitleLength
    && n.content != "" && |n.content| <= MaxContentLength
    && (forall i :: 0 <= i < |n.tags| ==> |n.tags[i]| <= MaxTagLength && Trimmed(n.tags[i]) && IsLower(n.tags[i]))
    && n.userId != ""
  }

  /** The fields of a new note; absent ones take the schema defaults. */
  datatype NoteInput = NoteInput(
    title: string, content: string, category: Option<Category>, tags: seq<string>,
    color: Option<Color>, isPinned: Option<bool>)

  /** `new Note(data)`: the `trim` and `lowercase` setters and the defaults
      `category = personal`, `color = yellow`, `isPinned = false`. */
  function NewNote(id: string, input: NoteInput, userId: string, now: Time): (n: Note)
    ensures n.title == Trim(input.title) && n.content == Trim(input.content)
    ensures n.category == input.category.GetOr(Personal) && n.color == input.color.GetOr(Yellow)
    ensures n.isPinned == input.isPinned.GetOr(false)
    ensures |n.tags| == |input.tags| && forall i :: 0 <= i < |n.tags| ==> Trimmed(n.tags[i]) && IsLower(n.tags[i])
  {
    Note(id, Trim(input.title), Trim(input.content), input.category.GetOr(Personal), TrimLowerEach(input.tags),
         input.color.GetOr(Yellow), input.isPinned.GetOr(false), userId, now, now)
  }

  /** `preview`: the content itself up to 100 characters, otherwise its first 100 followed by `...`. */
  function Preview(content: string): (r: string)
    ensures content == "" ==> r == ""
    ensures |content| <= PreviewLength ==> r == content
    ensures |content| > PreviewLength ==> |r| == PreviewLength + 3 && r[PreviewLength..] == "..."
    ensures |content| > PreviewLength ==> r[..PreviewLength] == content[..PreviewLength]
    ensures |r| <= PreviewLength + 3
  {
    if content == "" then ""
    else if |content| > PreviewLength then content[..PreviewLength] + "..."
    else content
  }

  /** The number of maximal runs of white space in `s`. */
  function SpaceRuns(s: string): nat {
    if |s| == 0 then 0
    else SpaceRuns(s[..|s| - 1]) + (if IsSpace(s[|s| - 1]) && (|s| == 1 || !IsSpace(s[|s| - 2])) then 1 else 0)
  }

  /** The number of words of `s`: positions holding a non-space that follows a space or the start. */
  function WordStarts(s: string): nat {
    if |s| == 0 then 0
    else WordStarts(s[..|s| - 1]) + (if !IsSpace(s[|s| - 1]) && (|s| == 1 || IsSpace(s[|s| - 2])) then 1 else 0)
  }

  /** `wordCount`: `content.trim().split(/\s+/).length`, or 0 for empty content. Each run of white
      space inside the trimmed text separates two pieces. */
  function WordCount(content: string): (r: nat)
    ensures content == "" ==> r == 0
    ensures content != "" ==> r >= 1
  {
    if content == "" then 0 else 1 + SpaceRuns(Trim(content))
  }

  /** In a text that starts with a word, each run of white space that is followed by more text
      opens one more word. */
  lemma {:induction false} WordsAndRuns(s: string)
    requires |s| > 0 && !IsSpace(s[0])
    ensures WordStarts(s) + (if IsSpace(s[|s| - 1]) then 1 else 0) == 1 + SpaceRuns(s)
  {
    if |s| > 1 {
      var init := s[..|s| - 1];
      assert init[0] == s[0];
      assert init[|init| - 1] == s[|s| - 2];
      WordsAndRuns(init);
    }
  }

  /** For content with text in it, the word count is the number of words of the trimmed text. */
  lemma WordCountCountsWords(content: string)
    requires !IsBlank(content)
    ensures WordCount(content) == WordStarts(Trim(content))
  {
    var t := Trim(content);
    assert t != "";
    WordsAndRuns(t);
  }

  /** White space alone, once trimmed, is a single empty piece. */
  lemma WordCountOfBlank(content: string)
    requires content != "" && IsBlank(content)
    ensures WordCount(content) == 1
  {
  }

  /** The counters of `getUserStats`. */
  datatype NoteStats = NoteStats(totalNotes: nat, pinnedNotes: nat, categoryBreakdown: map<Category, nat>)

  const NoNoteStats := NoteStats(0, 0, map[])

  function CountPinned(ns: seq<Note>): (n: nat)
    ensures n <= |ns|
  {
    if |ns| == 0 then 0 else CountPinned(ns[..|ns| - 1]) + (if ns[|ns| - 1].isPinned then 1 else 0)
  }

  function CountCategory(ns: seq<Note>, c: Category): (n: nat)
    ensures n <= |ns|
  {
    if |ns| == 0 then 0 else CountCategory(ns[..|ns| - 1], c) + (if ns[|ns| - 1].category == c then 1 else 0)
  }

  /** What the statistics pipeline counts, with the zero record for a user without notes; the
      breakdown lists the categories that occur. */
  function StatsOf(ns: seq<Note>): (s: NoteStats)
    ensures |ns| == 0 ==> s == NoNoteStats
    ensures s.totalNotes == |ns| && s.pinnedNotes == CountPinned(ns) && s.pinnedNotes <= s.totalNotes
    ensures forall c :: c in s.categoryBreakdown <==> CountCategory(ns, c) > 0
    ensures forall c :: c in s.categoryBreakdown ==> s.categoryBreakdown[c] == CountCategory(ns, c)
  {
    if |ns| == 0 then NoNoteStats
    else
      NoteStats(|ns|, CountPinned(ns),
                map c | c in {Personal, Work, Ideas, Reminders, OtherCategory} && CountCategory(ns, c) > 0 :: CountCategory(ns, c))
  }
}

=== FILE: shopping_controller.dfy ===
/**
 * The shopping-list request handlers: identifier and input checks in their fixed
 * order, the bulk item processor, duplication, archiving, list updates and the
 * export file name. The document store is a map from list identifier to list.
 */
module ShoppingController {
  import opened Wrappers
  import opened JsText
  import opened ShoppingModel

  type Store = map<string, ShoppingList>

  predicate IsHexDigit(c: char) {
    ('0' <= c <= '9') || ('a' <= c <= 'f') || ('A' <= c <= 'F')
  }

  /** `mongoose.Types.ObjectId.isValid` for a 24-character hexadecimal string. */
  predicate ValidObjectId(s: string) {
    |s| == 24 && forall i :: 0 <= i < |s| ==> IsHexDigit(s[i])
  }

  /** Why a request is answered with an error. */
  datatype Failure =
    | InvalidListId          // 400 'Invalid shopping list ID'
    | InvalidListOrItemId    // 400 'Invalid shopping list or item ID'
    | ListNameRequired       // 400 'Shopping list name is required'
    | ItemNameRequired       // 400 'Item name is required'
    | ItemIdsRequired        // 400 'itemIds array is required'
    | UpdateDataRequired     // 400 'updateData is required for update action'
    | InvalidAction          // 400 'Invalid action. ...'
    | ValidationFailed       // 400 'Validation failed'
    | ListNotFound           // 404 'Shopping list not found'
    | ItemNotFound           // 404 'Item not found in shopping list'
    | ServerError            // 500, the generic catch

  function StatusCode(f: Failure): (code: int)
    ensures code in {400, 404, 500}
    ensures code == 404 <==> f == ListNotFound || f == ItemNotFound
    ensures code == 500 <==> f == ServerError
  {
    match f
    case ListNotFound => 404
    case ItemNotFound => 404
    case ServerError => 500
    case _ => 400
  }

  /** A response: the saved list with a success code, or a failure. */
  datatype Reply = Done(code: int, list: ShoppingList) | Refused(failure: Failure)

  /** `findOne({ _id: listId, userId })`: another user's list is reported as missing. */
  function FindList(store: Store, listId: string, userId: string): (r: Option<ShoppingList>)
    ensures r.Some? <==> listId in store && store[listId].userId == userId
    ensures r.Some? ==> r.value == store[listId]
  {
    if listId in store && store[listId].userId == userId then Some(store[listId]) else None
  }

  // ---------------------------------------------------------------------------
  // Creating lists and adding items

  /** The request body of a list creation; the owner always comes from the session. */
  datatype ListInput = ListInput(
    name: Option<string>,
    description: Option<string>,
    items: seq<ItemInput>,
    status: Option<Status>,
    budget: Option<real>,
    color: Option<Color>,
    category: Option<ListCategory>,
    dueDate: Option<Time>)

  /** `new ShoppingList(data)`: schema defaults, the `trim` setter, one generated identifier per item. */
  function NewList(id: string, userId: string, input: ListInput, freshId: nat -> string): (l: ShoppingList)
    ensures l.id == id && l.userId == userId
    ensures l.name == Trim(input.name.GetOr("Shopping List"))
    ensures |l.items| == |input.items|
    ensures forall i :: 0 <= i < |l.items| ==> l.items[i] == NewItem(input.items[i], freshId(i))
    ensures l.status == input.status.GetOr(Active) && l.completedAt.None?
    ensures l.color == input.color.GetOr(Blue) && l.category == input.category.GetOr(Weekly)
  {
    ShoppingList(
      id := id,
      userId := userId,
      name := Trim(input.name.GetOr("Shopping List")),
      description := if input.description.Some? then Some(Trim(input.description.value)) else None,
      items := seq(|input.items|, i requires 0 <= i < |input.items| => NewItem(input.items[i], freshId(i))),
      status := input.status.GetOr(Active),
      budget := input.budget,
      totalEstimatedCost := 0.0,
      totalActualCost := 0.0,
      color := input.color.GetOr(Blue),
      category := input.category.GetOr(Weekly),
      dueDate := input.dueDate,
      completedAt := None)
  }

  /** `createShoppingList`: a blank name is refused before anything is built; otherwise the new list is saved. */
  function CreateShoppingList(userId: string, input: ListInput, newId: string, freshId: nat -> string, now: Time): (r: Reply)
    ensures input.name.None? || IsBlank(input.name.value) ==> r == Refused(ListNameRequired)
    ensures r.Done? ==> r.code == 201 && r.list == Recompute(NewList(newId, userId, input, freshId), now)
    ensures r.Done? ==> r.list.userId == userId && |r.list.items| == |input.items|
    ensures r.Refused? ==> r.failure in {ListNameRequired, ValidationFailed}
  {
    if input.name.None? || IsBlank(input.name.value) then Refused(ListNameRequired)
    else
      match Save(NewList(newId, userId, input, freshId), now)
      case Success(l) => Done(201, l)
      case Failure(_) => Refused(ValidationFailed)
  }

  /** `addItemToList`: list identifier, then item name, then ownership, then the model's `addItem`. */
  function AddItemToList(store: Store, userId: string, listId: string, input: ItemInput, freshId: string, now: Time): (r: Reply)
    ensures !ValidObjectId(listId) ==> r == Refused(InvalidListId)
    ensures ValidObjectId(listId) && (input.name.None? || IsBlank(input.name.value)) ==> r == Refused(ItemNameRequired)
    ensures ValidObjectId(listId) && input.name.Some? && !IsBlank(input.name.value) && FindList(store, listId, userId).None?
            ==> r == Refused(ListNotFound)
    ensures r.Done? ==> (r.code == 201 && FindList(store, listId, userId).Some?
                         && Success(r.list) == AddItem(store[listId], input, freshId, now))
  {
    if !ValidObjectId(listId) then Refused(InvalidListId)
    else if input.name.None? || IsBlank(input.name.value) then Refused(ItemNameRequired)
    else match FindList(store, listId, userId)
      case None => Refused(ListNotFound)
      case Some(l) =>
        match AddItem(l, input, freshId, now)
        case Success(saved) => Done(201, saved)
        case Failure(_) => Refused(ValidationFailed)
  }

  // ---------------------------------------------------------------------------
  // Single-item endpoints

  datatype ItemOp = UpdateOp(patch: ItemPatch) | ToggleOp | RemoveOp

  /** The model operation an item endpoint performs once every check has passed. */
  function RunItemOp(l: ShoppingList, itemId: string, op: ItemOp, now: Time): (r: Result<ShoppingList, ModelError>)
    ensures r.Success? ==> Consistent(r.value) && r.value.id == l.id && r.value.userId == l.userId
  {
    match op
    case UpdateOp(p) => UpdateItem(l, itemId, p, now)
    case ToggleOp => ToggleItem(l, itemId, now)
    case RemoveOp => RemoveItem(l, itemId, now)
  }

  /** `updateItemInList`, `toggleItemCompletion`, `removeItemFromList`: both identifiers are checked
      before any lookup, the list before the item, and the item before any change. A rejected save
      is a validation failure for an update and a generic error otherwise. */
  function ItemEndpoint(store: Store, userId: string, listId: string, itemId: string, op: ItemOp, now: Time): (r: Reply)
    ensures !ValidObjectId(listId) || !ValidObjectId(itemId) ==> r == Refused(InvalidListOrItemId)
    ensures ValidObjectId(listId) && ValidObjectId(itemId) && FindList(store, listId, userId).None?
            ==> r == Refused(ListNotFound)
    ensures (ValidObjectId(listId) && ValidObjectId(itemId) && FindList(store, listId, userId).Some?
             && !HasId(store[listId].items, itemId)) ==> r == Refused(ItemNotFound)
    ensures r.Done? ==> (r.code == 200 && FindList(store, listId, userId).Some? && HasId(store[listId].items, itemId)
                         && Success(r.list) == RunItemOp(store[listId], itemId, op, now))
    ensures r.Refused? && r.failure == ValidationFailed ==> op.UpdateOp?
  {
    if !ValidObjectId(listId) || !ValidObjectId(itemId) then Refused(InvalidListOrItemId)
    else match FindList(store, listId, userId)
      case None => Refused(ListNotFound)
      case Some(l) =>
        if !HasId(l.items, itemId) then Refused(ItemNotFound)
        else match RunItemOp(l, itemId, op, now)
          case Success(saved) => Done(200, saved)
          case Failure(_) => if op.UpdateOp? then Refused(ValidationFailed) else Refused(ServerError)
  }

  /** The toggle response text, built from `item.completed` read after the toggle has run. */
  function ToggleMessageAsWritten(completedAfterToggle: bool): (m: string)
    ensures completedAfterToggle ==> m == "Item unmarked as pending"
    ensures !completedAfterToggle ==> m == "Item marked as completed"
    ensures m == ToggleMessage(!completedAfterToggle)
  {
    "Item " + (if completedAfterToggle then "unmarked" else "marked") + " as "
      + (if completedAfterToggle then "pending" else "completed")
  }

  /** The toggle response text describing the state the item was moved to. */
  function ToggleMessage(completedAfterToggle: bool): (m: string)
    ensures completedAfterToggle ==> m == "Item marked as completed"
    ensures !completedAfterToggle ==> m == "Item unmarked as pending"
  {
    "Item " + (if completedAfterToggle then "marked" else "unmarked") + " as "
      + (if completedAfterToggle then "completed" else "pending")
  }

  /** The handler reads `item.completed` after `toggleItem` flipped that same sub-document, so
      completing a pending item is reported as un-marking it. */
  lemma ToggleMessageInverted(it: Item, now: Time)
    requires !it.completed
    ensures Toggled(it, now).completed
    ensures ToggleMessageAsWritten(Toggled(it, now).completed) == "Item unmarked as pending"
    ensures ToggleMessage(Toggled(it, now).completed) == "Item marked as completed"
  {
  }

  // ---------------------------------------------------------------------------
  // Bulk processor

  /** The completion change of the bulk `complete` (done) and `uncomplete` (not done) actions. */
  function Mark(it: Item, done: bool, now: Time): (r: Item)
    ensures r.completed == done && (r.completedAt.Some? <==> done)
    ensures r == it.(completed := done, completedAt := r.completedAt)
  {
    it.(completed := done, completedAt := if done then Some(now) else None)
  }

  /** Reference result of `complete`/`uncomplete`: every listed item not yet in the target state is moved to it. */
  function CompletionResult(items: seq<Item>, ids: seq<string>, done: bool, now: Time): (r: seq<Item>)
    ensures |r| == |items|
    ensures forall k :: 0 <= k < |items| ==>
      r[k] == (if items[k].id in ids && items[k].completed != done then Mark(items[k], done, now) else items[k])
  {
    seq(|items|, k requires 0 <= k < |items| =>
      if items[k].id in ids && items[k].completed != done then Mark(items[k], done, now) else items[k])
  }

  /** The number of listed items not yet in the target completion state. */
  function CountToMark(items: seq<Item>, ids: seq<string>, done: bool): nat {
    if |items| == 0 then 0
    else
      var last := items[|items| - 1];
      CountToMark(items[..|items| - 1], ids, done) + (if last.id in ids && last.completed != done then 1 else 0)
  }

  /** The number of items with identifier `x` not yet in the target completion state. */
  function CountIdToMark(items: seq<Item>, x: string, done: bool): nat {
    if |items| == 0 then 0
    else
      var last := items[|items| - 1];
      CountIdToMark(items[..|items| - 1], x, done) + (if last.id == x && last.completed != done then 1 else 0)
  }

  lemma {:induction false} CountToMarkNone(items: seq<Item>, ids: seq<string>, done: bool)
    requires |ids| == 0
    ensures CountToMark(items, ids, done) == 0
  {
    if |items| > 0 {
      CountToMarkNone(items[..|items| - 1], ids, done);
    }
  }

  /** Listing one more identifier adds the items with that identifier, unless it was listed already. */
  lemma {:induction false} CountToMarkExtend(items: seq<Item>, ids: seq<string>, x: string, done: bool)
    ensures CountToMark(items, ids + [x], done)
         == CountToMark(items, ids, done) + (if x in ids then 0 else CountIdToMark(items, x, done))
  {
    if |items| > 0 {
      CountToMarkExtend(items[..|items| - 1], ids, x, done);
    }
  }

  lemma {:induction false} CountIdAbsent(items: seq<Item>, x: string, done: bool)
    requires !HasId(items, x)
    ensures CountIdToMark(items, x, done) == 0
  {
    if |items| > 0 {
      var init := items[..|items| - 1];
      assert forall k :: 0 <= k < |init| ==> init[k] == items[k];
      CountIdAbsent(init, x, done);
    }
  }

  /** With unique identifiers, exactly the one item carrying `x` can be counted. */
  lemma {:induction false} CountIdUnique(items: seq<Item>, k: nat, done: bool)
    requires UniqueIds(items) && k < |items|
    ensures CountIdToMark(items, items[k].id, done) == (if items[k].completed != done then 1 else 0)
  {
    var x := items[k].id;
    var n := |items|;
    var init := items[..n - 1];
    assert UniqueIds(init) by {
      assert forall i :: 0 <= i < |init| ==> init[i] == items[i];
    }
    if k == n - 1 {
      assert forall j :: 0 <= j < |init| ==> init[j].id != x;
      CountIdAbsent(init, x, done);
    } else {
      assert init[k] == items[k];
      CountIdUnique(init, k, done);
      assert items[n - 1].id != x;
    }
  }

  /** Identifiers are left as they are by every per-item change of the bulk processor. */
  predicate SameIds(a: seq<Item>, b: seq<Item>) {
    |a| == |b| && forall k :: 0 <= k < |a| ==> a[k].id == b[k].id
  }

  /** `out` is `items` with every item listed in `seen` moved to the target completion state. */
  predicate MarkedFor(items: seq<Item>, out: seq<Item>, seen: seq<string>, done: bool, now: Time) {
    |out| == |items|
    && forall k :: 0 <= k < |items| ==>
         out[k] == (if items[k].id in seen && items[k].completed != done then Mark(items[k], done, now) else items[k])
  }

  /** Handling a listed identifier that some item carries. */
  lemma MarkFoundStep(items: seq<Item>, out: seq<Item>, seen: seq<string>, k: nat, done: bool, now: Time)
    requires UniqueIds(items) && MarkedFor(items, out, seen, done, now) && k < |out|
    ensures out[k].id == items[k].id
    ensures out[k].completed != done ==> items[k].id !in seen && items[k].completed != done
    ensures MarkedFor(items, if out[k].completed != done then out[k := Mark(out[k], done, now)] else out,
                      seen + [items[k].id], done, now)
  {
    var x := items[k].id;
    var out' := if out[k].completed != done then out[k := Mark(out[k], done, now)] else out;
    forall j | 0 <= j < |items|
      ensures out'[j] == (if items[j].id in seen + [x] && items[j].completed != done then Mark(items[j], done, now) else items[j])
    {
      if j != k {
        assert items[j].id != x;
        assert items[j].id in seen + [x] <==> items[j].id in seen;
      }
    }
  }

  /** Handling a listed identifier that no item carries. */
  lemma MarkAbsentStep(items: seq<Item>, out: seq<Item>, seen: seq<string>, x: string, done: bool, now: Time)
    requires MarkedFor(items, out, seen, done, now) && !HasId(out, x)
    ensures !HasId(items, x)
    ensures MarkedFor(items, out, seen + [x], done, now)
  {
    forall j | 0 <= j < |items|
      ensures items[j].id != x
    {
      assert out[j].id == items[j].id;
    }
    forall j | 0 <= j < |items|
      ensures items[j].id in seen + [x] <==> items[j].id in seen
    {
    }
  }

  /** `complete` (done) or `uncomplete` (not done) over `ids`, one lookup per listed identifier. */
  method SetCompletion(items: seq<Item>, ids: seq<string>, done: bool, now: Time) returns (out: seq<Item>, count: nat)
    requires UniqueIds(items)
    ensures out == CompletionResult(items, ids, done, now)
    ensures count == CountToMark(items, ids, done)
  {
    out := items;
    count := 0;
    var i := 0;
    CountToMarkNone(items, ids[..0], done);
    while i < |ids|
      invariant 0 <= i <= |ids|
      invariant MarkedFor(items, out, ids[..i], done, now)
      invariant count == CountToMark(items, ids[..i], done)
    {
      var x := ids[i];
      assert ids[..i + 1] == ids[..i] + [x];
      CountToMarkExtend(items, ids[..i], x, done);
      var found := FindItem(out, x);
      if found.Some? {
        var k := found.value;
        MarkFoundStep(items, out, ids[..i], k, done, now);
        CountIdUnique(items, k, done);
        if out[k].completed != done {
          out := out[k := Mark(out[k], done, now)];
          count := count + 1;
        }
      } else {
        MarkAbsentStep(items, out, ids[..i], x, done, now);
        CountIdAbsent(items, x, done);
      }
      i := i + 1;
    }
    assert ids[..|ids|] == ids;
    MarkedForAll(items, out, ids, done, now);
  }

  lemma MarkedForAll(items: seq<Item>, out: seq<Item>, ids: seq<string>, done: bool, now: Time)
    requires MarkedFor(items, out, ids, done, now)
    ensures out == CompletionResult(items, ids, done, now)
  {
  }

  /** Reference result of `delete`: the items not listed, in their order. */
  function KeepUnlisted(items: seq<Item>, ids: seq<string>): (r: seq<Item>)
    ensures |r| <= |items|
    ensures forall k :: 0 <= k < |r| ==> r[k].id !in ids
  {
    if |items| == 0 then []
    else if items[0].id in ids then KeepUnlisted(items[1..], ids)
    else [items[0]] + KeepUnlisted(items[1..], ids)
  }

  /** Listing one more identifier removes the items carrying it from what is kept. */
  lemma {:induction false} KeepUnlistedExtend(items: seq<Item>, ids: seq<string>, x: string)
    ensures KeepUnlisted(items, ids + [x]) == WithoutId(KeepUnlisted(items, ids), x)
  {
    if |items| > 0 {
      KeepUnlistedExtend(items[1..], ids, x);
      if items[0].id !in ids {
        var rest := KeepUnlisted(items[1..], ids);
        assert ([items[0]] + rest)[1..] == rest;
      }
    }
  }

  /** Removing by identifier keeps identifiers unique. */
  lemma {:induction false} WithoutIdUnique(items: seq<Item>, x: string)
    requires UniqueIds(items)
    ensures UniqueIds(WithoutId(items, x))
    ensures forall k :: 0 <= k < |WithoutId(items, x)| ==> HasId(items, WithoutId(items, x)[k].id)
  {
    if |items| > 0 {
      var tail := items[1..];
      UniqueTail(items);
      WithoutIdUnique(tail, x);
      var rest := WithoutId(tail, x);
      forall k | 0 <= k < |rest|
        ensures HasId(items, rest[k].id)
      {
        var j :| 0 <= j < |tail| && tail[j].id == rest[k].id;
        assert items[j + 1].id == rest[k].id;
      }
      if items[0].id != x {
        var r := [items[0]] + rest;
        forall i, j | 0 <= i < |r| && 0 <= j < |r| && i != j
          ensures r[i].id != r[j].id
        {
          if i > 0 && j > 0 {
            assert r[i] == rest[i - 1] && r[j] == rest[j - 1];
          } else if i == 0 {
            assert r[j] == rest[j - 1];
            assert HasId(tail, rest[j - 1].id);
          } else {
            assert r[i] == rest[i - 1];
            assert HasId(tail, rest[i - 1].id);
          }
        }
        assert r[0].id == items[0].id;
        assert HasId(items, items[0].id);
      }
    }
  }

  /** `delete` over `ids`: each listed item found is pulled out and counted once. */
  method DeleteListed(items: seq<Item>, ids: seq<string>) returns (out: seq<Item>, count: nat)
    requires UniqueIds(items)
    ensures out == KeepUnlisted(items, ids)
    ensures count == |items| - |out|
  {
    out := items;
    count := 0;
    var i := 0;
    ghost var seen: seq<string> := [];
    KeepNothingListed(items);
    while i < |ids|
      invariant 0 <= i <= |ids| && seen == ids[..i]
      invariant out == KeepUnlisted(items, seen)
      invariant count + |out| == |items|
    {
      var x := ids[i];
      DeleteStep(items, seen, out, x);
      var found := FindItem(out, x);
      if found.Some? {
        out, count := WithoutId(out, x), count + 1;
      }
      seen := seen + [x];
      i := i + 1;
    }
    assert ids[..|ids|] == ids;
  }

  /** One identifier of `delete`: the item carrying it, if any, is pulled out. */
  lemma DeleteStep(items: seq<Item>, seen: seq<string>, out: seq<Item>, x: string)
    requires UniqueIds(items) && out == KeepUnlisted(items, seen)
    ensures WithoutId(out, x) == KeepUnlisted(items, seen + [x])
    ensures FindItem(out, x).Some? ==> |WithoutId(out, x)| == |out| - 1
    ensures FindItem(out, x).None? ==> WithoutId(out, x) == out
  {
    KeepUnlistedExtend(items, seen, x);
    KeepUnlistedUnique(items, seen);
    if HasId(out, x) {
      var k :| 0 <= k < |out| && out[k].id == x;
      WithoutPresentId(out, k);
    }
  }

  /** What `delete` keeps of unique items is unique. */
  lemma {:induction false} KeepUnlistedUnique(items: seq<Item>, seen: seq<string>)
    requires UniqueIds(items)
    ensures UniqueIds(KeepUnlisted(items, seen))
  {
    if |seen| == 0 {
      KeepNothingListed(items);
    } else {
      var init, x := seen[..|seen| - 1], seen[|seen| - 1];
      assert seen == init + [x];
      KeepUnlistedUnique(items, init);
      KeepUnlistedExtend(items, init, x);
      WithoutIdUnique(KeepUnlisted(items, init), x);
    }
  }

  lemma {:induction false} KeepNothingListed(items: seq<Item>)
    ensures KeepUnlisted(items, []) == items
  {
    if |items| > 0 {
      KeepNothingListed(items[1..]);
    }
  }

  /** Reference result of `update`: every listed item has the patch assigned. */
  function PatchResult(items: seq<Item>, ids: seq<string>, p: ItemPatch): (r: seq<Item>)
    ensures |r| == |items|
    ensures forall k :: 0 <= k < |items| ==> r[k] == (if items[k].id in ids then ApplyPatch(items[k], p) else items[k])
  {
    seq(|items|, k requires 0 <= k < |items| => if items[k].id in ids then ApplyPatch(items[k], p) else items[k])
  }

  /** The number of entries of `ids` (repeats included) that name an item of the list. */
  function FoundCount(items: seq<Item>, ids: seq<string>): nat {
    if |ids| == 0 then 0
    else FoundCount(items, ids[..|ids| - 1]) + (if HasId(items, ids[|ids| - 1]) then 1 else 0)
  }

  /** Listing an identifier that names item `k` patches that item (again, to no effect, if it was listed before). */
  lemma PatchStepFound(items: seq<Item>, ids: seq<string>, p: ItemPatch, k: nat)
    requires UniqueIds(items) && k < |items|
    ensures PatchResult(items, ids + [items[k].id], p)
         == PatchResult(items, ids, p)[k := ApplyPatch(PatchResult(items, ids, p)[k], p)]
  {
    var x := items[k].id;
    var before := PatchResult(items, ids, p);
    var after := PatchResult(items, ids + [x], p);
    ApplyPatchIdempotent(items[k], p);
    forall j | 0 <= j < |items|
      ensures after[j] == before[k := ApplyPatch(before[k], p)][j]
    {
      if j != k {
        assert items[j].id != x;
      }
    }
  }

  /** Listing an identifier no item carries changes nothing. */
  lemma PatchStepAbsent(items: seq<Item>, ids: seq<string>, p: ItemPatch, x: string)
    requires !HasId(items, x)
    ensures PatchResult(items, ids + [x], p) == PatchResult(items, ids, p)
  {
    var before := PatchResult(items, ids, p);
    var after := PatchResult(items, ids + [x], p);
    forall j | 0 <= j < |items|
      ensures after[j] == before[j]
    {
      assert items[j].id != x;
    }
  }

  /** `update` over `ids`: the patch is assigned to each item found, and every lookup that finds
      an item is counted, so an identifier listed twice is counted twice. */
  method PatchListed(items: seq<Item>, ids: seq<string>, p: ItemPatch) returns (out: seq<Item>, count: nat)
    requires UniqueIds(items)
    ensures out == PatchResult(items, ids, p)
    ensures count == FoundCount(items, ids)
  {
    out := items;
    count := 0;
    var i := 0;
    assert out == PatchResult(items, ids[..0], p);
    while i < |ids|
      invariant 0 <= i <= |ids|
      invariant out == PatchResult(items, ids[..i], p)
      invariant count == FoundCount(items, ids[..i])
    {
      var x := ids[i];
      assert ids[..i + 1] == ids[..i] + [x];
      assert ids[..i + 1][..i] == ids[..i];
      assert SameIds(out, items);
      var found := FindItem(out, x);
      if found.Some? {
        var k := found.value;
        assert items[k].id == x;
        PatchStepFound(items, ids[..i], p, k);
        out := out[k := ApplyPatch(out[k], p)];
        count := count + 1;
      } else {
        PatchStepAbsent(items, ids[..i], p, x);
      }
      i := i + 1;
    }
    assert ids[..|ids|] == ids;
  }

  datatype BulkAction = CompleteAction | UncompleteAction | DeleteAction | UpdateAction

  /** The `switch (action)` cases; anything else is the default branch. */
  function ParseAction(s: string): (r: Option<BulkAction>)
    ensures r == Some(CompleteAction) <==> s == "complete"
    ensures r == Some(UncompleteAction) <==> s == "uncomplete"
    ensures r == Some(DeleteAction) <==> s == "delete"
    ensures r == Some(UpdateAction) <==> s == "update"
  {
    if s == "complete" then Some(CompleteAction)
    else if s == "uncomplete" then Some(UncompleteAction)
    else if s == "delete" then Some(DeleteAction)
    else if s == "update" then Some(UpdateAction)
    else None
  }

  /** The items after the per-item changes of a bulk action, before the single save. */
  function BulkItems(items: seq<Item>, action: BulkAction, ids: seq<string>, p: ItemPatch, now: Time): seq<Item> {
    match action
    case CompleteAction => CompletionResult(items, ids, true, now)
    case UncompleteAction => CompletionResult(items, ids, false, now)
    case DeleteAction => KeepUnlisted(items, ids)
    case UpdateAction => PatchResult(items, ids, p)
  }

  /** The `updatedCount` a bulk action reports. */
  function BulkCount(items: seq<Item>, action: BulkAction, ids: seq<string>): nat {
    match action
    case CompleteAction => CountToMark(items, ids, true)
    case UncompleteAction => CountToMark(items, ids, false)
    case DeleteAction => |items| - |KeepUnlisted(items, ids)|
    case UpdateAction => FoundCount(items, ids)
  }

  datatype BulkReply = BulkDone(list: ShoppingList, updatedCount: nat) | BulkRefused(failure: Failure)

  /** `bulkUpdateItems`: batch-level checks come first and reject without any change; then every
      listed identifier is processed in order, unknown ones skipped, and the list is saved once. */
  method BulkUpdateItems(store: Store, userId: string, listId: string, action: string,
                         itemIds: Option<seq<string>>, updateData: Option<ItemPatch>, now: Time)
    returns (r: BulkReply)
    requires listId in store ==> UniqueIds(store[listId].items)
    ensures !ValidObjectId(listId) ==> r == BulkRefused(InvalidListId)
    ensures ValidObjectId(listId) && (itemIds.None? || |itemIds.value| == 0) ==> r == BulkRefused(ItemIdsRequired)
    ensures ValidObjectId(listId) && itemIds.Some? && |itemIds.value| > 0 && FindList(store, listId, userId).None?
            ==> r == BulkRefused(ListNotFound)
    ensures ValidObjectId(listId) && itemIds.Some? && |itemIds.value| > 0 && FindList(store, listId, userId).Some?
            ==> ((ParseAction(action).None? ==> r == BulkRefused(InvalidAction))
                 && (ParseAction(action) == Some(UpdateAction) && updateData.None? ==> r == BulkRefused(UpdateDataRequired)))
    ensures r.BulkDone? ==>
      && FindList(store, listId, userId).Some? && itemIds.Some? && ParseAction(action).Some?
      && var l := store[listId];
         var a := ParseAction(action).value;
         var p := updateData.GetOr(EmptyPatch);
         && Save(l.(items := BulkItems(l.items, a, itemIds.value, p, now)), now) == Success(r.list)
         && r.updatedCount == BulkCount(l.items, a, itemIds.value)
    ensures r.BulkRefused? && r.failure == ServerError ==>
      var l := store[listId];
      var a := ParseAction(action).value;
      Save(l.(items := BulkItems(l.items, a, itemIds.value, updateData.GetOr(EmptyPatch), now)), now).Failure?
  {
    if !ValidObjectId(listId) {
      return BulkRefused(InvalidListId);
    }
    if itemIds.None? || |itemIds.value| == 0 {
      return BulkRefused(ItemIdsRequired);
    }
    var ids := itemIds.value;
    var found := FindList(store, listId, userId);
    if found.None? {
      return BulkRefused(ListNotFound);
    }
    var l := found.value;
    var parsed := ParseAction(action);
    if parsed.None? {
      return BulkRefused(InvalidAction);
    }
    var a := parsed.value;
    var items: seq<Item>;
    var count: nat;
    match a {
      case CompleteAction =>
        items, count := SetCompletion(l.items, ids, true, now);
      case UncompleteAction =>
        items, count := SetCompletion(l.items, ids, false, now);
      case DeleteAction =>
        items, count := DeleteListed(l.items, ids);
      case UpdateAction =>
        if updateData.None? {
          return BulkRefused(UpdateDataRequired);
        }
        items, count := PatchListed(l.items, ids, updateData.value);
    }
    var saved := Save(l.(items := items), now);
    if saved.Failure? {
      return BulkRefused(ServerError);
    }
    r := BulkDone(saved.value, count);
  }

  // ---------------------------------------------------------------------------
  // Whole-list operations

  /** The fields a list update may carry: the whole request body, so also the items, the
      stored totals and the completion time. `completedAt` is `Some(None)` when the body clears it. */
  datatype ListPatch = ListPatch(
    name: Option<string>,
    description: Option<string>,
    status: Option<Status>,
    budget: Option<real>,
    color: Option<Color>,
    category: Option<ListCategory>,
    dueDate: Option<Time>,
    userId: Option<string>,
    items: Option<seq<Item>>,
    totalEstimatedCost: Option<real>,
    totalActualCost: Option<real>,
    completedAt: Option<Option<Time>>)

  /** The update validators on the fields a patch sets; replaced items meet the item schema. */
  predicate ValidListPatch(p: ListPatch) {
    && (p.name.Some? ==> 0 < |Trim(p.name.value)| <= MaxListNameLength)
    && (p.description.Some? ==> |Trim(p.description.value)| <= MaxDescriptionLength)
    && (p.budget.Some? ==> p.budget.value >= 0.0)
    && (p.items.Some? ==> forall i :: 0 <= i < |p.items.value| ==> ValidItem(p.items.value[i]))
  }

  /** The patch applied as a direct update: the owner is dropped from it, and no save pass runs,
      so items, totals and completion time are stored exactly as the body gives them. */
  function ApplyListPatch(l: ShoppingList, p: ListPatch): (r: ShoppingList)
    ensures r.userId == l.userId && r.id == l.id
    ensures r.name == (if p.name.Some? then Trim(p.name.value) else l.name)
    ensures r.description == (if p.description.Some? then Some(Trim(p.description.value)) else l.description)
    ensures r.status == p.status.GetOr(l.status) && r.color == p.color.GetOr(l.color)
    ensures r.budget == (if p.budget.Some? then p.budget else l.budget)
    ensures r.category == p.category.GetOr(l.category)
    ensures r.dueDate == (if p.dueDate.Some? then p.dueDate else l.dueDate)
    ensures r.items == p.items.GetOr(l.items)
    ensures r.totalEstimatedCost == p.totalEstimatedCost.GetOr(l.totalEstimatedCost)
    ensures r.totalActualCost == p.totalActualCost.GetOr(l.totalActualCost)
    ensures r.completedAt == p.completedAt.GetOr(l.completedAt)
  {
    l.(name := if p.name.Some? then Trim(p.name.value) else l.name,
       description := if p.description.Some? then Some(Trim(p.description.value)) else l.description,
       status := p.status.GetOr(l.status),
       budget := if p.budget.Some? then p.budget else l.budget,
       color := p.color.GetOr(l.color),
       category := p.category.GetOr(l.category),
       dueDate := if p.dueDate.Some? then p.dueDate else l.dueDate,
       items := p.items.GetOr(l.items),
       totalEstimatedCost := p.totalEstimatedCost.GetOr(l.totalEstimatedCost),
       totalActualCost := p.totalActualCost.GetOr(l.totalActualCost),
       completedAt := p.completedAt.GetOr(l.completedAt))
  }

  /** A patch without fields, or with only an owner, leaves the list as it was. */
  lemma OwnerOnlyPatchIsIdentity(l: ShoppingList, owner: Option<string>)
    ensures ApplyListPatch(l, ListPatch(None, None, None, None, None, None, None, owner, None, None, None, None)) == l
  {
  }

  /** Applying the same list patch twice is applying it once. */
  lemma ApplyListPatchIdempotent(l: ShoppingList, p: ListPatch)
    ensures ApplyListPatch(ApplyListPatch(l, p), p) == ApplyListPatch(l, p)
  {
    var a := ApplyListPatch(l, p);
    var b := ApplyListPatch(a, p);
    if p.name.Some? {
      TrimIdempotent(p.name.value);
    }
    assert b.name == a.name;
    if p.description.Some? {
      TrimIdempotent(p.description.value);
    }
    assert b.description == a.description;
  }

  /** Because no save pass runs, a patch that replaces the items alone leaves the stored total
      behind: a consistent list with an empty item sequence, patched with one priced item,
      still stores a zero estimated total. */
  lemma ItemsPatchSkipsTotals(l: ShoppingList, it: Item)
    requires Consistent(l) && l.items == [] && it.estimatedPrice > 0.0 && it.quantity > 0.0
    ensures var r := ApplyListPatch(l, ListPatch(None, None, None, None, None, None, None, None, Some([it]), None, None, None));
      r.totalEstimatedCost == 0.0 && r.totalEstimatedCost != EstimatedTotal(r.items)
  {
    var r := ApplyListPatch(l, ListPatch(None, None, None, None, None, None, None, None, Some([it]), None, None, None));
    assert r.items == [it];
    assert [it][..0] == [];
    assert EstimatedTotal(r.items) == EstimatedCost(it);
  }

  /** `updateShoppingList`: the owner can never be changed through the patch. */
  function UpdateShoppingList(store: Store, userId: string, listId: string, p: ListPatch): (r: Reply)
    ensures !ValidObjectId(listId) ==> r == Refused(InvalidListId)
    ensures ValidObjectId(listId) && !ValidListPatch(p) ==> r == Refused(ValidationFailed)
    ensures ValidObjectId(listId) && ValidListPatch(p) && FindList(store, listId, userId).None? ==> r == Refused(ListNotFound)
    ensures r.Done? ==> (r.code == 200 && FindList(store, listId, userId).Some?
                         && r.list == ApplyListPatch(store[listId], p) && r.list.userId == userId)
  {
    if !ValidObjectId(listId) then Refused(InvalidListId)
    else if !ValidListPatch(p) then Refused(ValidationFailed)
    else match FindList(store, listId, userId)
      case None => Refused(ListNotFound)
      case Some(l) => Done(200, ApplyListPatch(l, p))
  }

  /** `archiveShoppingList`: a direct update of the status, whatever it was. */
  function ArchiveShoppingList(store: Store, userId: string, listId: string): (r: Reply)
    ensures !ValidObjectId(listId) ==> r == Refused(InvalidListId)
    ensures ValidObjectId(listId) && FindList(store, listId, userId).None? ==> r == Refused(ListNotFound)
    ensures ValidObjectId(listId) && FindList(store, listId, userId).Some? ==>
      r.Done? && r.code == 200 && r.list.status == Archived && r.list == store[listId].(status := Archived)
  {
    if !ValidObjectId(listId) then Refused(InvalidListId)
    else match FindList(store, listId, userId)
      case None => Refused(ListNotFound)
      case Some(l) => Done(200, l.(status := Archived))
  }

  /** An archived list stays archived through any later save. */
  lemma ArchivedIsSticky(l: ShoppingList, now: Time)
    requires l.status == Archived
    ensures Recompute(l, now).status == Archived
  {
  }

  /** The item data `duplicateShoppingList` copies: completion reset, no actual price. */
  function CopyInput(it: Item): ItemInput {
    ItemInput(Some(it.name), Some(it.quantity), Some(it.unit), Some(it.estimatedPrice), None,
              Some(it.category), it.notes, Some(false), None, Some(it.priority))
  }

  /** The document `duplicateShoppingList` builds before saving it. */
  function DuplicateInput(orig: ShoppingList): (input: ListInput)
    ensures |input.items| == |orig.items|
  {
    ListInput(
      name := Some(orig.name + " (Copy)"),
      description := orig.description,
      items := seq(|orig.items|, i requires 0 <= i < |orig.items| => CopyInput(orig.items[i])),
      status := None,
      budget := orig.budget,
      color := Some(orig.color),
      category := Some(orig.category),
      dueDate := None)
  }

  /** `duplicateShoppingList`; a save rejected by validation falls into the generic error. */
  function DuplicateShoppingList(store: Store, userId: string, listId: string, newId: string,
                                 freshId: nat -> string, now: Time): (r: Reply)
    ensures !ValidObjectId(listId) ==> r == Refused(InvalidListId)
    ensures ValidObjectId(listId) && FindList(store, listId, userId).None? ==> r == Refused(ListNotFound)
    ensures r.Done? ==> (r.code == 201 && FindList(store, listId, userId).Some?
                         && Save(NewList(newId, userId, DuplicateInput(store[listId]), freshId), now) == Success(r.list))
    ensures r.Refused? ==> r.failure in {InvalidListId, ListNotFound, ServerError}
  {
    if !ValidObjectId(listId) then Refused(InvalidListId)
    else match FindList(store, listId, userId)
      case None => Refused(ListNotFound)
      case Some(l) =>
        match Save(NewList(newId, userId, DuplicateInput(l), freshId), now)
        case Success(saved) => Done(201, saved)
        case Failure(_) => Refused(ServerError)
  }

  /** The suffixed name of a duplicate survives the `trim` setter when the original name was trimmed. */
  lemma DuplicateName(orig: ShoppingList, newId: string, userId: string, freshId: nat -> string)
    requires Trimmed(orig.name) && orig.name != ""
    ensures NewList(newId, userId, DuplicateInput(orig), freshId).name == orig.name + " (Copy)"
  {
    var full := orig.name + " (Copy)";
    assert full[|full| - 1] == ')';
    assert full[0] == orig.name[0];
    TrimOfTrimmed(full);
    assert DuplicateInput(orig).name == Some(full);
  }

  /** The items of a duplicate before saving: copied descriptions and notes, completion and actual price reset. */
  lemma DuplicateItems(orig: ShoppingList, newId: string, userId: string, freshId: nat -> string)
    ensures var b := NewList(newId, userId, DuplicateInput(orig), freshId).items;
      && |b| == |orig.items|
      && forall i :: 0 <= i < |b| ==>
           && b[i].name == Trim(orig.items[i].name)
           && b[i].quantity == orig.items[i].quantity
           && b[i].unit == orig.items[i].unit
           && b[i].estimatedPrice == orig.items[i].estimatedPrice
           && b[i].category == orig.items[i].category
           && b[i].priority == orig.items[i].priority
           && b[i].notes == (if orig.items[i].notes.Some? then Some(Trim(orig.items[i].notes.value)) else None)
           && !b[i].completed && b[i].actualPrice.None? && b[i].completedAt.None?
  {
    var input := DuplicateInput(orig);
    var b := NewList(newId, userId, input, freshId).items;
    forall i | 0 <= i < |b|
      ensures b[i] == NewItem(CopyInput(orig.items[i]), freshId(i))
    {
      assert input.items[i] == CopyInput(orig.items[i]);
    }
  }

  /** The save pass of a duplicate: no item is completed, so the status is active, and the
      totals are those of the original's estimates with nothing spent. */
  lemma DuplicateRecomputed(orig: ShoppingList, newId: string, userId: string, freshId: nat -> string, now: Time)
    ensures var d := Recompute(NewList(newId, userId, DuplicateInput(orig), freshId), now);
      && d.status == Active && d.completedAt.None?
      && d.totalEstimatedCost == EstimatedTotal(orig.items)
      && d.totalActualCost == 0.0
  {
    var built := NewList(newId, userId, DuplicateInput(orig), freshId);
    DuplicateItems(orig, newId, userId, freshId);
    assert !AllCompleted(built.items) by {
      if |built.items| > 0 {
        assert !built.items[0].completed;
      }
    }
    assert SameCostsNoActual(orig.items, built.items);
    EstimatedOfCopy(orig.items, built.items);
    ActualOfUnpriced(built.items);
  }

  /** What a saved duplicate looks like: the name suffixed, the items as built (see
      `DuplicateItems`), status active, the same estimated total and nothing spent. */
  lemma DuplicateShape(orig: ShoppingList, newId: string, userId: string, freshId: nat -> string, now: Time)
    requires Trimmed(orig.name) && orig.name != ""
    requires Save(NewList(newId, userId, DuplicateInput(orig), freshId), now).Success?
    ensures var d := Save(NewList(newId, userId, DuplicateInput(orig), freshId), now).value;
      && d.name == orig.name + " (Copy)"
      && d.userId == userId
      && d.items == NewList(newId, userId, DuplicateInput(orig), freshId).items
      && d.status == Active && d.completedAt.None?
      && d.totalEstimatedCost == EstimatedTotal(orig.items)
      && d.totalActualCost == 0.0
  {
    var built := NewList(newId, userId, DuplicateInput(orig), freshId);
    DuplicateName(orig, newId, userId, freshId);
    DuplicateRecomputed(orig, newId, userId, freshId, now);
    assert built.items == Recompute(built, now).items by {
      DuplicateItems(orig, newId, userId, freshId);
      StampConsistent(built.items, now);
    }
  }

  /** Item sequences with equal estimated prices and quantities, the second without actual prices. */
  predicate SameCostsNoActual(a: seq<Item>, b: seq<Item>) {
    |a| == |b| && forall i :: 0 <= i < |a| ==>
      a[i].estimatedPrice == b[i].estimatedPrice && a[i].quantity == b[i].quantity && b[i].actualPrice.None?
  }

  lemma {:induction false} EstimatedOfCopy(a: seq<Item>, b: seq<Item>)
    requires SameCostsNoActual(a, b)
    ensures EstimatedTotal(a) == EstimatedTotal(b)
  {
    if |a| > 0 {
      EstimatedOfCopy(a[..|a| - 1], b[..|b| - 1]);
    }
  }

  lemma {:induction false} ActualOfUnpriced(items: seq<Item>)
    requires forall i :: 0 <= i < |items| ==> items[i].actualPrice.None?
    ensures ActualTotal(items) == 0.0
  {
    if |items| > 0 {
      ActualOfUnpriced(items[..|items| - 1]);
    }
  }

  // ---------------------------------------------------------------------------
  // Export file name

  predicate IsAsciiAlnum(c: char) {
    ('a' <= c <= 'z') || ('A' <= c <= 'Z') || ('0' <= c <= '9')
  }

  /** `name.replace(/[^a-z0-9]/gi, '_').toLowerCase()`. */
  function SanitizeName(name: string): (r: string)
    ensures |r| == |name|
    ensures forall i :: 0 <= i < |r| ==> (r[i] == '_' <==> !IsAsciiAlnum(name[i]))
    ensures forall i :: 0 <= i < |r| ==> IsAsciiAlnum(name[i]) ==> r[i] == LowerChar(name[i])
    ensures forall i :: 0 <= i < |r| ==> ('a' <= r[i] <= 'z') || ('0' <= r[i] <= '9') || r[i] == '_'
  {
    var replaced := seq(|name|, i requires 0 <= i < |name| => if IsAsciiAlnum(name[i]) then name[i] else '_');
    Lower(replaced)
  }

  /** Sanitising a sanitised name changes nothing. */
  lemma SanitizeIdempotent(name: string)
    ensures SanitizeName(SanitizeName(name)) == SanitizeName(name)
  {
    var s := SanitizeName(name);
    var t := SanitizeName(s);
    forall i | 0 <= i < |s|
      ensures t[i] == s[i]
    {
      if IsAsciiAlnum(s[i]) {
        assert t[i] == LowerChar(s[i]);
      }
    }
  }

  /** The `Content-Disposition` file name of an export. */
  function ExportFileName(name: string, format: string): (r: string)
    ensures format == "csv" ==> r == SanitizeName(name) + ".csv"
    ensures format != "csv" ==> r == SanitizeName(name) + ".txt"
  {
    SanitizeName(name) + (if format == "csv" then ".csv" else ".txt")
  }
}

=== FILE: shopping_model.dfy ===
/**
 * The shopping-list aggregate: a list owning an ordered sequence of items, its
 * schema constraints, its computed read-only fields, the two recomputation passes
 * run on every save, and the item-level instance operations.
 */
module ShoppingModel {
  import opened Wrappers
  import opened JsText
  import opened JsMath

  /** Instants are milliseconds since the epoch. */
  type Time = int

  datatype Unit = Piece | Kg | Gram | Liter | Ml | Pack | Box | Bottle | OtherUnit
  datatype ItemCategory =
    Grocery | Dairy | Meat | Vegetables | Fruits | Beverages | Snacks | Household | PersonalCare | OtherItem
  datatype Priority = Low | Medium | High
  datatype Status = Active | Completed | Archived
  datatype Color = Blue | Green | Red | Purple | Orange | Pink | Gray
  datatype ListCategory = Weekly | Monthly | Special | Party | Travel | OtherList
  datatype BudgetStatus = WithinBudget | ApproachingLimit | OverBudget

  /** One line of a shopping list; `id` is its sub-document identifier. */
  datatype Item = Item(
    id: string,
    name: string,
    quantity: real,
    unit: Unit,
    estimatedPrice: real,
    actualPrice: Option<real>,
    category: ItemCategory,
    notes: Option<string>,
    completed: bool,
    completedAt: Option<Time>,
    priority: Priority)

  /** The aggregate root. The two totals are derived and stored by the save pass. */
  datatype ShoppingList = ShoppingList(
    id: string,
    userId: string,
    name: string,
    description: Option<string>,
    items: seq<Item>,
    status: Status,
    budget: Option<real>,
    totalEstimatedCost: real,
    totalActualCost: real,
    color: Color,
    category: ListCategory,
    dueDate: Option<Time>,
    completedAt: Option<Time>)

  /** The fields a caller supplies for a new item; absent fields take the schema defaults.
      A completion time in the body is kept as given. */
  datatype ItemInput = ItemInput(
    name: Option<string>,
    quantity: Option<real>,
    unit: Option<Unit>,
    estimatedPrice: Option<real>,
    actualPrice: Option<real>,
    category: Option<ItemCategory>,
    notes: Option<string>,
    completed: Option<bool>,
    completedAt: Option<Time>,
    priority: Option<Priority>)

  /** A partial update of an item: present fields overwrite, absent ones are kept.
      `completedAt` is `Some(None)` when the body sets it to null. */
  datatype ItemPatch = ItemPatch(
    name: Option<string>,
    quantity: Option<real>,
    unit: Option<Unit>,
    estimatedPrice: Option<real>,
    actualPrice: Option<real>,
    category: Option<ItemCategory>,
    notes: Option<string>,
    completed: Option<bool>,
    completedAt: Option<Option<Time>>,
    priority: Option<Priority>)

  /** Why a save or an item operation is rejected. */
  datatype ModelError = ValidationError | NoSuchItem

  // ---------------------------------------------------------------------------
  // Schema constraints and defaults

  const MaxItemNameLength := 100
  const MaxNotesLength := 200
  const MaxListNameLength := 100
  const MaxDescriptionLength := 500
  const MinQuantity: real := 0.1
  const MaxQuantity: real := 999.0

  /** The item schema's validators: required name of at most 100 characters, quantity in
      [0.1, 999], non-negative prices, notes of at most 200 characters. */
  predicate ValidItem(it: Item) {
    && 0 < |it.name| <= MaxItemNameLength
    && MinQuantity <= it.quantity <= MaxQuantity
    && it.estimatedPrice >= 0.0
    && (it.actualPrice.Some? ==> it.actualPrice.value >= 0.0)
    && (it.notes.Some? ==> |it.notes.value| <= MaxNotesLength)
  }

  /** The list schema's validators on the top-level fields. */
  predicate ValidListFields(l: ShoppingList) {
    && 0 < |l.name| <= MaxListNameLength
    && (l.description.Some? ==> |l.description.value| <= MaxDescriptionLength)
    && (l.budget.Some? ==> l.budget.value >= 0.0)
    && l.userId != ""
  }

  predicate ValidList(l: ShoppingList) {
    ValidListFields(l) && forall i :: 0 <= i < |l.items| ==> ValidItem(l.items[i])
  }

  /** Sub-document identifiers are generated, so no two items of a list share one. */
  predicate UniqueIds(items: seq<Item>) {
    forall i, j :: 0 <= i < |items| && 0 <= j < |items| && i != j ==> items[i].id != items[j].id
  }

  predicate HasId(items: seq<Item>, id: string) {
    exists k :: 0 <= k < |items| && items[k].id == id
  }

  /** Casting a new item: schema defaults for absent fields, the `trim` setter on text. */
  function NewItem(input: ItemInput, id: string): (it: Item)
    ensures it.id == id && it.name == Trim(input.name.GetOr(""))
    ensures input.quantity.None? ==> it.quantity == 1.0
    ensures input.unit.None? ==> it.unit == Piece
    ensures input.estimatedPrice.None? ==> it.estimatedPrice == 0.0
    ensures input.category.None? ==> it.category == OtherItem
    ensures input.completed.None? ==> !it.completed
    ensures input.priority.None? ==> it.priority == Medium
    ensures it.actualPrice == input.actualPrice && it.completedAt == input.completedAt
  {
    Item(
      id := id,
      name := Trim(input.name.GetOr("")),
      quantity := input.quantity.GetOr(1.0),
      unit := input.unit.GetOr(Piece),
      estimatedPrice := input.estimatedPrice.GetOr(0.0),
      actualPrice := input.actualPrice,
      category := input.category.GetOr(OtherItem),
      notes := if input.notes.Some? then Some(Trim(input.notes.value)) else None,
      completed := input.completed.GetOr(false),
      completedAt := input.completedAt,
      priority := input.priority.GetOr(Medium))
  }

  // ---------------------------------------------------------------------------
  // Computed read-only fields

  function CompletedItems(items: seq<Item>): (n: nat)
    ensures n <= |items|
  {
    if |items| == 0 then 0
    else CompletedItems(items[..|items| - 1]) + (if items[|items| - 1].completed then 1 else 0)
  }

  function PendingItems(items: seq<Item>): (n: nat)
    ensures n <= |items|
  {
    if |items| == 0 then 0
    else PendingItems(items[..|items| - 1]) + (if items[|items| - 1].completed then 0 else 1)
  }

  function TotalItems(l: ShoppingList): nat {
    |l.items|
  }

  predicate AllDone(items: seq<Item>) {
    forall i :: 0 <= i < |items| ==> items[i].completed
  }

  /** Every item is either completed or pending. */
  lemma {:induction false} CompletedPlusPending(items: seq<Item>)
    ensures CompletedItems(items) + PendingItems(items) == |items|
  {
    if |items| > 0 {
      CompletedPlusPending(items[..|items| - 1]);
    }
  }

  /** The completed count reaches the item count exactly when every item is completed. */
  lemma {:induction false} CompletedCountFull(items: seq<Item>)
    ensures CompletedItems(items) == |items| <==> AllDone(items)
  {
    if |items| > 0 {
      var init := items[..|items| - 1];
      CompletedCountFull(init);
      assert forall i :: 0 <= i < |init| ==> init[i] == items[i];
    }
  }

  /** No item is completed exactly when the completed count is zero. */
  lemma {:induction false} CompletedCountZero(items: seq<Item>)
    ensures CompletedItems(items) == 0 <==> forall i :: 0 <= i < |items| ==> !items[i].completed
  {
    if |items| > 0 {
      var init := items[..|items| - 1];
      CompletedCountZero(init);
      assert forall i :: 0 <= i < |init| ==> init[i] == items[i];
    }
  }

  /** `completionPercentage`: 0 for an empty list, otherwise the rounded share of completed items. */
  function CompletionPercentage(l: ShoppingList): (r: int)
    ensures 0 <= r <= 100
    ensures |l.items| == 0 ==> r == 0
    ensures |l.items| > 0 && AllDone(l.items) ==> r == 100
    ensures (forall i :: 0 <= i < |l.items| ==> !l.items[i].completed) ==> r == 0
    ensures |l.items| > 0 ==> var n, c := |l.items|, CompletedItems(l.items);
      (2 * r - 1) * n <= 200 * c < (2 * r + 1) * n
  {
    CompletedCountFull(l.items);
    CompletedCountZero(l.items);
    Percent(CompletedItems(l.items), |l.items|)
  }

  /** `isOverdue`: a due date in the past, unless the list is completed. */
  function IsOverdue(l: ShoppingList, now: Time): (r: bool)
    ensures r <==> l.dueDate.Some? && l.status != Completed && now > l.dueDate.value
  {
    if l.dueDate.None? || l.status == Completed then false else now > l.dueDate.value
  }

  /** `totalActualCost || totalEstimatedCost`: the estimate stands in whenever the actual total is 0. */
  function SpentAmount(l: ShoppingList): (r: real)
    ensures l.totalActualCost != 0.0 ==> r == l.totalActualCost
    ensures l.totalActualCost == 0.0 ==> r == l.totalEstimatedCost
  {
    if l.totalActualCost != 0.0 then l.totalActualCost else l.totalEstimatedCost
  }

  /** `budgetStatus`: none without a (non-zero) budget, else the band the spent share falls in. */
  function BudgetStatusOf(l: ShoppingList): (r: Option<BudgetStatus>)
    ensures r.None? <==> l.budget.None? || l.budget.value == 0.0
    ensures l.budget.Some? && l.budget.value > 0.0 ==>
      var b := l.budget.value;
      && (r == Some(WithinBudget) <==> SpentAmount(l) * 100.0 <= 80.0 * b)
      && (r == Some(ApproachingLimit) <==> 80.0 * b < SpentAmount(l) * 100.0 <= 100.0 * b)
      && (r == Some(OverBudget) <==> 100.0 * b < SpentAmount(l) * 100.0)
  {
    if l.budget.None? || l.budget.value == 0.0 then None
    else
      var b := l.budget.value;
      var pct := SpentAmount(l) / b * 100.0;
      assert b > 0.0 ==> (pct <= 80.0 <==> SpentAmount(l) * 100.0 <= 80.0 * b) by {
        if b > 0.0 {
          ScaledBound(SpentAmount(l), b, 80.0);
        }
      }
      assert b > 0.0 ==> (pct <= 100.0 <==> SpentAmount(l) * 100.0 <= 100.0 * b) by {
        if b > 0.0 {
          ScaledBound(SpentAmount(l), b, 100.0);
        }
      }
      if pct <= 80.0 then Some(WithinBudget)
      else if pct <= 100.0 then Some(ApproachingLimit)
      else Some(OverBudget)
  }

  /** `spent / b * 100 <= bound` compares the spent amount with `bound` percent of a positive budget. */
  lemma ScaledBound(spent: real, b: real, bound: real)
    requires b > 0.0
    ensures spent / b * 100.0 <= bound <==> spent * 100.0 <= bound * b
  {
    var pct := spent / b * 100.0;
    assert pct * b == spent * 100.0;
    if pct <= bound {
      assert pct * b <= bound * b;
    } else {
      assert pct * b > bound * b;
    }
  }

  // ---------------------------------------------------------------------------
  // The save pass

  /** Sum of `estimatedPrice * quantity`, accumulated from the first item as `reduce` does. */
  function EstimatedTotal(items: seq<Item>): real {
    if |items| == 0 then 0.0
    else EstimatedTotal(items[..|items| - 1]) + EstimatedCost(items[|items| - 1])
  }

  /** One item's share of the estimated total. */
  function EstimatedCost(it: Item): real {
    it.estimatedPrice * it.quantity
  }

  /** Sum of `actualPrice * quantity` over the items that have an actual price. */
  function ActualTotal(items: seq<Item>): real {
    if |items| == 0 then 0.0
    else
      var last := items[|items| - 1];
      ActualTotal(items[..|items| - 1])
        + (if last.actualPrice.Some? then last.actualPrice.value * last.quantity else 0.0)
  }

  /** The estimated total of a concatenation is the sum of the parts' totals. */
  lemma {:induction false} EstimatedTotalAppend(a: seq<Item>, b: seq<Item>)
    ensures EstimatedTotal(a + b) == EstimatedTotal(a) + EstimatedTotal(b)
    decreases |b|
  {
    if |b| > 0 {
      assert (a + b)[..|a + b| - 1] == a + b[..|b| - 1];
      EstimatedTotalAppend(a, b[..|b| - 1]);
    } else {
      assert a + b == a;
    }
  }

  /** The actual total of a concatenation is the sum of the parts' totals. */
  lemma {:induction false} ActualTotalAppend(a: seq<Item>, b: seq<Item>)
    ensures ActualTotal(a + b) == ActualTotal(a) + ActualTotal(b)
    decreases |b|
  {
    if |b| > 0 {
      assert (a + b)[..|a + b| - 1] == a + b[..|b| - 1];
      ActualTotalAppend(a, b[..|b| - 1]);
    } else {
      assert a + b == a;
    }
  }

  /** Items agreeing on prices and quantities have the same totals. */
  predicate SameCosts(a: seq<Item>, b: seq<Item>) {
    |a| == |b| && forall i :: 0 <= i < |a| ==>
      a[i].estimatedPrice == b[i].estimatedPrice && a[i].actualPrice == b[i].actualPrice
      && a[i].quantity == b[i].quantity
  }

  lemma {:induction false} TotalsOfSameCosts(a: seq<Item>, b: seq<Item>)
    requires SameCosts(a, b)
    ensures EstimatedTotal(a) == EstimatedTotal(b) && ActualTotal(a) == ActualTotal(b)
  {
    if |a| > 0 {
      TotalsOfSameCosts(a[..|a| - 1], b[..|b| - 1]);
    }
  }

  /** Non-negative prices and quantities give non-negative totals. */
  lemma {:induction false} TotalsNonNegative(items: seq<Item>)
    requires forall i :: 0 <= i < |items| ==> ValidItem(items[i])
    ensures EstimatedTotal(items) >= 0.0 && ActualTotal(items) >= 0.0
  {
    if |items| > 0 {
      TotalsNonNegative(items[..|items| - 1]);
    }
  }

  /** `items.length > 0 && items.every(item => item.completed)`. */
  predicate AllCompleted(items: seq<Item>) {
    |items| > 0 && AllDone(items)
  }

  /** The first pre-save hook: store both totals and move the status between active and completed. */
  function TotalsAndStatus(l: ShoppingList, now: Time): (r: ShoppingList)
    ensures r.items == l.items
    ensures r.totalEstimatedCost == EstimatedTotal(l.items) && r.totalActualCost == ActualTotal(l.items)
    ensures l.status == Active && AllCompleted(l.items) ==> r.status == Completed && r.completedAt == Some(now)
    ensures l.status == Completed && !AllCompleted(l.items) ==> r.status == Active && r.completedAt.None?
    ensures l.status == Archived ==> r.status == Archived && r.completedAt == l.completedAt
    ensures l.status != Archived ==> (r.status == Completed <==> AllCompleted(l.items))
    ensures r == l.(totalEstimatedCost := r.totalEstimatedCost, totalActualCost := r.totalActualCost,
                    status := r.status, completedAt := r.completedAt)
  {
    var withTotals := l.(totalEstimatedCost := EstimatedTotal(l.items), totalActualCost := ActualTotal(l.items));
    var all := AllCompleted(l.items);
    if all && l.status == Active then withTotals.(status := Completed, completedAt := Some(now))
    else if !all && l.status == Completed then withTotals.(status := Active, completedAt := None)
    else
      assert l.status == Archived || (l.status == Completed <==> all);
      withTotals
  }

  /** The per-item rule of the second pre-save hook. */
  function StampItem(it: Item, now: Time): (r: Item)
    ensures r.completed == it.completed
    ensures r.completed ==> r.completedAt.Some? && (it.completedAt.Some? ==> r.completedAt == it.completedAt)
    ensures r.completed && it.completedAt.None? ==> r.completedAt == Some(now)
    ensures !r.completed ==> r.completedAt.None?
    ensures r == it.(completedAt := r.completedAt)
  {
    if it.completed && it.completedAt.None? then it.(completedAt := Some(now))
    else if !it.completed then it.(completedAt := None)
    else it
  }

  /** `completedAt` is set on exactly the completed items. */
  predicate ItemsConsistent(items: seq<Item>) {
    forall i :: 0 <= i < |items| ==> (items[i].completed <==> items[i].completedAt.Some?)
  }

  /** The second pre-save hook, applied to every item. */
  function StampItems(items: seq<Item>, now: Time): (r: seq<Item>)
    ensures |r| == |items| && ItemsConsistent(r)
    ensures forall i :: 0 <= i < |items| ==> r[i] == StampItem(items[i], now)
  {
    seq(|items|, i requires 0 <= i < |items| => StampItem(items[i], now))
  }

  /** Stamping leaves an already consistent sequence of items as it is. */
  lemma StampConsistent(items: seq<Item>, now: Time)
    requires ItemsConsistent(items)
    ensures StampItems(items, now) == items
  {
  }

  /** A saved list satisfies the aggregate's invariants. */
  predicate Consistent(l: ShoppingList) {
    && l.totalEstimatedCost == EstimatedTotal(l.items)
    && l.totalActualCost == ActualTotal(l.items)
    && ItemsConsistent(l.items)
    && (l.status != Archived ==> (l.status == Completed <==> AllCompleted(l.items)))
  }

  /** Both pre-save hooks, in registration order. */
  function Recompute(l: ShoppingList, now: Time): (r: ShoppingList)
    ensures r.totalEstimatedCost == EstimatedTotal(l.items)
    ensures r.totalActualCost == ActualTotal(l.items)
    ensures Consistent(r)
    ensures l.status == Archived ==> r.status == Archived && r.completedAt == l.completedAt
    ensures l.status == Active && AllCompleted(l.items) ==> r.completedAt == Some(now)
    ensures l.status == Completed && !AllCompleted(l.items) ==> r.status == Active && r.completedAt.None?
    ensures (l.status == Active && !AllCompleted(l.items)) || (l.status == Completed && AllCompleted(l.items))
            ==> r.status == l.status && r.completedAt == l.completedAt
    ensures |r.items| == |l.items|
    ensures forall i :: 0 <= i < |l.items| ==> r.items[i] == StampItem(l.items[i], now)
    ensures r == l.(items := r.items, totalEstimatedCost := r.totalEstimatedCost, totalActualCost := r.totalActualCost,
                    status := r.status, completedAt := r.completedAt)
  {
    var s := TotalsAndStatus(l, now);
    var r := s.(items := StampItems(s.items, now));
    assert AllCompleted(r.items) == AllCompleted(l.items);
    assert SameCosts(l.items, r.items);
    TotalsOfSameCosts(l.items, r.items);
    r
  }

  /** Saving establishes the invariants, and saving again changes nothing. */
  lemma RecomputeIdempotent(l: ShoppingList, t1: Time, t2: Time)
    ensures Consistent(Recompute(l, t1))
    ensures Recompute(Recompute(l, t1), t2) == Recompute(l, t1)
  {
    var r := Recompute(l, t1);
    StampConsistent(r.items, t2);
  }

  /** The hooks never touch what validation looks at, so validating first or last agrees. */
  lemma RecomputeKeepsValidity(l: ShoppingList, now: Time)
    ensures ValidList(Recompute(l, now)) <==> ValidList(l)
  {
    var r := Recompute(l, now);
    assert forall i :: 0 <= i < |l.items| ==> (ValidItem(r.items[i]) <==> ValidItem(l.items[i]));
  }

  /** `save()`: schema validation first, then the two hooks. */
  function Save(l: ShoppingList, now: Time): (r: Result<ShoppingList, ModelError>)
    ensures r.Success? <==> ValidList(l)
    ensures r.Success? ==> r.value == Recompute(l, now) && Consistent(r.value)
    ensures r.Failure? ==> r.error == ValidationError
  {
    if ValidList(l) then Success(Recompute(l, now)) else Failure(ValidationError)
  }

  // ---------------------------------------------------------------------------
  // Item-level instance operations

  /** `items.id(id)`: the index of the first item with that identifier. */
  function FindItem(items: seq<Item>, id: string): (r: Option<nat>)
    ensures r.Some? ==> r.value < |items| && items[r.value].id == id
    ensures r.Some? ==> forall j :: 0 <= j < r.value ==> items[j].id != id
    ensures r.None? <==> !HasId(items, id)
  {
    if |items| == 0 then None
    else if items[0].id == id then Some(0)
    else
      var rest := FindItem(items[1..], id);
      assert HasId(items[1..], id) ==> HasId(items, id) by {
        if HasId(items[1..], id) {
          var k :| 0 <= k < |items[1..]| && items[1..][k].id == id;
          assert items[k + 1].id == id;
        }
      }
      assert HasId(items, id) ==> HasId(items[1..], id) by {
        if HasId(items, id) {
          var k :| 0 <= k < |items| && items[k].id == id;
          assert k > 0 && items[1..][k - 1].id == id;
        }
      }
      if rest.None? then None else Some(rest.value + 1)
  }

  /** With unique identifiers the first match is the only one. */
  lemma FindUnique(items: seq<Item>, id: string, k: nat)
    requires UniqueIds(items) && k < |items| && items[k].id == id
    ensures FindItem(items, id) == Some(k)
  {
  }

  lemma AppendFacts(l: ShoppingList, it: Item)
    ensures ValidList(l.(items := l.items + [it])) <==> ValidList(l) && ValidItem(it)
    ensures EstimatedTotal(l.items + [it]) == EstimatedTotal(l.items) + EstimatedCost(it)
    ensures AllCompleted(l.items + [it]) ==> it.completed
    ensures (l.items + [it])[..|l.items|] == l.items
  {
    var items := l.items + [it];
    assert items[|l.items|] == it;
    assert forall i :: 0 <= i < |l.items| ==> items[i] == l.items[i];
    assert items[..|items| - 1] == l.items;
  }

  /** `addItem`: append the cast item at the end, then save. */
  function AddItem(l: ShoppingList, input: ItemInput, freshId: string, now: Time): (r: Result<ShoppingList, ModelError>)
    ensures var it := NewItem(input, freshId);
      && (r.Success? <==> ValidList(l) && ValidItem(it))
      && (r.Success? ==> r.value == Recompute(l.(items := l.items + [it]), now))
  {
    var it := NewItem(input, freshId);
    AppendFacts(l, it);
    Save(l.(items := l.items + [it]), now)
  }

  /** After `addItem` the new item is last, the earlier items keep their order, the estimated
      total grows by the new line's cost, and a pending new item makes the list active. */
  lemma AddItemEffect(l: ShoppingList, input: ItemInput, freshId: string, now: Time)
    requires AddItem(l, input, freshId, now).Success?
    ensures var r := AddItem(l, input, freshId, now).value;
      var it := NewItem(input, freshId);
      && |r.items| == |l.items| + 1
      && r.items[|l.items|] == StampItem(it, now)
      && (forall i :: 0 <= i < |l.items| ==> r.items[i] == StampItem(l.items[i], now))
      && (ItemsConsistent(l.items) ==> r.items[..|l.items|] == l.items)
      && r.totalEstimatedCost == EstimatedTotal(l.items) + EstimatedCost(it)
      && (!it.completed && l.status != Archived ==> r.status == Active)
  {
    var it := NewItem(input, freshId);
    AppendFacts(l, it);
    var l' := l.(items := l.items + [it]);
    var r := Recompute(l', now);
    assert r == AddItem(l, input, freshId, now).value;
    assert r.items[|l.items|] == StampItem(it, now) by {
      assert l'.items[|l.items|] == it;
    }
    assert forall i :: 0 <= i < |l.items| ==> r.items[i] == StampItem(l.items[i], now) by {
      assert forall i :: 0 <= i < |l.items| ==> l'.items[i] == l.items[i];
    }
    if ItemsConsistent(l.items) {
      assert r.items[..|l.items|] == l.items;
    }
    if !it.completed && l.status != Archived {
      PendingKeepsActive(l', now);
    }
  }

  /** Identifiers stay distinct through `addItem` as long as the new item's identifier is not
      already taken; nothing in `addItem` itself checks that. */
  lemma AddItemKeepsUniqueIds(l: ShoppingList, input: ItemInput, freshId: string, now: Time)
    requires UniqueIds(l.items) && !HasId(l.items, freshId)
    requires AddItem(l, input, freshId, now).Success?
    ensures UniqueIds(AddItem(l, input, freshId, now).value.items)
  {
    var it := NewItem(input, freshId);
    AppendFacts(l, it);
    var items := l.items + [it];
    var r := AddItem(l, input, freshId, now).value;
    assert r.items == StampItems(items, now);
    forall i, j | 0 <= i < |r.items| && 0 <= j < |r.items| && i != j
      ensures r.items[i].id != r.items[j].id
    {
      assert r.items[i].id == items[i].id && r.items[j].id == items[j].id;
      if i == |l.items| {
        assert items[j] == l.items[j];
      } else if j == |l.items| {
        assert items[i] == l.items[i];
      } else {
        assert items[i] == l.items[i] && items[j] == l.items[j];
      }
    }
  }

  /** An identifier that is already taken gives two items that share it. */
  lemma AddItemTakenIdDuplicates(l: ShoppingList, input: ItemInput, k: nat, now: Time)
    requires k < |l.items| && AddItem(l, input, l.items[k].id, now).Success?
    ensures !UniqueIds(AddItem(l, input, l.items[k].id, now).value.items)
  {
    var it := NewItem(input, l.items[k].id);
    AppendFacts(l, it);
    var items := l.items + [it];
    var r := AddItem(l, input, l.items[k].id, now).value;
    assert r.items == StampItems(items, now);
    assert r.items[k].id == items[k].id == l.items[k].id;
    assert r.items[|l.items|].id == it.id;
  }

  /** A list outside the archive with a pending item is active after a save. */
  lemma PendingKeepsActive(l: ShoppingList, now: Time)
    requires l.status != Archived && !AllCompleted(l.items)
    ensures Recompute(l, now).status == Active
  {
  }

  /** The items whose identifier differs from `id`, in their order (`pull` by identifier). */
  function WithoutId(items: seq<Item>, id: string): (r: seq<Item>)
    ensures |r| <= |items|
    ensures forall k :: 0 <= k < |r| ==> r[k].id != id
    ensures !HasId(items, id) ==> r == items
  {
    if |items| == 0 then []
    else
      var rest := WithoutId(items[1..], id);
      assert !HasId(items, id) ==> !HasId(items[1..], id) by {
        if HasId(items[1..], id) {
          var k :| 0 <= k < |items[1..]| && items[1..][k].id == id;
          assert items[k + 1].id == id;
        }
      }
      if items[0].id == id then rest else [items[0]] + rest
  }

  lemma UniqueTail(items: seq<Item>)
    requires UniqueIds(items) && |items| > 0
    ensures UniqueIds(items[1..])
    ensures !HasId(items[1..], items[0].id)
  {
    var tail := items[1..];
    forall i, j | 0 <= i < |tail| && 0 <= j < |tail| && i != j
      ensures tail[i].id != tail[j].id
    {
      assert tail[i] == items[i + 1] && tail[j] == items[j + 1];
    }
  }

  /** Removing a present identifier from unique items drops exactly that item and keeps the rest in order. */
  lemma {:induction false} WithoutPresentId(items: seq<Item>, k: nat)
    requires UniqueIds(items) && k < |items|
    ensures WithoutId(items, items[k].id) == items[..k] + items[k + 1..]
  {
    var id := items[k].id;
    var tail := items[1..];
    UniqueTail(items);
    if k == 0 {
      assert WithoutId(items, id) == WithoutId(tail, id);
      assert items[..0] + items[1..] == tail;
    } else {
      assert tail[k - 1] == items[k];
      WithoutPresentId(tail, k - 1);
      assert items[0].id != items[k].id;
      assert WithoutId(items, id) == [items[0]] + WithoutId(tail, id);
      SpliceAfterHead(items, k);
    }
  }

  /** Cutting position `k` out of a sequence's tail, then putting the head back, cuts `k` out of the sequence. */
  lemma SpliceAfterHead<T>(s: seq<T>, k: nat)
    requires 0 < k < |s|
    ensures [s[0]] + (s[1..][..k - 1] + s[1..][k..]) == s[..k] + s[k + 1..]
  {
    assert s[1..][..k - 1] == s[1..k];
    assert s[1..][k..] == s[k + 1..];
    assert [s[0]] + s[1..k] == s[..k];
  }

  /** `removeItem`: pull the item out and save; an absent identifier makes the operation throw. */
  function RemoveItem(l: ShoppingList, itemId: string, now: Time): (r: Result<ShoppingList, ModelError>)
    ensures !HasId(l.items, itemId) ==> r == Failure(NoSuchItem)
    ensures HasId(l.items, itemId) ==> r == Save(l.(items := WithoutId(l.items, itemId)), now)
    ensures r.Success? ==> forall k :: 0 <= k < |r.value.items| ==> r.value.items[k].id != itemId
    ensures r.Success? && UniqueIds(l.items) ==> |r.value.items| == |l.items| - 1
  {
    var found := FindItem(l.items, itemId);
    if found.None? then Failure(NoSuchItem)
    else
      assert UniqueIds(l.items) ==> |WithoutId(l.items, itemId)| == |l.items| - 1 by {
        if UniqueIds(l.items) {
          WithoutPresentId(l.items, found.value);
        }
      }
      Save(l.(items := WithoutId(l.items, itemId)), now)
  }

  /** Flip one item: completion gets a fresh timestamp, un-completion clears it. */
  function Toggled(it: Item, now: Time): (r: Item)
    ensures r.completed == !it.completed
    ensures r.completed ==> r.completedAt == Some(now)
    ensures !r.completed ==> r.completedAt.None?
    ensures r == it.(completed := r.completed, completedAt := r.completedAt)
  {
    var done := !it.completed;
    it.(completed := done, completedAt := if done then Some(now) else None)
  }

  /** Toggling twice restores `completed`; a re-completed item carries the second timestamp. */
  lemma ToggleTwice(it: Item, t1: Time, t2: Time)
    ensures Toggled(Toggled(it, t1), t2).completed == it.completed
    ensures Toggled(Toggled(it, t1), t2).completedAt == (if it.completed then Some(t2) else None)
    ensures Toggled(Toggled(it, t1), t2) == it.(completedAt := Toggled(Toggled(it, t1), t2).completedAt)
  {
  }

  /** `toggleItem`: flip the first item with that identifier (if any), then save. */
  function ToggleItem(l: ShoppingList, itemId: string, now: Time): (r: Result<ShoppingList, ModelError>)
    ensures r.Success? <==> ValidList(l)
    ensures r.Success? ==> |r.value.items| == |l.items|
    ensures r.Success? ==> forall k :: 0 <= k < |l.items| ==>
      r.value.items[k] == StampItem(if FindItem(l.items, itemId) == Some(k) then Toggled(l.items[k], now) else l.items[k], now)
    ensures r.Success? && !HasId(l.items, itemId) ==> r.value.items == StampItems(l.items, now)
  {
    var found := FindItem(l.items, itemId);
    if found.None? then Save(l, now)
    else
      var k := found.value;
      var l' := l.(items := l.items[k := Toggled(l.items[k], now)]);
      assert ValidList(l') <==> ValidList(l) by {
        assert ValidItem(l'.items[k]) <==> ValidItem(l.items[k]);
        assert forall i :: 0 <= i < |l.items| && i != k ==> l'.items[i] == l.items[i];
      }
      Save(l', now)
  }

  /** The patch that assigns nothing. */
  const EmptyPatch := ItemPatch(None, None, None, None, None, None, None, None, None, None)

  /** `Object.assign(item, patch)`, with the `trim` setter on the text fields. */
  function ApplyPatch(it: Item, p: ItemPatch): (r: Item)
    ensures r.id == it.id
    ensures p.completedAt.Some? ==> r.completedAt == p.completedAt.value
    ensures p.completedAt.None? ==> r.completedAt == it.completedAt
    ensures p == EmptyPatch ==> r == it
    ensures p.completed.Some? ==> r.completed == p.completed.value
    ensures p.completed.None? ==> r.completed == it.completed
    ensures p.name.Some? ==> r.name == Trim(p.name.value)
    ensures p.name.None? ==> r.name == it.name
    ensures p.quantity.Some? ==> r.quantity == p.quantity.value
    ensures p.quantity.None? ==> r.quantity == it.quantity
    ensures p.unit.Some? ==> r.unit == p.unit.value
    ensures p.unit.None? ==> r.unit == it.unit
    ensures p.estimatedPrice.Some? ==> r.estimatedPrice == p.estimatedPrice.value
    ensures p.estimatedPrice.None? ==> r.estimatedPrice == it.estimatedPrice
    ensures p.actualPrice.Some? ==> r.actualPrice == p.actualPrice
    ensures p.actualPrice.None? ==> r.actualPrice == it.actualPrice
    ensures p.category.Some? ==> r.category == p.category.value
    ensures p.category.None? ==> r.category == it.category
    ensures p.notes.Some? ==> r.notes == Some(Trim(p.notes.value))
    ensures p.notes.None? ==> r.notes == it.notes
    ensures p.priority.Some? ==> r.priority == p.priority.value
    ensures p.priority.None? ==> r.priority == it.priority
  {
    Item(
      id := it.id,
      name := if p.name.Some? then Trim(p.name.value) else it.name,
      quantity := p.quantity.GetOr(it.quantity),
      unit := p.unit.GetOr(it.unit),
      estimatedPrice := p.estimatedPrice.GetOr(it.estimatedPrice),
      actualPrice := if p.actualPrice.Some? then p.actualPrice else it.actualPrice,
      category := p.category.GetOr(it.category),
      notes := if p.notes.Some? then Some(Trim(p.notes.value)) else it.notes,
      completed := p.completed.GetOr(it.completed),
      completedAt := p.completedAt.GetOr(it.completedAt),
      priority := p.priority.GetOr(it.priority))
  }

  /** Assigning the same patch twice is assigning it once. */
  lemma ApplyPatchIdempotent(it: Item, p: ItemPatch)
    ensures ApplyPatch(ApplyPatch(it, p), p) == ApplyPatch(it, p)
  {
    var a := ApplyPatch(it, p);
    var b := ApplyPatch(a, p);
    if p.name.Some? {
      TrimIdempotent(p.name.value);
    }
    assert b.name == a.name;
    if p.notes.Some? {
      TrimIdempotent(p.notes.value);
    }
    assert b.notes == a.notes;
  }

  /** The completion time a patched item ends with once the item hook has run: a time in the
      body survives on a completed item, a null is replaced by the save time, and a pending
      item has none. */
  lemma PatchedCompletionTime(it: Item, p: ItemPatch, now: Time)
    ensures var r := StampItem(ApplyPatch(it, p), now);
      && (r.completed && p.completedAt.Some? && p.completedAt.value.Some? ==> r.completedAt == p.completedAt.value)
      && (r.completed && p.completedAt == Some(None) ==> r.completedAt == Some(now))
      && (!r.completed ==> r.completedAt.None?)
  {
  }

  /** `updateItem`: merge the patch into the first item with that identifier (if any), then save. */
  function UpdateItem(l: ShoppingList, itemId: string, p: ItemPatch, now: Time): (r: Result<ShoppingList, ModelError>)
    ensures !HasId(l.items, itemId) ==> r == Save(l, now)
    ensures r.Success? ==> |r.value.items| == |l.items|
    ensures r.Success? ==> forall k :: 0 <= k < |l.items| ==>
      r.value.items[k] == StampItem(if FindItem(l.items, itemId) == Some(k) then ApplyPatch(l.items[k], p) else l.items[k], now)
  {
    var found := FindItem(l.items, itemId);
    if found.None? then Save(l, now)
    else
      var k := found.value;
      Save(l.(items := l.items[k := ApplyPatch(l.items[k], p)]), now)
  }
}

=== FILE: task_filters_view.dfy ===
/**
 * The task filter panel: the form state, the cleaned filter record it emits, the active-filter
 * count and clear button, the quick presets, and refilling the form from a filter record.
 */
module TaskFiltersView {
  import opened Wrappers
  import opened JsText
  import opened WebTaskTypes

  /** The values of the filter form; the two dates are the text of the date inputs. The
      completion and deadline controls can hold `undefined` (`None`), `null` (`Some(None)`) or
      a flag. */
  datatype FilterForm = FilterForm(
    search: string,
    completed: Option<Option<bool>>,
    category: string,
    priority: string,
    sortBy: string,
    sortOrder: string,
    hasDeadline: Option<Option<bool>>,
    isOverdue: bool,
    start: string,
    end: string)

  /** The form after `populateForm` with no filters set: both optional flags `undefined`. */
  const DefaultForm := FilterForm("", None, "all", "all", "createdAt", "desc", None, false, "", "")

  /** `new Date(text)` of a date-only input, which is midnight UTC, in its `toISOString` form. */
  function DateFromInput(day: string): (r: string)
    ensures |r| == |day| + 14 && r[..|day|] == day && r[|day|] == 'T'
    ensures r[|day| + 1..] == "00:00:00.000Z"
  {
    day + "T00:00:00.000Z"
  }

  /** `date.toISOString().split('T')[0]`: the text before the first `T`, or all of it. The
      `new Date(x).toISOString()` normalisation before the split is not modelled: the text is
      split as given, which agrees with the source for UTC instants such as those the panel
      emits, and not for a string with another offset. */
  function DateForInput(iso: string): (r: string)
    ensures 'T' !in r && |r| <= |iso| && iso[..|r|] == r
    ensures |r| < |iso| ==> iso[|r|] == 'T'
  {
    var parts := Split(iso, 'T');
    JoinSplit(iso, 'T');
    assert |parts[0]| < |iso| ==> iso[|parts[0]|] == 'T' && iso[..|parts[0]|] == parts[0] by {
      if |parts| > 1 {
        assert iso == parts[0] + ['T'] + Join(parts[1..], 'T');
      }
    }
    parts[0]
  }

  /** A date-only input goes through a `Date` and back unchanged. */
  lemma DateInputRoundTrip(day: string)
    requires 'T' !in day
    ensures DateForInput(DateFromInput(day)) == day
  {
    var tail := "00:00:00.000Z";
    assert 'T' !in tail;
    assert Join([day, tail], 'T') == DateFromInput(day);
    SplitJoin([day, tail], 'T');
  }

  /** `emitFilters`: the search trimmed and dropped when blank, `all` category and priority
      dropped, an unset overdue flag dropped, empty dates dropped. */
  function EmitFilters(f: FilterForm): (r: TaskFilters)
    ensures r.search.None? <==> IsBlank(f.search)
    ensures r.search.Some? ==> r.search.value == Trim(f.search) && Trimmed(r.search.value)
    ensures r.category.None? <==> f.category == "all"
    ensures r.priority.None? <==> f.priority == "all"
    ensures r.isOverdue.None? <==> !f.isOverdue
    ensures r.isOverdue.Some? ==> r.isOverdue.value
    ensures r.dueDateStart.None? <==> f.start == ""
    ensures r.dueDateEnd.None? <==> f.end == ""
    ensures r.page.None? && r.limit.None?
    ensures r.completed == f.completed && r.hasDeadline == f.hasDeadline
  {
    TaskFilters(
      if IsBlank(f.search) then None else Some(Trim(f.search)),
      f.completed,
      if f.category == "all" then None else Some(f.category),
      if f.priority == "all" then None else Some(f.priority),
      Some(f.sortBy),
      Some(f.sortOrder),
      None,
      None,
      f.hasDeadline,
      if f.isOverdue then Some(true) else None,
      if f.start == "" then None else Some(DateFromInput(f.start)),
      if f.end == "" then None else Some(DateFromInput(f.end)))
  }

  function Flag(b: bool): nat {
    if b then 1 else 0
  }

  /** `activeFilterCount`: one for each active filter, the due-date range counting once. */
  function ActiveFilterCount(f: FilterForm): (n: nat)
    ensures n <= 7
  {
    Flag(!IsBlank(f.search)) + Flag(f.completed.Some?)
    + Flag(f.category != "" && f.category != "all") + Flag(f.priority != "" && f.priority != "all")
    + Flag(f.hasDeadline.Some?) + Flag(f.isOverdue) + Flag(f.start != "" || f.end != "")
  }

  /** `hasActiveFilters`, the plain disjunction of the same tests. */
  predicate HasActiveFilters(f: FilterForm)
    ensures HasActiveFilters(f) <==> ActiveFilterCount(f) > 0
  {
    || !IsBlank(f.search)
    || f.completed.Some?
    || (f.category != "" && f.category != "all")
    || (f.priority != "" && f.priority != "all")
    || f.hasDeadline.Some?
    || f.isOverdue
    || f.start != ""
    || f.end != ""
  }

  /** The two getters agree. */
  lemma HasActiveFiltersIffCount(f: FilterForm)
    ensures HasActiveFilters(f) <==> ActiveFilterCount(f) > 0
  {
  }

  /** The filters of a record that narrow the result, the range counting once. */
  function FilterKeys(t: TaskFilters): nat {
    Flag(t.search.Some?) + Flag(t.completed.Some?) + Flag(t.category.Some?) + Flag(t.priority.Some?)
    + Flag(t.hasDeadline.Some?) + Flag(t.isOverdue.Some?) + Flag(t.dueDateStart.Some? || t.dueDateEnd.Some?)
  }

  /** The count shown is the number of narrowing filters the form emits, as long as category
      and priority hold one of their options. */
  lemma CountMatchesEmitted(f: FilterForm)
    requires f.category != "" && f.priority != ""
    ensures ActiveFilterCount(f) == FilterKeys(EmitFilters(f))
  {
  }

  /** `getClearButtonText` and `getClearButtonTitle`, which are the same text. */
  function ClearButtonLabel(count: nat): (r: string)
    ensures count == 0 <==> r == "No active filters"
    ensures count > 0 ==> |r| > 6 && r[..6] == "Clear " && (r[|r| - 1] == 's' <==> count > 1)
  {
    if count > 0 then
      var r := "Clear " + NatToString(count) + " filter" + (if count > 1 then "s" else "");
      assert r[0] == 'C';
      r
    else "No active filters"
  }

  /** Different counts give different labels. */
  lemma ClearButtonLabelInjective(a: nat, b: nat)
    requires ClearButtonLabel(a) == ClearButtonLabel(b)
    ensures a == b
  {
    if a > 0 && b > 0 {
      var la := ClearButtonLabel(a);
      var na := NatToString(a);
      var nb := NatToString(b);
      var sa := if a > 1 then "s" else "";
      var sb := if b > 1 then "s" else "";
      assert la == "Clear " + na + " filter" + sa;
      assert la == "Clear " + nb + " filter" + sb;
      assert |na| == |nb| by {
        assert |sa| == |sb|;
      }
      assert na == la[6..6 + |na|];
      assert nb == la[6..6 + |nb|];
      NatToStringInjective(a, b);
    }
  }

  /** `clearAllFilters` as written. A form group reset hands `undefined` to a control, which
      then takes its default value `null`, not `undefined`; the completion and deadline controls
      end up `null`, which the counters test as set and the panel emits. */
  function ClearAllFiltersAsWritten(f: FilterForm): (r: FilterForm)
    ensures r.completed == Some(None) && r.hasDeadline == Some(None)
    ensures r.(completed := None, hasDeadline := None) == ClearAllFilters(f)
  {
    DefaultForm.(completed := Some(None), hasDeadline := Some(None))
  }

  /** After the reset as written the panel still counts two active filters, offers to clear
      them, and emits the two `null` members. */
  lemma ClearLeavesTwoFilters(f: FilterForm)
    ensures var r := ClearAllFiltersAsWritten(f);
      && ActiveFilterCount(r) == 2 && HasActiveFilters(r)
      && ClearButtonLabel(ActiveFilterCount(r)) == "Clear 2 filters"
      && EmitFilters(r).completed == Some(None) && EmitFilters(r).hasDeadline == Some(None)
  {
    assert NatToString(2) == "2";
  }

  /** `clearAllFilters` as intended: the form back as first built. Nothing is active, and only
      the default sort is emitted. */
  function ClearAllFilters(f: FilterForm): (r: FilterForm)
    ensures ActiveFilterCount(r) == 0 && !HasActiveFilters(r)
    ensures ClearButtonLabel(ActiveFilterCount(r)) == "No active filters"
    ensures EmitFilters(r) == NoFilters.(sortBy := Some("createdAt"), sortOrder := Some("desc"))
  {
    DefaultForm
  }

  /** `showOverdueTasks`. */
  function ShowOverdueTasks(f: FilterForm): (r: FilterForm)
    ensures r.completed == Some(Some(false)) && r.isOverdue && r.sortBy == "deadline" && r.sortOrder == "asc"
    ensures r.search == f.search && r.category == f.category && r.priority == f.priority
    ensures r.hasDeadline == f.hasDeadline && r.start == f.start && r.end == f.end
  {
    f.(completed := Some(Some(false)), isOverdue := true, sortBy := "deadline", sortOrder := "asc")
  }

  /** `showDueTodayTasks`, with today's and tomorrow's dates as the caller reads them. */
  function ShowDueTodayTasks(f: FilterForm, today: string, tomorrow: string): (r: FilterForm)
    ensures r.completed == Some(Some(false)) && r.start == today && r.end == tomorrow
    ensures r.sortBy == "deadline" && r.sortOrder == "asc"
    ensures r.search == f.search && r.category == f.category && r.priority == f.priority
    ensures r.hasDeadline == f.hasDeadline && r.isOverdue == f.isOverdue
  {
    f.(completed := Some(Some(false)), start := today, end := tomorrow, sortBy := "deadline", sortOrder := "asc")
  }

  /** `showHighPriorityTasks`. */
  function ShowHighPriorityTasks(f: FilterForm): (r: FilterForm)
    ensures r.priority == "high" && r.completed == Some(Some(false)) && r.sortBy == "deadline" && r.sortOrder == "asc"
    ensures r.search == f.search && r.category == f.category && r.hasDeadline == f.hasDeadline
    ensures r.isOverdue == f.isOverdue && r.start == f.start && r.end == f.end
  {
    f.(priority := "high", completed := Some(Some(false)), sortBy := "deadline", sortOrder := "asc")
  }

  /** `showRecentTasks`. */
  function ShowRecentTasks(f: FilterForm): (r: FilterForm)
    ensures r.sortBy == "createdAt" && r.sortOrder == "desc"
    ensures ActiveFilterCount(r) == ActiveFilterCount(f)
  {
    f.(sortBy := "createdAt", sortOrder := "desc")
  }

  /** The narrowing presets activate at least two filters, and applying one twice is applying it once. */
  lemma PresetsActivateFilters(f: FilterForm, today: string, tomorrow: string)
    ensures ActiveFilterCount(ShowOverdueTasks(f)) >= 2
    ensures ActiveFilterCount(ShowHighPriorityTasks(f)) >= 2
    ensures today != "" ==> ActiveFilterCount(ShowDueTodayTasks(f, today, tomorrow)) >= 2
    ensures ShowOverdueTasks(ShowOverdueTasks(f)) == ShowOverdueTasks(f)
    ensures ShowHighPriorityTasks(ShowHighPriorityTasks(f)) == ShowHighPriorityTasks(f)
  {
  }

  /** `populateForm`: every missing member takes the form's default. */
  function PopulateForm(t: TaskFilters): (r: FilterForm)
    ensures r.search == t.search.GetOr("") && r.completed == t.completed && r.hasDeadline == t.hasDeadline
    ensures t.category.None? || t.category == Some("") ==> r.category == "all"
    ensures t.priority.None? || t.priority == Some("") ==> r.priority == "all"
    ensures t.sortBy.None? ==> r.sortBy == "createdAt"
    ensures t.sortOrder.None? ==> r.sortOrder == "desc"
    ensures r.isOverdue == t.isOverdue.GetOr(false)
    ensures t.dueDateStart.None? ==> r.start == ""
    ensures t.dueDateEnd.None? ==> r.end == ""
  {
    FilterForm(
      t.search.GetOr(""),
      t.completed,
      Or(t.category, "all"),
      Or(t.priority, "all"),
      Or(t.sortBy, "createdAt"),
      Or(t.sortOrder, "desc"),
      t.hasDeadline,
      t.isOverdue.GetOr(false),
      if t.dueDateStart.Some? && t.dueDateStart.value != "" then DateForInput(t.dueDateStart.value) else "",
      if t.dueDateEnd.Some? && t.dueDateEnd.value != "" then DateForInput(t.dueDateEnd.value) else "")
  }

  /** `value || fallback` on an optional string. */
  function Or(o: Option<string>, fallback: string): (r: string)
    ensures o.Some? && o.value != "" ==> r == o.value
    ensures o.None? || o.value == "" ==> r == fallback
  {
    if o.Some? && o.value != "" then o.value else fallback
  }

  /** A form in normal shape: trimmed search, a chosen sort, date-only inputs. */
  predicate NormalForm(f: FilterForm) {
    && Trimmed(f.search)
    && f.category != "" && f.priority != "" && f.sortBy != "" && f.sortOrder != ""
    && 'T' !in f.start && 'T' !in f.end
  }

  /** Emitting a normal form and refilling the form from the result restores the form. */
  lemma PopulateEmitRoundTrip(f: FilterForm)
    requires NormalForm(f)
    ensures PopulateForm(EmitFilters(f)) == f
  {
    var t := EmitFilters(f);
    var g := PopulateForm(t);
    TrimOfTrimmed(f.search);
    assert g.search == f.search;
    assert g.category == f.category && g.priority == f.priority;
    assert g.sortBy == f.sortBy && g.sortOrder == f.sortOrder;
    assert g.isOverdue == f.isOverdue;
    if f.start != "" {
      DateInputRoundTrip(f.start);
    }
    assert g.start == f.start;
    if f.end != "" {
      DateInputRoundTrip(f.end);
    }
    assert g.end == f.end;
  }
}

=== FILE: task_form_view.dfy ===
/**
 * The task form: the date-time text of the deadline input, the payload a submit emits, the
 * switch between create and edit mode, and the texts and error lists the form shows.
 */
module TaskFormView {
  import opened Wrappers
  import opened JsText
  import opened WebTaskTypes

  /** The local calendar fields `Date` reports: full year, month index 0..11, day of month,
      hours and minutes. */
  datatype DateParts = DateParts(year: nat, month: nat, day: nat, hours: nat, minutes: nat)

  predicate ValidParts(p: DateParts) {
    p.month < 12 && 1 <= p.day <= 31 && p.hours < 24 && p.minutes < 60
  }

  /** Reading a time in the browser's time zone; the zone is outside the model. */
  type LocalTime = Time -> DateParts

  /** `formatDateForInput`: `YYYY-MM-DDTHH:mm`, every field after the year padded to two digits. */
  function FormatDateForInput(p: DateParts): (r: string)
    ensures ValidParts(p) ==> |r| == |NatToString(p.year)| + 12
  {
    DateText(p) + "T" + TimeText(p)
  }

  /** `YYYY-MM-DD`, the month shown from 1. */
  function DateText(p: DateParts): string {
    NatToString(p.year) + "-" + Pad2(p.month + 1) + "-" + Pad2(p.day)
  }

  /** `HH:mm`. */
  function TimeText(p: DateParts): string {
    Pad2(p.hours) + ":" + Pad2(p.minutes)
  }

  /** Reads the text of a date-time input back into its fields; None for anything else. */
  function ParseDateInput(s: string): (r: Option<DateParts>)
    ensures r.Some? ==> ValidParts(r.value)
  {
    var halves := Split(s, 'T');
    if |halves| != 2 then None
    else
      var date := Split(halves[0], '-');
      var time := Split(halves[1], ':');
      if |date| == 3 && |time| == 2 && |date[0]| >= 1
         && AllDigits(date[0]) && AllDigits(date[1]) && AllDigits(date[2]) && AllDigits(time[0]) && AllDigits(time[1])
         && DigitsValue(date[1]) >= 1
      then
        var p := DateParts(DigitsValue(date[0]), DigitsValue(date[1]) - 1, DigitsValue(date[2]),
                           DigitsValue(time[0]), DigitsValue(time[1]));
        if ValidParts(p) then Some(p) else None
      else None
  }

  /** The date half splits at its dashes into year, month and day, and holds no `T`. */
  lemma DateTextSplits(p: DateParts)
    ensures Split(DateText(p), '-') == [NatToString(p.year), Pad2(p.month + 1), Pad2(p.day)]
    ensures 'T' !in DateText(p)
  {
    var y, mo, d := NatToString(p.year), Pad2(p.month + 1), Pad2(p.day);
    DigitsExclude(y, '-');
    DigitsExclude(mo, '-');
    DigitsExclude(d, '-');
    SplitTriple(y, mo, d, '-');
    DigitsExclude(y, 'T');
    DigitsExclude(mo, 'T');
    DigitsExclude(d, 'T');
  }

  /** The time half splits at its colon into hours and minutes, and holds no `T`. */
  lemma TimeTextSplits(p: DateParts)
    ensures Split(TimeText(p), ':') == [Pad2(p.hours), Pad2(p.minutes)]
    ensures 'T' !in TimeText(p)
  {
    var h, mi := Pad2(p.hours), Pad2(p.minutes);
    DigitsExclude(h, ':');
    DigitsExclude(mi, ':');
    SplitPair(h, mi, ':');
    DigitsExclude(h, 'T');
    DigitsExclude(mi, 'T');
  }

  /** The deadline text reads back as the fields it was made from. */
  lemma FormatDateRoundTrip(p: DateParts)
    requires ValidParts(p)
    ensures ParseDateInput(FormatDateForInput(p)) == Some(p)
  {
    var date, time := DateText(p), TimeText(p);
    DateTextSplits(p);
    TimeTextSplits(p);
    SplitPair(date, time, 'T');
    NatToStringRoundTrip(p.year);
    var halves := Split(FormatDateForInput(p), 'T');
    assert halves == [date, time];
    var ds, ts := Split(halves[0], '-'), Split(halves[1], ':');
    assert DigitsValue(ds[0]) == p.year && DigitsValue(ds[1]) == p.month + 1 && DigitsValue(ds[2]) == p.day;
    assert DigitsValue(ts[0]) == p.hours && DigitsValue(ts[1]) == p.minutes;
  }

  /** The values of the form controls. */
  datatype TaskForm = TaskForm(title: string, description: string, category: string, priority: string, deadline: string)

  /** The form as first built and as `resetForm` leaves it. */
  const DefaultTaskForm := TaskForm("", "", "personal", "medium", "")

  const MaxTitleLength: nat := 200
  const MaxDescriptionLength: nat := 1000

  /** The control validators: a non-empty title of at most 200 characters, a description of at
      most 1000, and a category and priority chosen. */
  predicate FormValid(f: TaskForm) {
    f.title != "" && |f.title| <= MaxTitleLength && |f.description| <= MaxDescriptionLength
    && f.category != "" && f.priority != ""
  }

  /** The request a submit emits; the deadline is the input text handed to `new Date`. */
  datatype Payload = Payload(title: string, description: Option<string>, category: string, priority: string, deadline: Option<string>)

  /** `onSubmit`: nothing for an invalid form or while loading; otherwise the title trimmed, a
      blank description and an empty deadline left out. */
  function OnSubmit(f: TaskForm, loading: bool): (r: Option<Payload>)
    ensures r.None? <==> !FormValid(f) || loading
    ensures r.Some? ==> r.value.title == Trim(f.title) && r.value.category == f.category && r.value.priority == f.priority
    ensures r.Some? ==> (r.value.description.None? <==> IsBlank(f.description))
    ensures r.Some? && r.value.description.Some? ==> r.value.description.value == Trim(f.description)
    ensures r.Some? ==> (r.value.deadline.None? <==> f.deadline == "")
    ensures r.Some? && r.value.deadline.Some? ==> r.value.deadline.value == f.deadline
  {
    if !FormValid(f) || loading then None
    else
      Some(Payload(Trim(f.title),
                   if IsBlank(f.description) then None else Some(Trim(f.description)),
                   f.category, f.priority,
                   if f.deadline == "" then None else Some(f.deadline)))
  }

  /** `populateForm`: the controls filled from the task being edited. */
  function PopulateTaskForm(t: WebTask, local: LocalTime): (r: TaskForm)
    ensures r.title == t.title && r.category == t.category && r.priority == t.priority
    ensures r.description == t.description.GetOr("")
    ensures t.deadline.None? <==> r.deadline == ""
  {
    TaskForm(t.title, t.description.GetOr(""), t.category, t.priority,
             if t.deadline.Some? then FormatDateForInput(local(t.deadline.value)) else "")
  }

  datatype Mode = Create | Edit

  /** `ngOnChanges`: a new task switches to edit mode and fills the form; a task set back to
      none switches to create mode and resets the form; any other change keeps both. */
  function OnTaskChange(taskChanged: bool, task: Option<WebTask>, mode: Mode, form: TaskForm, local: LocalTime): (r: (Mode, TaskForm))
    ensures taskChanged && task.Some? ==> r == (Edit, PopulateTaskForm(task.value, local))
    ensures taskChanged && task.None? ==> r == (Create, DefaultTaskForm)
    ensures !taskChanged ==> r == (mode, form)
  {
    if taskChanged && task.Some? then (Edit, PopulateTaskForm(task.value, local))
    else if taskChanged then (Create, DefaultTaskForm)
    else (mode, form)
  }

  /** After a switch to create mode the form cannot be submitted until a title is typed. */
  lemma ResetFormIsEmpty(mode: Mode, form: TaskForm, local: LocalTime, loading: bool)
    ensures OnSubmit(OnTaskChange(true, None, mode, form, local).1, loading).None?
  {
  }

  /** Editing a well-formed task and submitting at once sends the task's own fields back. */
  lemma EditThenSubmit(t: WebTask, local: LocalTime)
    requires t.title != "" && Trimmed(t.title) && |t.title| <= MaxTitleLength
    requires t.description.Some? ==> Trimmed(t.description.value) && |t.description.value| <= MaxDescriptionLength
    requires t.category != "" && t.priority != ""
    ensures var f := OnTaskChange(true, Some(t), Create, DefaultTaskForm, local).1;
            var r := OnSubmit(f, false);
            && r.Some? && r.value.title == t.title && r.value.category == t.category && r.value.priority == t.priority
            && (t.description.Some? && t.description.value != "" ==> r.value.description == t.description)
            && (r.value.deadline.None? <==> t.deadline.None?)
  {
    var f := PopulateTaskForm(t, local);
    assert OnTaskChange(true, Some(t), Create, DefaultTaskForm, local).1 == f;
    TrimOfTrimmed(t.title);
    if t.description.Some? && t.description.value != "" {
      var d := t.description.value;
      TrimOfTrimmed(d);
      assert !IsSpace(d[0]);
    }
  }

  /** `formTitle`. */
  function FormTitle(mode: Mode): (r: string)
    ensures r == "Edit Task" <==> mode == Edit
    ensures r == "Create New Task" <==> mode != Edit
  {
    if mode == Edit then "Edit Task" else "Create New Task"
  }

  /** `submitButtonText`. */
  function SubmitButtonText(mode: Mode, loading: bool): (r: string)
    ensures loading ==> r == (if mode == Edit then "Updating..." else "Creating...")
    ensures !loading ==> r == (if mode == Edit then "Update Task" else "Create Task")
  {
    if loading then (if mode == Edit then "Updating..." else "Creating...")
    else if mode == Edit then "Update Task" else "Create Task"
  }

  /** The four button texts are distinct: the text tells mode and loading state apart. */
  lemma SubmitButtonTextInjective(m1: Mode, l1: bool, m2: Mode, l2: bool)
    requires SubmitButtonText(m1, l1) == SubmitButtonText(m2, l2)
    ensures m1 == m2 && l1 == l2
  {
  }

  /** `titleErrors`: no messages until the control is touched; then one per failing validator. */
  function TitleErrors(title: string, touched: bool): (r: seq<string>)
    ensures |r| <= 1
    ensures touched ==> ("Title is required" in r <==> title == "")
    ensures touched ==> ("Title cannot exceed 200 characters" in r <==> |title| > MaxTitleLength)
    ensures r == [] <==> !touched || (title != "" && |title| <= MaxTitleLength)
  {
    if !touched then []
    else if title == "" then ["Title is required"]
    else if |title| > MaxTitleLength then ["Title cannot exceed 200 characters"]
    else []
  }

  /** `descriptionErrors`. */
  function DescriptionErrors(description: string, touched: bool): (r: seq<string>)
    ensures r == [] <==> !touched || |description| <= MaxDescriptionLength
    ensures r != [] ==> r == ["Description cannot exceed 1000 characters"]
  {
    if touched && |description| > MaxDescriptionLength then ["Description cannot exceed 1000 characters"] else []
  }

  /** Once every control is touched, the form submits exactly when it shows no messages. */
  lemma ErrorsExplainRefusal(f: TaskForm)
    requires f.category != "" && f.priority != ""
    ensures OnSubmit(f, false).None? <==> TitleErrors(f.title, true) != [] || DescriptionErrors(f.description, true) != []
  {
  }
}

=== FILE: task_item_view.dfy ===
/**
 * The task card: category and priority lookups with their fallbacks, the deadline bucket and
 * text, the creation-age text, the priority icon and the loading guard of its actions.
 */
module TaskItemView {
  import opened Wrappers
  import opened JsMath
  import opened JsText
  import opened WebTaskTypes

  /** `categoryInfo`: the table row for the task's category, or the `other` row. */
  function CategoryInfo(t: WebTask): (r: Choice)
    ensures r in TaskCategories
    ensures (exists i :: 0 <= i < |TaskCategories| && TaskCategories[i].value == t.category) ==> r.value == t.category
    ensures (forall i :: 0 <= i < |TaskCategories| ==> TaskCategories[i].value != t.category) ==> r == TaskCategories[4]
  {
    var found := FindChoice(TaskCategories, t.category);
    if found.Some? then found.value else TaskCategories[4]
  }

  /** `priorityInfo`: the table row for the task's priority, or the `medium` row. */
  function PriorityInfo(t: WebTask): (r: Choice)
    ensures r in TaskPriorities
    ensures (exists i :: 0 <= i < |TaskPriorities| && TaskPriorities[i].value == t.priority) ==> r.value == t.priority
    ensures (forall i :: 0 <= i < |TaskPriorities| ==> TaskPriorities[i].value != t.priority) ==> r == TaskPriorities[1]
  {
    var found := FindChoice(TaskPriorities, t.priority);
    if found.Some? then found.value else TaskPriorities[1]
  }

  /** `isOverdue`: an open task whose deadline has passed. */
  predicate IsOverdue(t: WebTask, now: Time)
    ensures IsOverdue(t, now) ==> t.deadline.Some? && !t.completed && DaysLeft(t.deadline.value, now) <= 0
    ensures t.deadline.Some? && !t.completed && DaysLeft(t.deadline.value, now) < 0 ==> IsOverdue(t, now)
  {
    t.deadline.Some? && !t.completed && now > t.deadline.value
  }

  /** Whole days until the deadline, rounded up: `Math.ceil((deadline - now) / day)`. */
  function DaysLeft(deadline: Time, now: Time): (r: int)
    ensures DayMs * (r - 1) < deadline - now <= DayMs * r
  {
    CeilDiv(deadline - now, DayMs)
  }

  datatype DeadlineBucket = Overdue | DueToday | DueSoon | Future

  /** `deadlineStatus`: none without a deadline or for a completed task, otherwise the bucket
      of the day count. */
  function DeadlineStatus(t: WebTask, now: Time): (r: Option<DeadlineBucket>)
    ensures r.None? <==> t.deadline.None? || t.completed
    ensures r == Some(Overdue) <==> !t.completed && t.deadline.Some? && DaysLeft(t.deadline.value, now) < 0
    ensures r == Some(DueToday) <==> !t.completed && t.deadline.Some? && DaysLeft(t.deadline.value, now) == 0
    ensures r == Some(DueSoon) <==> !t.completed && t.deadline.Some? && 1 <= DaysLeft(t.deadline.value, now) <= 3
    ensures r == Some(Future) <==> !t.completed && t.deadline.Some? && DaysLeft(t.deadline.value, now) > 3
  {
    if t.deadline.None? || t.completed then None
    else
      var d := DaysLeft(t.deadline.value, now);
      if d < 0 then Some(Overdue) else if d == 0 then Some(DueToday) else if d <= 3 then Some(DueSoon) else Some(Future)
  }

  /** The bucket in milliseconds: overdue means a full day or more past the deadline, and a
      deadline passed by less than a day still counts as due today. */
  lemma DeadlineStatusInTime(t: WebTask, now: Time)
    requires t.deadline.Some? && !t.completed
    ensures DeadlineStatus(t, now) == Some(Overdue) <==> t.deadline.value - now <= -DayMs
    ensures DeadlineStatus(t, now) == Some(DueToday) <==> -DayMs < t.deadline.value - now <= 0
    ensures DeadlineStatus(t, now) == Some(Future) <==> t.deadline.value - now > 3 * DayMs
  {
    var d := DaysLeft(t.deadline.value, now);
    var diff := t.deadline.value - now;
    if d < 0 {
      assert DayMs * d <= -DayMs;
    }
    if d > 3 {
      assert DayMs * (d - 1) >= 3 * DayMs;
    }
    if d == 0 {
      assert DayMs * (d - 1) == -DayMs;
    }
    if diff <= -DayMs {
      assert DayMs * (d - 1) < -DayMs;
    }
    if diff > 3 * DayMs {
      assert DayMs * d > 3 * DayMs;
    }
  }

  /** Every overdue card is in the overdue or due-today bucket, and every card in the overdue
      bucket is overdue. */
  lemma OverdueAgreesWithStatus(t: WebTask, now: Time)
    ensures DeadlineStatus(t, now) == Some(Overdue) ==> IsOverdue(t, now)
    ensures IsOverdue(t, now) ==> DeadlineStatus(t, now) in {Some(Overdue), Some(DueToday)}
  {
    if t.deadline.Some? && !t.completed {
      DeadlineStatusInTime(t, now);
    }
  }

  /** The text of a deadline: a localised date beyond a week, produced by `localDate`. */
  datatype DeadlineLabel = Text(s: string) | LocalDate(at: Time)

  /** `deadlineText`; unlike the bucket it is shown for completed tasks too. */
  function DeadlineText(t: WebTask, now: Time): (r: Option<DeadlineLabel>)
    ensures r.None? <==> t.deadline.None?
    ensures t.deadline.Some? && DaysLeft(t.deadline.value, now) < 0 ==>
      var n := -DaysLeft(t.deadline.value, now);
      r == Some(Text("Overdue by " + NatToString(n) + " day" + (if n != 1 then "s" else "")))
    ensures t.deadline.Some? && DaysLeft(t.deadline.value, now) == 0 ==> r == Some(Text("Due today"))
    ensures t.deadline.Some? && DaysLeft(t.deadline.value, now) == 1 ==> r == Some(Text("Due tomorrow"))
    ensures t.deadline.Some? && 2 <= DaysLeft(t.deadline.value, now) <= 7 ==>
      r == Some(Text("Due in " + NatToString(DaysLeft(t.deadline.value, now)) + " days"))
    ensures t.deadline.Some? && DaysLeft(t.deadline.value, now) > 7 ==> r == Some(LocalDate(t.deadline.value))
  {
    if t.deadline.None? then None
    else
      var d := DaysLeft(t.deadline.value, now);
      if d < 0 then
        var n := -d;
        Some(Text("Overdue by " + NatToString(n) + " day" + (if n != 1 then "s" else "")))
      else if d == 0 then Some(Text("Due today"))
      else if d == 1 then Some(Text("Due tomorrow"))
      else if d <= 7 then Some(Text("Due in " + NatToString(d) + " days"))
      else Some(LocalDate(t.deadline.value))
  }

  /** The text and the bucket of an open task tell the same story. */
  lemma DeadlineTextAgreesWithStatus(t: WebTask, now: Time)
    requires t.deadline.Some? && !t.completed
    ensures DeadlineStatus(t, now) == Some(Overdue) <==> DeadlineText(t, now).value.Text? && DeadlineText(t, now).value.s[..3] == "Ove"
    ensures DeadlineStatus(t, now) == Some(DueToday) <==> DeadlineText(t, now) == Some(Text("Due today"))
  {
    var d := DaysLeft(t.deadline.value, now);
    var r := DeadlineText(t, now).value;
    if d < 0 {
      var n := -d;
      assert r.s == "Overdue by " + NatToString(n) + " day" + (if n != 1 then "s" else "");
      assert r.s[..3] == "Ove";
    } else if d > 1 && d <= 7 {
      assert r.s == "Due in " + NatToString(d) + " days";
      assert r.s[..3] != "Ove" by {
        assert r.s[..3][0] == 'D' && "Ove"[0] == 'O';
      }
      assert DeadlineStatus(t, now) != Some(Overdue);
    }
  }

  /** Whole days since creation, rounded down: `Math.floor((now - created) / day)`. */
  function DaysAgo(created: Time, now: Time): (r: int)
    ensures DayMs * r <= now - created < DayMs * (r + 1)
  {
    FloorDiv(now - created, DayMs)
  }

  datatype AgeLabel = AgeText(s: string) | CreatedDate(at: Time)

  /** `formattedCreatedAt` as written: a creation time ahead of the local clock gives a negative
      day count, which falls into the "days ago" branch. */
  function FormattedCreatedAtAsWritten(t: WebTask, now: Time): (r: AgeLabel)
    ensures t.createdAt.None? ==> r == AgeText("")
    ensures t.createdAt.Some? && DaysAgo(t.createdAt.value, now) == 0 ==> r == AgeText("Today")
    ensures t.createdAt.Some? && DaysAgo(t.createdAt.value, now) == 1 ==> r == AgeText("Yesterday")
    ensures t.createdAt.Some? && DaysAgo(t.createdAt.value, now) > 7 ==> r == CreatedDate(t.createdAt.value)
    ensures t.createdAt.Some? && (var d := DaysAgo(t.createdAt.value, now); d <= 7 && d != 0 && d != 1)
            ==> r == AgeText(IntToString(DaysAgo(t.createdAt.value, now)) + " days ago")
  {
    if t.createdAt.None? then AgeText("")
    else
      var d := DaysAgo(t.createdAt.value, now);
      if d == 0 then AgeText("Today")
      else if d == 1 then AgeText("Yesterday")
      else if d <= 7 then AgeText(IntToString(d) + " days ago")
      else CreatedDate(t.createdAt.value)
  }

  /** A task stamped one millisecond ahead of the local clock reads "-1 days ago". */
  lemma CreatedAtAheadOfClock()
    ensures var t := WebTask(None, "t", None, false, "work", "medium", None, Some(1001));
            FormattedCreatedAtAsWritten(t, 1000) == AgeText("-1 days ago")
  {
    assert DaysAgo(1001, 1000) == -1;
  }

  /** `formattedCreatedAt` with a creation time not yet reached read as today. */
  function FormattedCreatedAt(t: WebTask, now: Time): (r: AgeLabel)
    ensures t.createdAt.None? ==> r == AgeText("")
    ensures t.createdAt.Some? && DaysAgo(t.createdAt.value, now) <= 0 ==> r == AgeText("Today")
    ensures t.createdAt.Some? && DaysAgo(t.createdAt.value, now) >= 0 ==> r == FormattedCreatedAtAsWritten(t, now)
    ensures t.createdAt.Some? && 2 <= DaysAgo(t.createdAt.value, now) <= 7
            ==> r == AgeText(NatToString(DaysAgo(t.createdAt.value, now)) + " days ago")
  {
    if t.createdAt.None? then AgeText("")
    else
      var d := DaysAgo(t.createdAt.value, now);
      if d <= 0 then AgeText("Today")
      else if d == 1 then AgeText("Yesterday")
      else if d <= 7 then AgeText(NatToString(d) + " days ago")
      else CreatedDate(t.createdAt.value)
  }

  /** The corrected text never shows a negative count: any "days ago" text names 2 to 7 days. */
  lemma FormattedCreatedAtNeverNegative(t: WebTask, now: Time)
    requires t.createdAt.Some?
    ensures var r := FormattedCreatedAt(t, now);
            r.AgeText? && r.s != "Today" && r.s != "Yesterday" ==>
              2 <= DaysAgo(t.createdAt.value, now) <= 7
              && r.s == NatToString(DaysAgo(t.createdAt.value, now)) + " days ago"
  {
  }

  /** `priorityIcon`. */
  function PriorityIcon(t: WebTask): (r: string)
    ensures t.priority == "high" <==> r == "arrow-up"
    ensures t.priority == "low" <==> r == "arrow-down"
    ensures r in {"arrow-up", "arrow-down", "minus"}
  {
    if t.priority == "high" then "arrow-up" else if t.priority == "low" then "arrow-down" else "minus"
  }

  /** The icon agrees with the looked-up priority: a priority outside the table gets the icon
      of its `medium` fallback. */
  lemma IconFollowsPriorityInfo(t: WebTask)
    ensures PriorityInfo(t).value == "medium" ==> PriorityIcon(t) == "minus"
  {
  }

  /** `onToggle`, `onEdit` and `onDelete`: the task is emitted unless an action is loading. */
  function Guarded(loading: bool, t: WebTask): (r: Option<WebTask>)
    ensures r.None? <==> loading
    ensures r.Some? ==> r.value == t
  {
    if loading then None else Some(t)
  }
}

=== FILE: task_list_view.dfy ===
/**
 * The task list page: how the current filter record changes on filter, sort, page and quick
 * filter events, the active/completed split of the loaded tasks, and the save dispatch.
 */
module TaskListView {
  import opened Wrappers
  import opened WebTaskTypes
  import TaskFiltersView
  import TaskStatsView
  import JsMath

  /** The filters the page starts with. */
  const InitialFilters: TaskFilters :=
    NoFilters.(category := Some("all"), priority := Some("all"), sortBy := Some("createdAt"),
               sortOrder := Some("desc"), page := Some(1), limit := Some(20))

  /** The panel fed the page's first filters shows its own first form, and with it the panel
      counts nothing as active. */
  lemma InitialFiltersFillDefaultForm()
    ensures TaskFiltersView.PopulateForm(InitialFilters) == TaskFiltersView.DefaultForm
    ensures TaskFiltersView.ActiveFilterCount(TaskFiltersView.PopulateForm(InitialFilters)) == 0
  {
  }

  /** One member of `{ ...base, ...top }`. */
  function Pick<T>(base: Option<T>, top: Option<T>): (r: Option<T>)
    ensures top.Some? ==> r == top
    ensures top.None? ==> r == base
  {
    if top.Some? then top else base
  }

  /** `{ ...base, ...top }`: each member of `top` that is present replaces the one of `base`. */
  function Overlay(base: TaskFilters, top: TaskFilters): (r: TaskFilters)
    ensures r.search == Pick(base.search, top.search) && r.category == Pick(base.category, top.category)
    ensures r.priority == Pick(base.priority, top.priority) && r.completed == Pick(base.completed, top.completed)
    ensures r.sortBy == Pick(base.sortBy, top.sortBy) && r.sortOrder == Pick(base.sortOrder, top.sortOrder)
    ensures r.page == Pick(base.page, top.page) && r.limit == Pick(base.limit, top.limit)
    ensures r.hasDeadline == Pick(base.hasDeadline, top.hasDeadline) && r.isOverdue == Pick(base.isOverdue, top.isOverdue)
    ensures r.dueDateStart == Pick(base.dueDateStart, top.dueDateStart)
    ensures r.dueDateEnd == Pick(base.dueDateEnd, top.dueDateEnd)
  {
    TaskFilters(
      Pick(base.search, top.search),
      Pick(base.completed, top.completed),
      Pick(base.category, top.category),
      Pick(base.priority, top.priority),
      Pick(base.sortBy, top.sortBy),
      Pick(base.sortOrder, top.sortOrder),
      Pick(base.page, top.page),
      Pick(base.limit, top.limit),
      Pick(base.hasDeadline, top.hasDeadline),
      Pick(base.isOverdue, top.isOverdue),
      Pick(base.dueDateStart, top.dueDateStart),
      Pick(base.dueDateEnd, top.dueDateEnd))
  }

  /** Spreading an empty record changes nothing, spreading onto an empty record copies, and
      spreading the same record twice is spreading it once. */
  lemma OverlayLaws(base: TaskFilters, top: TaskFilters)
    ensures Overlay(base, NoFilters) == base && Overlay(NoFilters, top) == top
    ensures Overlay(Overlay(base, top), top) == Overlay(base, top)
  {
  }

  /** `onFiltersChange` as written: the emitted filters laid over the current ones, back to page 1. */
  function OnFiltersChangeAsWritten(current: TaskFilters, emitted: TaskFilters): (r: TaskFilters)
    ensures r.page == Some(1)
    ensures r == Overlay(current, emitted).(page := Some(1))
    ensures emitted.category.None? ==> r.category == current.category
  {
    Overlay(current, emitted).(page := Some(1))
  }

  /** The emitted record leaves out a filter that was cleared, so the overlay keeps the old
      value: after choosing "all" categories the list stays filtered on `work`. */
  lemma ClearedFilterSurvives()
    ensures var form := TaskFiltersView.DefaultForm;
            var current := InitialFilters.(category := Some("work"));
            OnFiltersChangeAsWritten(current, TaskFiltersView.EmitFilters(form)).category == Some("work")
            && TaskFiltersView.PopulateForm(OnFiltersChangeAsWritten(current, TaskFiltersView.EmitFilters(form))).category
               != form.category
  {
  }

  /** `onFiltersChange` with the panel's record taken as the whole filter set: every filter comes
      from the panel, the page size stays, and the page goes back to 1. */
  function OnFiltersChange(current: TaskFilters, emitted: TaskFilters): (r: TaskFilters)
    ensures r.page == Some(1) && r.limit == current.limit
    ensures r.(page := emitted.page, limit := emitted.limit) == emitted
  {
    emitted.(page := Some(1), limit := current.limit)
  }

  /** With the corrected update the list filters always read back as the panel's form. */
  lemma FiltersFollowPanel(current: TaskFilters, form: TaskFiltersView.FilterForm)
    requires TaskFiltersView.NormalForm(form)
    ensures TaskFiltersView.PopulateForm(OnFiltersChange(current, TaskFiltersView.EmitFilters(form))) == form
  {
    TaskFiltersView.PopulateEmitRoundTrip(form);
  }

  /** `onSortChange`: ascending only when the same field is chosen again while descending. */
  function OnSortChange(current: TaskFilters, sortBy: string): (r: TaskFilters)
    ensures r.sortBy == Some(sortBy) && r.page == Some(1)
    ensures r.sortOrder == Some("asc") <==> current.sortBy == Some(sortBy) && current.sortOrder == Some("desc")
    ensures r.sortOrder == Some("asc") || r.sortOrder == Some("desc")
    ensures r.(sortBy := current.sortBy, sortOrder := current.sortOrder, page := current.page) == current
  {
    var order := if current.sortBy == Some(sortBy) && current.sortOrder == Some("desc") then "asc" else "desc";
    current.(sortBy := Some(sortBy), sortOrder := Some(order), page := Some(1))
  }

  /** Choosing the same field again flips the order, so clicks alternate between the two orders. */
  lemma SortChangeAlternates(current: TaskFilters, sortBy: string)
    ensures OnSortChange(OnSortChange(current, sortBy), sortBy).sortOrder != OnSortChange(current, sortBy).sortOrder
    ensures OnSortChange(OnSortChange(OnSortChange(current, sortBy), sortBy), sortBy) == OnSortChange(current, sortBy)
  {
  }

  /** `onPageChange`: only the page changes. */
  function OnPageChange(current: TaskFilters, page: int): (r: TaskFilters)
    ensures r.page == Some(page)
    ensures r.(page := current.page) == current
  {
    current.(page := Some(page))
  }

  /** `showAllTasks`, `showActiveTasks` and `showCompletedTasks`: the completion filter set to
      absent, false or true, back to page 1. */
  function QuickFilter(current: TaskFilters, completed: Option<bool>): (r: TaskFilters)
    ensures completed.None? ==> r.completed.None?
    ensures completed.Some? ==> r.completed == Some(Some(completed.value))
    ensures r.page == Some(1)
    ensures r.(completed := current.completed, page := current.page) == current
  {
    current.(completed := if completed.Some? then Some(completed) else None, page := Some(1))
  }

  /** `activeTasks`: the loaded tasks still open, in order. */
  function ActiveTasks(ts: seq<WebTask>): (r: seq<WebTask>)
    ensures forall t :: t in r ==> t in ts && !t.completed
    ensures |r| <= |ts|
  {
    if |ts| == 0 then []
    else (if ts[0].completed then [] else [ts[0]]) + ActiveTasks(ts[1..])
  }

  /** `completedTasks`: the loaded tasks that are done, in order. */
  function CompletedTasks(ts: seq<WebTask>): (r: seq<WebTask>)
    ensures forall t :: t in r ==> t in ts && t.completed
    ensures |r| <= |ts|
  {
    if |ts| == 0 then []
    else (if ts[0].completed then [ts[0]] else []) + CompletedTasks(ts[1..])
  }

  /** The active list keeps the page's order: the active tasks of a concatenation are those of
      each part, one after the other. */
  lemma {:induction false} ActiveKeepsOrder(a: seq<WebTask>, b: seq<WebTask>)
    ensures ActiveTasks(a + b) == ActiveTasks(a) + ActiveTasks(b)
  {
    if |a| == 0 {
      assert a + b == b;
    } else {
      var h := if a[0].completed then [] else [a[0]];
      ActiveKeepsOrder(a[1..], b);
      HeadSplit(a, b);
      SplitCons(a[0], a[1..] + b);
      SplitCons(a[0], a[1..]);
      ConcatAssoc(h, ActiveTasks(a[1..]), ActiveTasks(b));
    }
  }

  /** The completed list keeps the page's order in the same way. */
  lemma {:induction false} CompletedKeepsOrder(a: seq<WebTask>, b: seq<WebTask>)
    ensures CompletedTasks(a + b) == CompletedTasks(a) + CompletedTasks(b)
  {
    if |a| == 0 {
      assert a + b == b;
    } else {
      var h := if a[0].completed then [a[0]] else [];
      CompletedKeepsOrder(a[1..], b);
      HeadSplit(a, b);
      SplitCons(a[0], a[1..] + b);
      SplitCons(a[0], a[1..]);
      ConcatAssoc(h, CompletedTasks(a[1..]), CompletedTasks(b));
    }
  }

  /** Both lists of a sequence with a given head. */
  lemma SplitCons(y: WebTask, s: seq<WebTask>)
    ensures ActiveTasks([y] + s) == (if y.completed then [] else [y]) + ActiveTasks(s)
    ensures CompletedTasks([y] + s) == (if y.completed then [y] else []) + CompletedTasks(s)
  {
    assert ([y] + s)[0] == y && ([y] + s)[1..] == s;
  }

  lemma HeadSplit<T>(a: seq<T>, b: seq<T>)
    requires |a| > 0
    ensures a == [a[0]] + a[1..] && a + b == [a[0]] + (a[1..] + b)
  {
  }

  lemma ConcatAssoc<T>(x: seq<T>, y: seq<T>, z: seq<T>)
    ensures x + (y + z) == (x + y) + z
  {
  }

  /** The two lists split the loaded tasks: together they hold every task exactly as often as
      the page does. */
  lemma {:induction false} ActiveCompletedPartition(ts: seq<WebTask>)
    ensures multiset(ActiveTasks(ts)) + multiset(CompletedTasks(ts)) == multiset(ts)
    ensures |ActiveTasks(ts)| + |CompletedTasks(ts)| == |ts|
  {
    if |ts| > 0 {
      var rest := ts[1..];
      ActiveCompletedPartition(rest);
      var ha := if ts[0].completed then [] else [ts[0]];
      var hc := if ts[0].completed then [ts[0]] else [];
      assert ts == [ts[0]] + rest;
      SplitStep(ts[0], rest, ha, hc, ActiveTasks(rest), CompletedTasks(rest));
    }
  }

  /** Sending one more element to one side of a split keeps it a split. */
  lemma SplitStep<T>(x: T, rest: seq<T>, ha: seq<T>, hc: seq<T>, a: seq<T>, c: seq<T>)
    requires multiset(a) + multiset(c) == multiset(rest) && |a| + |c| == |rest|
    requires (ha == [x] && hc == []) || (ha == [] && hc == [x])
    ensures multiset(ha + a) + multiset(hc + c) == multiset([x] + rest)
    ensures |ha + a| + |hc + c| == |[x] + rest|
  {
  }

  /** The page's own `completionPercentage` over the statistics record: the figure the
      statistics panel shows. */
  function CompletionPercentage(s: TaskStatsView.Stats): (r: int)
    ensures r == TaskStatsView.CompletionPercentage(s)
    ensures s.completedTasks <= s.totalTasks ==> 0 <= r <= 100
  {
    if s.totalTasks > 0 then JsMath.Round((s.completedTasks as real / s.totalTasks as real) * 100.0) else 0
  }

  /** Statistics that describe the loaded tasks read 100 when none is active and 0 when none
      is completed. */
  lemma SplitPercentage(ts: seq<WebTask>)
    ensures var s := TaskStatsView.Stats(|ts|, |CompletedTasks(ts)|, 0, 0);
      && (|ts| > 0 && ActiveTasks(ts) == [] ==> CompletionPercentage(s) == 100)
      && (CompletedTasks(ts) == [] ==> CompletionPercentage(s) == 0)
  {
    ActiveCompletedPartition(ts);
  }

  /** The completion filter as the server applies it; an absent or `null` member is not sent. */
  predicate MatchesCompleted(t: WebTask, completed: Option<Option<bool>>) {
    completed.None? || completed.value.None? || t.completed == completed.value.value
  }

  /** The quick filters ask the server for what the page's own split shows. */
  lemma QuickFiltersMatchSplit(ts: seq<WebTask>, current: TaskFilters, t: WebTask)
    ensures t in ActiveTasks(ts) <==> t in ts && MatchesCompleted(t, QuickFilter(current, Some(false)).completed)
    ensures t in CompletedTasks(ts) <==> t in ts && MatchesCompleted(t, QuickFilter(current, Some(true)).completed)
    ensures MatchesCompleted(t, QuickFilter(current, None).completed)
  {
    ActiveCompletedPartition(ts);
    if t in ts {
      assert multiset(ts)[t] > 0;
    }
  }

  /** What a save of the task form turns into. */
  datatype Dispatch<P> = UpdateTask(id: string, payload: P) | CreateTask(payload: P)

  /** `onTaskFormSave`: an update when the task being edited has an id, otherwise a create. */
  function SaveDispatch<P>(editing: Option<WebTask>, payload: P): (r: Dispatch<P>)
    ensures r.UpdateTask? <==> editing.Some? && editing.value.id.Some? && editing.value.id.value != ""
    ensures r.UpdateTask? ==> r.id == editing.value.id.value
    ensures r.payload == payload
  {
    if editing.Some? && editing.value.id.Some? && editing.value.id.value != "" then
      UpdateTask(editing.value.id.value, payload)
    else CreateTask(payload)
  }
}

=== FILE: task_model.dfy ===
/**
 * The backend task document: its field rules and defaults, the pre-save hook that keeps
 * `completedAt` in step with `completed`, the `isOverdue` and `daysUntilDeadline` virtuals,
 * and the counters of the per-user statistics.
 */
module TaskModel {
  import opened Wrappers
  import opened JsMath
  import opened JsText

  /** Milliseconds since the epoch. */
  type Time = int

  datatype Category = Personal | Work | Health | Education | OtherCategory
  datatype Priority = Low | Medium | High

  /** The stored spelling of a category. */
  function CategoryName(c: Category): string {
    match c
    case Personal => "personal"
    case Work => "work"
    case Health => "health"
    case Education => "education"
    case OtherCategory => "other"
  }

  /** The enum validator for categories: only the five stored spellings are accepted. */
  function ParseCategory(s: string): (r: Option<Category>)
    ensures r.Some? ==> CategoryName(r.value) == s
    ensures r.None? ==> forall c :: CategoryName(c) != s
  {
    if s == "personal" then Some(Personal)
    else if s == "work" then Some(Work)
    else if s == "health" then Some(Health)
    else if s == "education" then Some(Education)
    else if s == "other" then Some(OtherCategory)
    else None
  }

  lemma CategoryRoundTrip(c: Category)
    ensures ParseCategory(CategoryName(c)) == Some(c)
  {
  }

  function PriorityName(p: Priority): string {
    match p
    case Low => "low"
    case Medium => "medium"
    case High => "high"
  }

  /** The enum validator for priorities. */
  function ParsePriority(s: string): (r: Option<Priority>)
    ensures r.Some? ==> PriorityName(r.value) == s
    ensures r.None? ==> forall p :: PriorityName(p) != s
  {
    if s == "low" then Some(Low)
    else if s == "medium" then Some(Medium)
    else if s == "high" then Some(High)
    else None
  }

  lemma PriorityRoundTrip(p: Priority)
    ensures ParsePriority(PriorityName(p)) == Some(p)
  {
  }

  datatype Task = Task(
    title: string,
    description: Option<string>,
    completed: bool,
    category: Category,
    priority: Priority,
    deadline: Option<Time>,
    userId: string,
    completedAt: Option<Time>)

  /** The fields a new task may be given; absent ones take the schema defaults. */
  datatype TaskInput = TaskInput(
    title: string,
    description: Option<string>,
    completed: Option<bool>,
    category: Option<Category>,
    priority: Option<Priority>,
    deadline: Option<Time>)

  const MaxTitleLength: nat := 200
  const MaxDescriptionLength: nat := 1000

  /** `new Task(data)`: the `trim` setters and the defaults `completed = false`,
      `category = personal`, `priority = medium`. */
  function NewTask(input: TaskInput, userId: string): (t: Task)
    ensures t.title == Trim(input.title) && Trimmed(t.title)
    ensures t.completed == input.completed.GetOr(false)
    ensures t.category == input.category.GetOr(Personal)
    ensures t.priority == input.priority.GetOr(Medium)
    ensures t.deadline == input.deadline && t.userId == userId && t.completedAt.None?
  {
    Task(Trim(input.title),
         if input.description.Some? then Some(Trim(input.description.value)) else None,
         input.completed.GetOr(false),
         input.category.GetOr(Personal),
         input.priority.GetOr(Medium),
         input.deadline,
         userId,
         None)
  }

  /** The deadline validator: no deadline, or one not before the current instant. */
  predicate DeadlineAccepted(deadline: Option<Time>, now: Time) {
    deadline.None? || deadline.value >= now
  }

  datatype TaskError = TitleRequired | TitleTooLong | DescriptionTooLong | DeadlineInPast | OwnerRequired

  predicate ValidTask(t: Task, now: Time) {
    && t.title != "" && |t.title| <= MaxTitleLength
    && (t.description.Some? ==> |t.description.value| <= MaxDescriptionLength)
    && DeadlineAccepted(t.deadline, now)
    && t.userId != ""
  }

  /** Whether the task breaks the validator that reports `x`. */
  predicate Broken(t: Task, now: Time, x: TaskError) {
    match x
    case TitleRequired => t.title == ""
    case TitleTooLong => |t.title| > MaxTitleLength
    case DescriptionTooLong => t.description.Some? && |t.description.value| > MaxDescriptionLength
    case DeadlineInPast => !DeadlineAccepted(t.deadline, now)
    case OwnerRequired => t.userId == ""
  }

  /** The validators in the order the schema declares them. */
  const AllErrors: seq<TaskError> := [TitleRequired, TitleTooLong, DescriptionTooLong, DeadlineInPast, OwnerRequired]

  /** Every error kind is in the list. */
  lemma AllErrorsListed()
    ensures forall x :: x in AllErrors
  {
    forall x: TaskError
      ensures x in AllErrors
    {
      match x
      case TitleRequired => assert x == AllErrors[0];
      case TitleTooLong => assert x == AllErrors[1];
      case DescriptionTooLong => assert x == AllErrors[2];
      case DeadlineInPast => assert x == AllErrors[3];
      case OwnerRequired => assert x == AllErrors[4];
    }
  }

  /** The kinds in `kinds` whose validator the task fails, in order. */
  function Collect(kinds: seq<TaskError>, t: Task, now: Time): (r: seq<TaskError>)
    ensures forall x :: x in r <==> x in kinds && Broken(t, now, x)
    ensures r == [] <==> forall x :: x in kinds ==> !Broken(t, now, x)
    ensures Distinct(kinds) ==> Distinct(r)
  {
    if |kinds| == 0 then []
    else
      assert Distinct(kinds) ==> kinds[0] !in kinds[1..];
      (if Broken(t, now, kinds[0]) then [kinds[0]] else []) + Collect(kinds[1..], t, now)
  }

  /** The schema validators of a new task, each failing one reported once by its own error;
      none exactly when the task is valid. */
  function Validate(t: Task, now: Time): (errs: seq<TaskError>)
    ensures forall x :: x in errs <==> Broken(t, now, x)
    ensures Distinct(errs)
    ensures errs == [] <==> ValidTask(t, now)
  {
    AllErrorsListed();
    ValidIffNothingBroken(t, now);
    assert Distinct(AllErrors);
    Collect(AllErrors, t, now)
  }

  lemma ValidIffNothingBroken(t: Task, now: Time)
    ensures ValidTask(t, now) <==> forall x :: !Broken(t, now, x)
  {
    if ValidTask(t, now) {
      forall x: TaskError
        ensures !Broken(t, now, x)
      {
      }
    } else {
      var x :=
        if t.title == "" then TitleRequired
        else if |t.title| > MaxTitleLength then TitleTooLong
        else if t.description.Some? && |t.description.value| > MaxDescriptionLength then DescriptionTooLong
        else if !DeadlineAccepted(t.deadline, now) then DeadlineInPast
        else OwnerRequired;
      assert Broken(t, now, x);
    }
  }

  /** The pre-save hook: a completed task without a completion time gets `now`, an existing one
      is kept, and a pending task loses it. */
  function StampCompletion(t: Task, now: Time): (r: Task)
    ensures r.completed == t.completed
    ensures r.completed <==> r.completedAt.Some?
    ensures t.completed && t.completedAt.Some? ==> r.completedAt == t.completedAt
    ensures t.completed && t.completedAt.None? ==> r.completedAt == Some(now)
    ensures r == t.(completedAt := r.completedAt)
  {
    if t.completed && t.completedAt.None? then t.(completedAt := Some(now))
    else if !t.completed then t.(completedAt := None)
    else t
  }

  /** Saving twice stamps once: the second save keeps the first completion time. */
  lemma StampCompletionIdempotent(t: Task, t1: Time, t2: Time)
    ensures StampCompletion(StampCompletion(t, t1), t2) == StampCompletion(t, t1)
  {
  }

  /** `isOverdue`: a pending task whose deadline has passed. */
  function IsOverdue(t: Task, now: Time): (r: bool)
    ensures r <==> t.deadline.Some? && !t.completed && now > t.deadline.value
  {
    if t.deadline.None? || t.completed then false else now > t.deadline.value
  }

  /** `daysUntilDeadline`: the remaining time in days, rounded up; none without a deadline or once completed. */
  function DaysUntilDeadline(t: Task, now: Time): (r: Option<int>)
    ensures r.None? <==> t.deadline.None? || t.completed
    ensures r.Some? ==> DayMs * (r.value - 1) < t.deadline.value - now <= DayMs * r.value
  {
    if t.deadline.None? || t.completed then None
    else Some(CeilDiv(t.deadline.value - now, DayMs))
  }

  /** The two virtuals agree: a negative day count means overdue, an overdue task has no days
      left, and a task with days left is not overdue. */
  lemma OverdueAgreesWithDays(t: Task, now: Time)
    requires DaysUntilDeadline(t, now).Some?
    ensures DaysUntilDeadline(t, now).value < 0 ==> IsOverdue(t, now)
    ensures IsOverdue(t, now) ==> DaysUntilDeadline(t, now).value <= 0
    ensures DaysUntilDeadline(t, now).value >= 1 ==> !IsOverdue(t, now)
  {
  }

  // ---------------------------------------------------------------------------
  // Statistics

  /** The counters of `getUserStats`. */
  datatype TaskStats = TaskStats(totalTasks: nat, completedTasks: nat, overdueTasks: nat, dueTodayTasks: nat)

  const NoTaskStats := TaskStats(0, 0, 0, 0)

  function CountCompleted(ts: seq<Task>): (n: nat)
    ensures n <= |ts|
  {
    if |ts| == 0 then 0 else CountCompleted(ts[..|ts| - 1]) + (if ts[|ts| - 1].completed then 1 else 0)
  }

  /** Pending tasks whose deadline is before `now`. */
  function CountOverdue(ts: seq<Task>, now: Time): (n: nat)
    ensures n <= |ts|
  {
    if |ts| == 0 then 0
    else
      var t := ts[|ts| - 1];
      CountOverdue(ts[..|ts| - 1], now) + (if t.deadline.Some? && !t.completed && t.deadline.value < now then 1 else 0)
  }

  /** Pending tasks created without a deadline. */
  function CountUndatedPending(ts: seq<Task>): (n: nat)
    ensures n <= |ts|
  {
    if |ts| == 0 then 0
    else
      var t := ts[|ts| - 1];
      CountUndatedPending(ts[..|ts| - 1]) + (if t.deadline.None? && !t.completed then 1 else 0)
  }

  /** The overdue test of the pipeline as written. `createTask` stores a task without a deadline
      with no `deadline` field at all, and the aggregation compares a missing field as unequal
      to `null` and below every date, so both of its tests pass for such a task. */
  function CountOverdueAsWritten(ts: seq<Task>, now: Time): (n: nat)
    ensures n <= |ts|
  {
    if |ts| == 0 then 0
    else
      var t := ts[|ts| - 1];
      CountOverdueAsWritten(ts[..|ts| - 1], now)
        + (if !t.completed && (t.deadline.None? || t.deadline.value < now) then 1 else 0)
  }

  /** As written, the overdue counter also counts every pending task without a deadline. */
  lemma {:induction false} OverdueAsWrittenCountsUndated(ts: seq<Task>, now: Time)
    ensures CountOverdueAsWritten(ts, now) == CountOverdue(ts, now) + CountUndatedPending(ts)
  {
    if |ts| > 0 {
      OverdueAsWrittenCountsUndated(ts[..|ts| - 1], now);
    }
  }

  /** One pending task without a deadline is overdue for the pipeline as written, and not for
      the corrected count nor for the `isOverdue` virtual. */
  lemma UndatedTaskCountedOverdue(t: Task, now: Time)
    requires t.deadline.None? && !t.completed
    ensures CountOverdueAsWritten([t], now) == 1
    ensures CountOverdue([t], now) == 0 && !IsOverdue(t, now)
  {
    assert [t][..0] == [];
  }

  /** The corrected overdue count agrees with the `isOverdue` virtual: appending a task adds one
      exactly when that task is overdue. */
  lemma CountOverdueFollowsVirtual(ts: seq<Task>, t: Task, now: Time)
    ensures CountOverdue(ts + [t], now) == CountOverdue(ts, now) + (if IsOverdue(t, now) then 1 else 0)
  {
    assert (ts + [t])[..|ts|] == ts;
  }

  /** Pending tasks whose deadline lies in `[dayStart, dayEnd)`, the local day of `now`. */
  function CountDueToday(ts: seq<Task>, dayStart: Time, dayEnd: Time): (n: nat)
    ensures n <= |ts|
  {
    if |ts| == 0 then 0
    else
      var t := ts[|ts| - 1];
      CountDueToday(ts[..|ts| - 1], dayStart, dayEnd)
        + (if t.deadline.Some? && !t.completed && dayStart <= t.deadline.value < dayEnd then 1 else 0)
  }

  /** The statistics record with the corrected overdue count (see `StatsAsWritten` for the
      pipeline's own), and the all-zero record for a user without tasks. */
  function StatsOf(ts: seq<Task>, now: Time, dayStart: Time, dayEnd: Time): (s: TaskStats)
    ensures |ts| == 0 ==> s == NoTaskStats
    ensures s.totalTasks == |ts|
    ensures s.completedTasks == CountCompleted(ts) && s.overdueTasks == CountOverdue(ts, now)
    ensures s.dueTodayTasks == CountDueToday(ts, dayStart, dayEnd)
    ensures s.completedTasks + s.overdueTasks <= s.totalTasks
  {
    CompletedPlusOverdue(ts, now);
    if |ts| == 0 then NoTaskStats
    else TaskStats(|ts|, CountCompleted(ts), CountOverdue(ts, now), CountDueToday(ts, dayStart, dayEnd))
  }

  /** Overdue tasks are pending: completed and overdue together never exceed the total. */
  lemma {:induction false} CompletedPlusOverdue(ts: seq<Task>, now: Time)
    ensures CountCompleted(ts) + CountOverdue(ts, now) <= |ts|
  {
    if |ts| > 0 {
      CompletedPlusOverdue(ts[..|ts| - 1], now);
    }
  }

  /** The record the statistics pipeline produces as written: its overdue field also counts the
      pending tasks without a deadline; every other field is that of `StatsOf`. */
  function StatsAsWritten(ts: seq<Task>, now: Time, dayStart: Time, dayEnd: Time): (s: TaskStats)
    ensures var c := StatsOf(ts, now, dayStart, dayEnd);
      && s == c.(overdueTasks := s.overdueTasks)
      && s.overdueTasks == c.overdueTasks + CountUndatedPending(ts)
    ensures s.completedTasks + s.overdueTasks <= s.totalTasks
  {
    OverdueAsWrittenCountsUndated(ts, now);
    CompletedPlusOverdueAsWritten(ts, now);
    if |ts| == 0 then NoTaskStats
    else TaskStats(|ts|, CountCompleted(ts), CountOverdueAsWritten(ts, now), CountDueToday(ts, dayStart, dayEnd))
  }

  /** The pipeline's overdue test also requires a pending task, so even as written completed
      and overdue together never exceed the total. */
  lemma {:induction false} CompletedPlusOverdueAsWritten(ts: seq<Task>, now: Time)
    ensures CountCompleted(ts) + CountOverdueAsWritten(ts, now) <= |ts|
  {
    if |ts| > 0 {
      CompletedPlusOverdueAsWritten(ts[..|ts| - 1], now);
    }
  }
}

=== FILE: task_stats_view.dfy ===
/**
 * The task statistics panel: completion percentage, progress colour and status text, and the
 * urgent-task alert.
 */
module TaskStatsView {
  import opened JsMath
  import opened JsText

  /** The counters the panel displays. */
  datatype Stats = Stats(totalTasks: nat, completedTasks: nat, overdueTasks: nat, dueTodayTasks: nat)

  /** `completionPercentage`: zero without tasks, otherwise the rounded share of completed ones. */
  function CompletionPercentage(s: Stats): (r: int)
    ensures s.totalTasks == 0 ==> r == 0
    ensures s.totalTasks > 0 ==> r == Round((s.completedTasks as real / s.totalTasks as real) * 100.0)
    ensures s.completedTasks <= s.totalTasks ==> 0 <= r <= 100
  {
    Percent(s.completedTasks, s.totalTasks)
  }

  /** `activeTasks`. */
  function ActiveTasks(s: Stats): (r: int)
    ensures r + s.completedTasks == s.totalTasks
  {
    s.totalTasks - s.completedTasks
  }

  /** The four bands shared by the colour and the status text. */
  datatype Band = Excellent | Good | Fair | Low

  function BandOf(percent: int): (b: Band)
    ensures b == Excellent <==> percent >= 80
    ensures b == Good <==> 60 <= percent < 80
    ensures b == Fair <==> 40 <= percent < 60
    ensures b == Low <==> percent < 40
  {
    if percent >= 80 then Excellent else if percent >= 60 then Good else if percent >= 40 then Fair else Low
  }

  /** A higher percentage never falls into a lower band. */
  lemma BandMonotone(p: int, q: int)
    requires p <= q
    ensures BandRank(BandOf(p)) <= BandRank(BandOf(q))
  {
  }

  function BandRank(b: Band): nat {
    match b
    case Low => 0
    case Fair => 1
    case Good => 2
    case Excellent => 3
  }

  /** `progressBarColor`. */
  function ProgressBarColor(s: Stats): (r: string)
    ensures CompletionPercentage(s) >= 80 ==> r == "#10b981"
    ensures 60 <= CompletionPercentage(s) < 80 ==> r == "#f59e0b"
    ensures 40 <= CompletionPercentage(s) < 60 ==> r == "#f97316"
    ensures CompletionPercentage(s) < 40 ==> r == "#ef4444"
  {
    match BandOf(CompletionPercentage(s))
    case Excellent => "#10b981"
    case Good => "#f59e0b"
    case Fair => "#f97316"
    case Low => "#ef4444"
  }

  /** `productivityStatus`: the no-task text comes before any band. */
  function ProductivityStatus(s: Stats): (r: string)
    ensures s.totalTasks == 0 <==> r == "No tasks yet"
    ensures s.totalTasks > 0 && CompletionPercentage(s) >= 80 ==> r == "Excellent progress! \U{1F389}"
    ensures s.totalTasks > 0 && 60 <= CompletionPercentage(s) < 80 ==> r == "Good progress! \U{1F44D}"
    ensures s.totalTasks > 0 && 40 <= CompletionPercentage(s) < 60 ==> r == "Keep it up! \U{1F4AA}"
    ensures s.totalTasks > 0 && CompletionPercentage(s) < 40 ==> r == "Let's get started! \U{1F680}"
  {
    if s.totalTasks == 0 then "No tasks yet"
    else
      match BandOf(CompletionPercentage(s))
      case Excellent => "Excellent progress! \U{1F389}"
      case Good => "Good progress! \U{1F44D}"
      case Fair => "Keep it up! \U{1F4AA}"
      case Low => "Let's get started! \U{1F680}"
  }

  /** Without tasks the bar is red although the status names no band. */
  lemma EmptyStatsShowRed(s: Stats)
    requires s.totalTasks == 0
    ensures ProgressBarColor(s) == "#ef4444" && ProductivityStatus(s) == "No tasks yet"
  {
  }

  /** `urgentTasksCount`. */
  function UrgentTasksCount(s: Stats): (r: nat)
    ensures r >= s.overdueTasks && r >= s.dueTodayTasks
    ensures r - s.overdueTasks == s.dueTodayTasks
    ensures r == 0 <==> s.overdueTasks == 0 && s.dueTodayTasks == 0
  {
    s.overdueTasks + s.dueTodayTasks
  }

  /** `showUrgentAlert`. */
  predicate ShowUrgentAlert(s: Stats)
    ensures ShowUrgentAlert(s) <==> s.overdueTasks > 0 || s.dueTodayTasks > 0
  {
    UrgentTasksCount(s) > 0
  }

  /** `urgentAlertText`: both counts, the overdue count alone with its plural, the due-today
      count alone, or nothing. */
  function UrgentAlertText(s: Stats): (r: string)
    ensures s.overdueTasks > 0 && s.dueTodayTasks > 0 ==>
      r == NatToString(s.overdueTasks) + " overdue, " + NatToString(s.dueTodayTasks) + " due today"
    ensures s.overdueTasks > 0 && s.dueTodayTasks == 0 ==>
      r == NatToString(s.overdueTasks) + " overdue task" + (if s.overdueTasks > 1 then "s" else "")
    ensures s.overdueTasks == 0 && s.dueTodayTasks > 0 ==> r == NatToString(s.dueTodayTasks) + " due today"
  {
    if s.overdueTasks > 0 && s.dueTodayTasks > 0 then
      NatToString(s.overdueTasks) + " overdue, " + NatToString(s.dueTodayTasks) + " due today"
    else if s.overdueTasks > 0 then
      NatToString(s.overdueTasks) + " overdue task" + (if s.overdueTasks > 1 then "s" else "")
    else if s.dueTodayTasks > 0 then
      NatToString(s.dueTodayTasks) + " due today"
    else ""
  }

  /** The alert has text exactly when it is shown. */
  lemma AlertTextIffShown(s: Stats)
    ensures UrgentAlertText(s) != "" <==> ShowUrgentAlert(s)
  {
  }
}

=== FILE: web_task_types.dfy ===
/**
 * The task shapes the Angular task module works with: the task as the client sees it, the
 * filter record sent to the server, and the category and priority tables.
 */
module WebTaskTypes {
  import opened Wrappers

  type Time = int

  /** A task as received from the server; the optional members may be missing. Category and
      priority are the strings the server sent. */
  datatype WebTask = WebTask(
    id: Option<string>,
    title: string,
    description: Option<string>,
    completed: bool,
    category: string,
    priority: string,
    deadline: Option<Time>,
    createdAt: Option<Time>)

  /** The query filters; `None` is a member that is absent or `undefined`. The two flags can also
      be `null`, written `Some(None)`; the task service sends neither `undefined` nor `null`
      members to the server. Dates are kept as the text the date inputs hold. */
  datatype TaskFilters = TaskFilters(
    search: Option<string>,
    completed: Option<Option<bool>>,
    category: Option<string>,
    priority: Option<string>,
    sortBy: Option<string>,
    sortOrder: Option<string>,
    page: Option<int>,
    limit: Option<int>,
    hasDeadline: Option<Option<bool>>,
    isOverdue: Option<bool>,
    dueDateStart: Option<string>,
    dueDateEnd: Option<string>)

  const NoFilters := TaskFilters(None, None, None, None, None, None, None, None, None, None, None, None)

  /** One row of a value/name/colour table. */
  datatype Choice = Choice(value: string, name: string, color: string)

  const TaskCategories: seq<Choice> := [
    Choice("personal", "Personal", "#3b82f6"),
    Choice("work", "Work", "#8b5cf6"),
    Choice("health", "Health", "#10b981"),
    Choice("education", "Education", "#f59e0b"),
    Choice("other", "Other", "#6b7280")
  ]

  const TaskPriorities: seq<Choice> := [
    Choice("low", "Low", "#10b981"),
    Choice("medium", "Medium", "#f59e0b"),
    Choice("high", "High", "#ef4444")
  ]

  /** `table.find(c => c.value === value)`. */
  function FindChoice(table: seq<Choice>, value: string): (r: Option<Choice>)
    ensures r.Some? ==> r.value in table && r.value.value == value
    ensures r.None? <==> forall i :: 0 <= i < |table| ==> table[i].value != value
  {
    if |table| == 0 then None
    else if table[0].value == value then Some(table[0])
    else
      var r := FindChoice(table[1..], value);
      assert forall i :: 1 <= i < |table| ==> table[i] == table[1..][i - 1];
      r
  }
}

=== FILE: wrappers.dfy ===
/** Optional values, success/failure results and a distinctness predicate shared by every module. */
module Wrappers {

  /** A value that may be absent: JavaScript's `undefined` (or a missing key) is `None`. */
  datatype Option<+T> = None | Some(value: T) {

    /** The wrapped value, or `default` when absent (JavaScript's `x ?? default`). */
    function GetOr(default: T): T {
      match this
      case Some(v) => v
      case None => default
    }
  }

  /** The outcome of an operation that can be rejected with an error value. */
  datatype Result<+R, +E> = Success(value: R) | Failure(error: E)

  /** No member occurs twice. */
  predicate Distinct<T(==)>(xs: seq<T>) {
    forall i, j :: 0 <= i < j < |xs| ==> xs[i] != xs[j]
  }
}
